=== FILE: README.md ===
# Cake pricing core in Dafny

This project models the computational core of a cake-pricing web
application and proves properties about that model. A baker enters:

- the ingredients of a batch, with their costs;
- additional costs, each allocated either to the whole batch or to every cake;
- the number of cakes in the batch;
- a profit setting, either a percentage markup or a fixed amount per cake.

The application then computes a per-cake breakdown and a selling price.
Around that core sit the following parts, all of which are modelled:

- unit conversion and pro-rated cost from an ingredient catalogue;
- amortisation of equipment and monthly overhead into a per-batch figure;
- the saved-profile store: id slugs, listing newest first, save-in-place or
  prepend, delete, database-row mapping and the merge of pulled profiles;
- the list handlers of the editor page;
- the quantity parser and scaler of the ingredients calculator;
- the password cookie and the access gate in front of every page.

Everything is pure. Money is `real`. A JavaScript number that the code tests
with `isFinite` or `||` is a `Num` (`Finite(v) | NaN | PosInf | NegInf`).
Lists are `seq`. The things the code gets from the outside world are
parameters:

- the clock;
- the random part of ids;
- `decodeURIComponent`;
- the cookie jar Next.js hands the gate.

| file | module | models |
|---|---|---|
| wrappers.dfy | Wrappers | `Option` |
| numbers.dfy | Numbers | JavaScript numbers, the logical-or default on numbers, `Math.max/min`, the cake count |
| types.dfy | Types | `src/types.ts`: allocation type, profit mode, ingredient, additional cost, pricing inputs, breakdown |
| text.dfy | Text | `trim`, `toLowerCase`, `indexOf`, `split`/`join` on one character, string `<`, decimal rendering |
| keyed_lists.dfy | KeyedLists | `findIndex`, `filter` and `map` by id over records with string ids |
| calculations.dfy | Calculations | `src/utils/calculations.ts` |
| catalog.dfy | IngredientsCatalog | `normalizeToBaseUnit`, `computeCostForUsage` |
| business_costs.dfy | BusinessCosts | equipment and overhead amortisation and their sum |
| profiles.dfy | Profiles | the profile store logic of `src/utils/profiles.ts` |
| editor.dfy | Editor | the state handlers of `src/app/page.tsx` |
| quantity.dfy | Quantity | `parseAmountAndUnit`, the precision of `formatQuantity`, per-cake scaling |
| auth.dfy | Auth | `src/lib/auth.ts` |
| middleware.dfy | Middleware | `middleware.ts` |

The editor page loads an amortised per-batch business cost (equipment plus
overhead). It lists that cost among the memo's dependencies
(src/app/page.tsx:105) and labels it "Business Costs per batch auto-applied"
(src/app/page.tsx:277). Yet it passes the cost as a second argument to
`calculateBreakdown`, which declares one parameter
(src/utils/calculations.ts:18), so the cost never reaches the price.
`Calculations.CalculateBreakdown` ignores it, as the code does. The intended
behaviour is `Calculations.CalculateBreakdownWithExtra`; see "Findings".

## Model

| member | source | states |
|---|---|---|
| Numbers.Or | src/utils/calculations.ts:19-22 | a truthy number is kept; the result is never NaN and is either truthy or the default; a non-zero default always gives a truthy number |
| Numbers.OptOr | src/app/page.tsx:157 | a present truthy number is kept; the result is never NaN and is either truthy or the default; a non-zero default always gives a truthy number |
| Numbers.OrIdempotent | src/utils/calculations.ts:20 | applying the default twice is applying it once |
| Numbers.OptOrFalsy | src/app/page.tsx:157 | an absent, zero or NaN number gives exactly the default |
| Numbers.OptOrIdempotent | src/app/page.tsx:157 | applying the optional default to its own result changes nothing |
| Numbers.CakeCount | src/utils/calculations.ts:19 | the effective cake count is at least 1; every count below 2 (zero, negative, fractional) acts as 1; from 1 up it is the whole part of the count |
| Numbers.CakeCountMonotone | src/utils/calculations.ts:19 | a larger entered count never gives fewer cakes |
| Numbers.CakeCountIdempotent | src/components/IngredientsCalculator.tsx:56 | clamping an already clamped count changes nothing |
| Numbers.Quotient | src/utils/calculations.ts:28-29 | a non-negative amount shared over a positive count is non-negative, and the shares multiply back to the amount |
| Calculations.SumIngredients | src/utils/calculations.ts:3-5 | the ingredient total is non-negative when every finite cost is |
| Calculations.SumIngredientsIsSumOfFiniteCosts | src/utils/calculations.ts:3-5 | the total is exactly the sum of the finite costs: non-finite costs add nothing |
| Calculations.SumIngredientsUpdate | src/utils/calculations.ts:3-5 | changing one ingredient moves the total by exactly the change in its finite cost |
| Calculations.OfType | src/utils/calculations.ts:9 | an item is kept exactly when it is in the list and has the requested allocation type |
| Calculations.SumAmounts | src/utils/calculations.ts:10 | the total of finite amounts is non-negative when the amounts are |
| Calculations.SumAdditionalCosts | src/utils/calculations.ts:7-11 | the per-type total is non-negative when the amounts are |
| Calculations.SumAdditionalCostsCons | src/utils/calculations.ts:7-11 | the first item adds its finite amount to its own type's total and nothing to the other's |
| Calculations.SumAdditionalCostsPartition | src/utils/calculations.ts:7-11 | the batch total plus the per-cake total is the sum of all finite amounts: every item counts once, under its own type |
| Calculations.SumAdditionalCostsUpdate | src/utils/calculations.ts:7-11 | changing one item moves a type's total only by what that item contributes to that type |
| Calculations.ClampNumber | src/utils/calculations.ts:13-16 | a non-finite value gives the minimum; a finite value lies within the bounds, and is returned unchanged when already inside them; a maximum below the minimum wins |
| Calculations.ClampNumberIdempotent | src/utils/calculations.ts:13-16 | clamping a clamped value again changes nothing |
| Calculations.EffectivePercentage | src/utils/calculations.ts:20 | the percentage applied lies in [0, 1000] |
| Calculations.EffectiveFixedAmount | src/utils/calculations.ts:22 | the fixed profit applied is never negative |
| Calculations.EffectiveMode | src/utils/calculations.ts:21 | the mode is fixed exactly when the inputs say fixed; a missing mode means percentage |
| Calculations.CalculateBreakdown | src/utils/calculations.ts:18-52 | the totals echo the three raw sums; the ingredient and batch totals are divided over the cake count, while per-cake costs are charged in full; the total cost is their sum; profit is the fixed amount or the percentage of the cost; selling price is cost plus profit |
| Calculations.Assemble | src/utils/calculations.ts:28-51 | the same relations, for given sums and settings |
| Calculations.BreakdownNonNegative | src/utils/calculations.ts:28-37 | when no item cost is negative: 0 <= cost per cake <= selling price, and the profit is never negative |
| Calculations.ConsistentCostUnique | src/utils/calculations.ts:28-31 | the sums and the cake count determine the cost per cake |
| Calculations.TotalCostIgnoresProfit | src/utils/calculations.ts:24-31 | the cost per cake depends only on the items and the cake count, never on the profit settings |
| Calculations.PercentOf | src/utils/calculations.ts:36 | `t * (p / 100)` is the number whose hundredfold is `t * p` |
| Calculations.TotalCostMonotoneInIngredient | src/utils/calculations.ts:24-31 | raising one ingredient's cost never lowers the cost per cake |
| Calculations.TotalCostMonotoneInAdditionalCost | src/utils/calculations.ts:25-31 | raising one additional cost never lowers the cost per cake |
| Calculations.SellingMonotone | src/utils/calculations.ts:33-37 | with the same profit settings, a higher cost per cake never gives a lower selling price |
| Calculations.PerCakeFigures | src/utils/calculations.ts:28-29 | the divided figures are the batch sums over the cake count |
| Calculations.SmallCakeCountActsAsOne | src/utils/calculations.ts:19 | any cake count below 2 prices exactly like one cake |
| Calculations.PercentageCappedAt1000 | src/utils/calculations.ts:20 | a percentage above 1000 prices exactly like 1000 |
| Calculations.ScenarioPercentage | src/utils/calculations.ts:18-52 | 100,000 of ingredients and a 20,000 batch cost over 10 cakes at 50 % markup: 10,000 + 2,000 = 12,000 cost, 6,000 profit, 18,000 price |
| Calculations.ScenarioFixed | src/utils/calculations.ts:33-37 | the same batch with a 5,000 fixed profit sells at 17,000 |
| Calculations.ScenarioPerCakeNotDivided | src/utils/calculations.ts:26-30 | a 3,000 per-cake cost over 5 cakes stays 3,000 per cake |
| Calculations.ScenarioSums | src/utils/calculations.ts:3-11 | the sums of a list with one ingredient and one additional cost |
| Calculations.CalculateBreakdownWithExtra | src/app/page.tsx:92-106 | corrected breakdown: the batch total includes the extra per-batch cost; cost per cake, profit and price are consistent with those totals and the cake count; profit is the clamped fixed amount or the percentage of the cost, by mode |
| Calculations.WithExtraZeroIsBreakdown | src/app/page.tsx:103 | with no extra cost the corrected breakdown is the written one |
| Calculations.ScenarioExtraBatchCost | src/app/page.tsx:92-106 | a 4,000 batch cost plus 1,000 amortised over 5 cakes allocates 1,000 to each cake |
| IngredientsCatalog.NormalizeToBaseUnit | src/utils/ingredientsCatalog.ts:108-123 | the base amount is never negative; the base unit is the unit's dimension (never kg or l); the amount is the clamped amount times 1000 for kg and l, and times 1 otherwise |
| IngredientsCatalog.NormalizeIdempotent | src/utils/ingredientsCatalog.ts:108-123 | normalising a normalised quantity changes nothing |
| IngredientsCatalog.NormalizeLargeUnit | src/utils/ingredientsCatalog.ts:111-118 | `a` kg normalises like `1000 a` g, and `a` l like `1000 a` ml |
| IngredientsCatalog.ComputeCostForUsage | src/utils/ingredientsCatalog.ts:125-134 | the cost is never negative; it is 0 exactly when the usage is not priceable (non-positive or non-finite amount or price, mismatched dimensions, or an empty package); otherwise it is the price pro-rated by used base amount over package base amount |
| IngredientsCatalog.WholePackageCostsPrice | src/utils/ingredientsCatalog.ts:132-133 | using exactly the package quantity costs exactly the package price |
| IngredientsCatalog.UsageCostUnitInvariant | src/utils/ingredientsCatalog.ts:125-134 | the same usage stated in kg or g (l or ml) costs the same |
| IngredientsCatalog.OneKilogramOfThousandGramPackage | src/utils/ingredientsCatalog.ts:125-134 | 1 kg used from a 1000 g package costs the whole price |
| IngredientsCatalog.UsageCostMonotone | src/utils/ingredientsCatalog.ts:132-133 | using more of a priceable package never costs less |
| IngredientsCatalog.ProRatedMonotone | src/utils/ingredientsCatalog.ts:132 | the pro-rated price grows with the used amount |
| BusinessCosts.EquipmentShare | src/utils/businessCosts.ts:209-212 | an item with no positive batch count contributes 0; otherwise its share times its batches is its clamped price |
| BusinessCosts.ComputeEquipmentPerBatch | src/utils/businessCosts.ts:207-214 | the equipment cost per batch is never negative |
| BusinessCosts.EquipmentPerBatchIsSumOfShares | src/utils/businessCosts.ts:207-214 | it is the sum of `max(0, price) / batches` over the items with positive batch counts |
| BusinessCosts.EquipmentPerBatchAppend | src/utils/businessCosts.ts:207-214 | the cost of two lists together is the sum of their costs |
| BusinessCosts.EquipmentIgnoresUnamortisable | src/utils/businessCosts.ts:211 | inserting an item with no positive batch count anywhere leaves the cost unchanged |
| BusinessCosts.TotalMonthly | src/utils/businessCosts.ts:217 | the clamped monthly total is never negative |
| BusinessCosts.BatchesPerMonth | src/utils/businessCosts.ts:218 | the batch count is the whole part of the entered count, and positive exactly when that count is at least 1 |
| BusinessCosts.ComputeOverheadPerBatch | src/utils/businessCosts.ts:216-221 | 0 when there is no whole batch a month; otherwise the monthly total shared over the whole batches; never negative |
| BusinessCosts.OverheadPerBatchAntitone | src/utils/businessCosts.ts:216-221 | producing more batches a month never raises the overhead each batch carries |
| BusinessCosts.CombinedPerBatchCost | src/utils/businessCosts.ts:223-238 | the combined cost is equipment plus overhead, at least each of them; overhead is 0 without business settings |
| Text.Trim | src/components/IngredientsCalculator.tsx:15 | the trim is one contiguous slice of the string, everything before and after that slice is whitespace, and the slice neither starts nor ends with whitespace; a string without whitespace is its own trim |
| Text.TrimOfPadded | src/components/IngredientsCalculator.tsx:15 | whitespace put around a trimmed non-empty string is exactly what trimming removes |
| Text.TrimOfTrimmed | src/components/IngredientsCalculator.tsx:15 | an already trimmed string is its own trim |
| Text.TrimIdempotent | src/components/IngredientsCalculator.tsx:15 | trimming twice is trimming once |
| Text.TrimKeeps | src/components/IngredientsCalculator.tsx:21 | whatever holds of every character of a string holds of every character of its trim |
| Text.ToLowerCase | src/utils/profiles.ts:83 | no ASCII capital survives lower-casing |
| Text.ToLowerCaseAscii | src/utils/profiles.ts:83 | on ASCII text lower-casing keeps the length and maps each character to its ASCII lower case |
| Text.ToLowerCaseKeepsLower | src/utils/profiles.ts:83 | text without a capital that lower-casing changes is left as it is |
| Text.SplitPartsLackSeparator | src/lib/auth.ts:13 | no piece of a split contains the separator |
| Text.SplitFirstPieceBounds | src/lib/auth.ts:15-17 | the first piece is the text up to the first separator, empty exactly when the text is or starts with one; the rest joined back is what follows that separator |
| Text.JoinSplit | src/lib/auth.ts:15-17 | joining the pieces of a split with the separator gives the string back, so every `=` inside a cookie value survives |
| Text.SplitJoin | src/lib/auth.ts:15-17 | splitting a join of separator-free pieces gives the pieces back |
| Text.LexLessTransitive | src/utils/profiles.ts:92 | string order is transitive |
| Text.LexLessTotal | src/utils/profiles.ts:92 | two different strings are ordered one way or the other |
| Text.LexNotLessTransitive | src/utils/profiles.ts:92 | "not less" is transitive, so the newest-first order is a preorder |
| KeyedLists.FindIndex | src/utils/profiles.ts:125 | the first position holding the id, or -1 exactly when no record has it |
| KeyedLists.RemoveById | src/utils/profiles.ts:101 | exactly the records without the id survive; the length is unchanged exactly when none had it |
| KeyedLists.ReplaceById | src/app/page.tsx:67 | exactly the records with the id become the replacement; length and the other records are kept |
| KeyedLists.RemoveByIdAppend | src/utils/profiles.ts:101 | filtering distributes over concatenation, so survivors keep their order |
| KeyedLists.RemoveByIdCount | src/utils/profiles.ts:101 | a record without the id keeps every copy it had, one with the id keeps none |
| KeyedLists.RemoveAbsent | src/app/page.tsx:70 | removing an id nobody has changes nothing |
| KeyedLists.RemoveIdempotent | src/app/page.tsx:70 | removing twice is removing once |
| KeyedLists.RemoveAfterReplace | src/app/page.tsx:67-70 | replacing records of an id and then removing that id is just removing it |
| KeyedLists.ReplaceIdempotent | src/app/page.tsx:67 | replacing twice with the same record is replacing once |
| KeyedLists.FindAfterReplace | src/utils/profiles.ts:125-135 | after a replacement the id is found where it was |
| KeyedLists.FindIndexAfterUpdate | src/utils/profiles.ts:134-135 | overwriting the first record of an id with another of that id keeps it first |
| KeyedLists.ReplaceKeepsIds | src/app/page.tsx:67 | a same-id replacement leaves every id in place |
| KeyedLists.RemoveKeepsDistinct | src/app/page.tsx:70 | filtering keeps ids distinct and non-empty |
| KeyedLists.ConsKeepsIds | src/app/page.tsx:63 | a record with a new non-empty id can go in front of a well-formed list |
| Profiles.KeepSlugChars | src/utils/profiles.ts:85 | the filter is never longer, keeps only slug characters and whitespace, and keeps a string of slug characters whole |
| Profiles.KeepSlugCharsCount | src/utils/profiles.ts:85 | each slug character and whitespace character occurs as often as in the input; every other character is gone |
| Profiles.KeepSlugCharsAppend | src/utils/profiles.ts:85 | filtering distributes over concatenation, so kept characters keep their order |
| Profiles.DashSpaces | src/utils/profiles.ts:86 | on filtered text (slug characters and whitespace) the result holds slug characters only, and is never longer |
| Profiles.DashSpacesLeavesNoSpace | src/utils/profiles.ts:86 | no whitespace survives the dash replacement |
| Profiles.DashSpacesOfNoSpace | src/utils/profiles.ts:86 | text without whitespace is left as it is |
| Profiles.SpaceRunIsOneDash | src/utils/profiles.ts:86 | a run of whitespace between two words turns into exactly one dash |
| Profiles.Slug | src/utils/profiles.ts:81-87 | the slug has at most 50 characters, all from `[a-z0-9-]` |
| Profiles.SlugOfSlug | src/utils/profiles.ts:81-87 | a name that is already a slug is its own slug |
| Profiles.SlugIdempotent | src/utils/profiles.ts:81-87 | slugging a slug changes nothing |
| Profiles.IdHead | src/utils/profiles.ts:88 | the id prefix is a non-empty slug: the name's slug, or "cake" when that is empty |
| Profiles.GenerateId | src/utils/profiles.ts:81-89 | the id is the prefix, a dash and the stamp, and each part can be read back |
| Profiles.GenerateIdInjective | src/utils/profiles.ts:88 | one name at two different stamps gets two different ids |
| Profiles.GenerateIdFallback | src/utils/profiles.ts:88 | a name without slug characters gets `cake-<stamp>` |
| Profiles.InsertNewestFirst | src/utils/profiles.ts:92 | inserting into a newest-first list keeps it newest first and adds exactly one profile |
| Profiles.NotOlderThanAny | src/utils/profiles.ts:92 | a profile not older than the head of a sorted list is not older than any of it |
| Profiles.ListCakeProfiles | src/utils/profiles.ts:91-93 | the listing is ordered newest first by update time and is a permutation of the store |
| Profiles.ListSortedStore | src/utils/profiles.ts:92 | a store already strictly newest first is listed unchanged |
| Profiles.GetCakeProfile | src/utils/profiles.ts:95-97 | absent exactly when no profile has the id; otherwise the first profile with it |
| Profiles.DeleteCakeProfile | src/utils/profiles.ts:99-105 | the store keeps exactly the profiles with another id; it reports true exactly when some profile had the id |
| Profiles.GetAfterDelete | src/utils/profiles.ts:99-105 | after a delete the id is not found |
| Profiles.SaveCakeProfile | src/utils/profiles.ts:111-153 | the saved profile carries the new name, inputs and time and is what a lookup of its id returns. With a non-empty stored id: same position, same length, id and creation time kept, old breakdown kept only when the snapshot is switched off. Otherwise: the new profile goes first under a generated id, created now, with a fresh breakdown |
| Profiles.SaveInPlace | src/utils/profiles.ts:124-139 | only position `k` changes; it keeps its id and creation time |
| Profiles.SaveNew | src/utils/profiles.ts:142-152 | exactly one new profile goes in front of the unchanged store, created and updated now |
| Profiles.RowClientId | src/utils/profiles.ts:198 | a row's profile id is never empty: a non-empty client id, else a non-empty row id, else `generateId` of the name (or "Untitled Cake") at the given stamp |
| Profiles.ResolveMode | src/utils/profiles.ts:218-220 | fixed exactly when the lower-cased stored mode is "fixed", or when it is empty and the fixed amount is positive |
| Profiles.ResolveModeExamples | src/utils/profiles.ts:218-220 | any casing of "fixed" is fixed; an explicit "percentage" beats a fixed amount; an empty mode follows the amount |
| Profiles.RowInputs | src/utils/profiles.ts:218-229 | the inputs meet the documented invariants; cakes are `max(1, floor(n))`, 1 when missing; the percentage is clamped into [0, 1000], 0 when missing; with profit settings the mode is resolved and the fixed amount is `max(0, n)`, 0 when missing; without them neither is set |
| Profiles.MapRemoteRow | src/utils/profiles.ts:197-245 | a row becomes a profile with a non-empty id, well-formed inputs with a resolved mode, the breakdown of those inputs, and timestamps that default to now and to the creation time |
| Profiles.RemoteRowItems | src/utils/profiles.ts:199-216 | child rows become items one for one; a cost row without an allocation type is per cake |
| Profiles.FallbackIngredientId | src/utils/profiles.ts:199-206 | an ingredient row without a client id gets `<profile id>-ing-<position>` |
| Profiles.MapPulledRow | src/utils/profiles.ts:469-511 | a pulled profile carries no mode and no fixed amount, so it prices in percentage mode |
| Profiles.PulledRowIsRemoteRowWithoutMode | src/utils/profiles.ts:469-511 | pulling differs from listing only by dropping the mode and the fixed amount |
| Profiles.Survivors | src/utils/profiles.ts:513-515 | every survivor is a local profile whose id was not pulled, and every such profile survives |
| Profiles.SurvivorsCount | src/utils/profiles.ts:515 | a profile whose id was not pulled keeps every local copy; one whose id was pulled keeps none |
| Profiles.SurvivorsAppend | src/utils/profiles.ts:515 | the filter distributes over concatenation, so survivors keep their local order |
| Profiles.MergeRemote | src/utils/profiles.ts:513-516 | the merge is newest first and holds the pulled profiles plus the survivors, nothing more or less |
| Profiles.MergeContents | src/utils/profiles.ts:513-516 | a profile is in the merge iff it was pulled, or is local and its id was not pulled |
| Profiles.MergeNothingPulled | src/utils/profiles.ts:513-516 | with nothing pulled the merge is the sorted local list |
| Profiles.ClampPercentage | src/utils/profiles.ts:321 | the stored percentage lies in [0, 1000], keeps an in-range value, and maps +Infinity to 1000 and NaN or -Infinity to 0 |
| Profiles.StoredPercentage | src/utils/profiles.ts:317-338 | the stored percentage lies in [0, 1000]; in percentage mode it is the clamped percentage |
| Profiles.StoredPercentageInFixedMode | src/utils/profiles.ts:321-334 | in fixed mode the stored percentage is the fixed amount, clamped at 0, expressed against the profile's own cost per cake |
| Profiles.StoredPercentageFixedBounds | src/utils/profiles.ts:330-334 | with a positive cost, a fixed amount of at least ten times the cost or +Infinity is stored as 1000, and a missing, non-positive, NaN or -Infinity amount as 0 |
| Profiles.FixedAsPercentage | src/utils/profiles.ts:334 | the percentage lies in [0, 1000]; 0 when the cost is not positive; up to ten times the cost, that percentage of the cost gives the fixed profit back; from ten times the cost, or for +Infinity, it is capped at 1000 |
| Profiles.StoredPercentageWithoutCost | src/utils/profiles.ts:334 | a fixed-mode profile with no positive cost per cake stores 0 |
| Profiles.StoredPercentageReproducesProfit | src/utils/profiles.ts:321-334 | below the cap, a fixed-mode profile saved as a percentage keeps its profit per cake |
| Quantity.NumericRunLength | src/components/IngredientsCalculator.tsx:19 | the longest prefix of `[\d\s.,/]` characters |
| Quantity.DigitsValueOfNatToString | src/components/IngredientsCalculator.tsx:27-28 | reading back the decimal rendering of a number gives the number |
| Quantity.MatchLeadingNumber | src/components/IngredientsCalculator.tsx:19-22 | the match splits the text into a non-empty numeric run and a rest that does not start with a numeric character; it fails exactly when the text does not start with one or a line terminator follows the run |
| Quantity.MatchFraction | src/components/IngredientsCalculator.tsx:25 | a match yields two non-empty digit strings, and the text is exactly the first, whitespace, `/`, whitespace and the second |
| Quantity.MatchFractionSound | src/components/IngredientsCalculator.tsx:25 | what the matcher skips between the two digit strings is whitespace around one slash |
| Quantity.FractionRoundTrip | src/components/IngredientsCalculator.tsx:25 | `a<ws>/<ws>b` rendered from two numbers is matched as those two numbers |
| Quantity.FractionAmount | src/components/IngredientsCalculator.tsx:25-30 | a fraction yields an amount exactly when it matches with a non-zero denominator; the amount is non-negative |
| Quantity.DropSpacesCommasToDots | src/components/IngredientsCalculator.tsx:33 | never longer; no whitespace or comma survives; numeric text stays in the normalised alphabet; text without either is unchanged |
| Quantity.DropSpacesCommasToDotsCounts | src/components/IngredientsCalculator.tsx:33 | whitespace and commas disappear, each comma reappears as a dot, and every other character keeps its count |
| Quantity.DropSpacesCommasToDotsAppend | src/components/IngredientsCalculator.tsx:33 | the replacement distributes over concatenation, so the order is kept |
| Quantity.DropDots | src/components/IngredientsCalculator.tsx:38 | never longer; no dot survives; every other character keeps its count; text without a dot is unchanged |
| Quantity.DropDotsWithin | src/components/IngredientsCalculator.tsx:38 | no character is invented |
| Quantity.DropDotsAppend | src/components/IngredientsCalculator.tsx:38 | dropping dots distributes over concatenation, so the order is kept |
| Quantity.NormalizeDecimal | src/components/IngredientsCalculator.tsx:33-40 | no whitespace or comma and at most one dot; apart from dots, the characters are those of the text with whitespace dropped and commas made dots, in order; the one dot sits where the first `.` or `,` of that text was |
| Quantity.KeepFirstDot | src/components/IngredientsCalculator.tsx:35-39 | at most one dot remains, where the first dot was; the other characters are the input's, in order, and none is invented |
| Quantity.FirstDotKeptDots | src/components/IngredientsCalculator.tsx:37-39 | keeping the head up to the first dot and dropping dots from the tail keeps every other character in order |
| Quantity.FirstDotKeptPlace | src/components/IngredientsCalculator.tsx:35-39 | that step leaves exactly one dot, at the first dot's position, and invents nothing |
| Quantity.NormalizeDecimalOfNormal | src/components/IngredientsCalculator.tsx:33-40 | text that is already normal is unchanged |
| Quantity.NormalizeDecimalIdempotent | src/components/IngredientsCalculator.tsx:33-40 | normalising twice is normalising once |
| Quantity.ParseFloat | src/components/IngredientsCalculator.tsx:41 | NaN exactly when there is no leading digit and no dot followed by a digit; otherwise a non-negative number |
| Quantity.ParseFloatOfDigits | src/components/IngredientsCalculator.tsx:41 | a string of digits reads as its value |
| Quantity.ParseFloatOfDecimal | src/components/IngredientsCalculator.tsx:41 | `<w>.<f>` reads as the decimal value of its digits |
| Quantity.ParseAmountAndUnit | src/components/IngredientsCalculator.tsx:13-44 | a missing or blank text gives no amount and an empty suffix; text that does not start with a number gives no amount and the trimmed text as suffix; any amount is non-negative; the suffix is trimmed |
| Quantity.ParseToken | src/components/IngredientsCalculator.tsx:21-43 | any amount read from a numeric token is non-negative, and the suffix is trimmed |
| Quantity.ParseRenderedWholeAmount | src/components/IngredientsCalculator.tsx:13-44 | `"<n> <unit>"` parses back to amount `n` and suffix `unit` |
| Quantity.ParseRenderedFraction | src/components/IngredientsCalculator.tsx:24-30 | `"<a>/<b> <unit>"` with `b` non-zero parses back to `a / b` and `unit` |
| Quantity.ParseRenderedDecimal | src/components/IngredientsCalculator.tsx:13-44 | `"<w><sep><f> <unit>"` with a `.` or `,` separator parses back to the decimal `w.f` and `unit` |
| Quantity.Precision | src/components/IngredientsCalculator.tsx:46-49 | non-finite values get no precision (shown as "-"); others get at most 2 decimals |
| Quantity.PrecisionMonotone | src/components/IngredientsCalculator.tsx:49 | larger non-zero magnitudes never get more decimals, and the sign does not matter |
| Quantity.QuantityRowOf | src/components/IngredientsCalculator.tsx:59-72 | a row has an amount exactly when the unit text parses; the per-cake share times the base count is the amount, and the scaled figure is the share times the target count |
| Quantity.Scale | src/components/IngredientsCalculator.tsx:71-72 | the share times the base count gives the amount back |
| Quantity.ScaledToBatchIsAmount | src/components/IngredientsCalculator.tsx:71-72 | scaling to the batch's own cake count gives the batch amount |
| Quantity.ScaledMonotone | src/components/IngredientsCalculator.tsx:72 | scaled amounts grow with the target count |
| Editor.FreshId | src/app/page.tsx:21-23 | a fresh id carries the prefix and is not among the used ids |
| Editor.AssignIds | src/app/page.tsx:25-37 | the ids are as many as the items, non-empty, pairwise distinct and not taken; an item keeps its id exactly when it is non-empty and not used earlier |
| Editor.AssignIdsKeepsGoodIds | src/app/page.tsx:28-29 | ids that are already distinct and non-empty come through unchanged |
| Editor.EnsureUniqueIngredientIds | src/app/page.tsx:25-37 | same length, every field but the id kept, ids non-empty and distinct, an id kept exactly when non-empty and unused before it |
| Editor.EnsureUniqueCostIds | src/app/page.tsx:25-37 | the same for additional costs |
| Editor.EnsureUniqueIngredientIdsKeepsWellFormed | src/app/page.tsx:150 | a list with good ids is loaded unchanged |
| Editor.AddIngredient | src/app/page.tsx:55-65 | one copy of the ingredient under a new non-empty id goes in front; nothing else changes |
| Editor.EditIngredient | src/app/page.tsx:66-68 | exactly the ingredients with the edited id are replaced; length and order kept |
| Editor.DeleteIngredient | src/app/page.tsx:69-71 | exactly the ingredients without the id remain, in order and with their copies, as `KeyedLists.RemoveById` filters them; nothing else changes |
| Editor.AddAdditionalCost | src/app/page.tsx:74-84 | one copy of the cost under a new non-empty id goes in front; nothing else changes |
| Editor.EditAdditionalCost | src/app/page.tsx:85-87 | exactly the costs with the edited id are replaced; length and order kept |
| Editor.DeleteAdditionalCost | src/app/page.tsx:88-90 | exactly the costs without the id remain, in order and with their copies, as `KeyedLists.RemoveById` filters them; nothing else changes |
| Editor.DeleteUndoesAddIngredient | src/app/page.tsx:55-71 | deleting the ingredient just added restores the state |
| Editor.DeleteUndoesAddAdditionalCost | src/app/page.tsx:74-90 | deleting the cost just added restores the state |
| Editor.EditIngredientLaws | src/app/page.tsx:66-71 | editing twice is editing once; deleting an edited id is deleting it |
| Editor.EditAdditionalCostLaws | src/app/page.tsx:85-90 | the same for additional costs |
| Editor.AddKeepsWellFormed | src/app/page.tsx:55-84 | adding keeps both lists' ids non-empty and distinct |
| Editor.EditKeepsWellFormed | src/app/page.tsx:66-87 | editing with a non-empty id keeps them so |
| Editor.DeleteKeepsWellFormed | src/app/page.tsx:69-90 | deleting keeps them so |
| Editor.LoadedMode | src/app/page.tsx:155 | a stored mode is used; otherwise fixed exactly when the fixed amount is positive |
| Editor.LoadProfile | src/app/page.tsx:143-164 | loading gives well-formed ids, the profile's items with unique ids and the fallback mode; a non-zero cake count is kept and 0 becomes 1; the percentage and fixed amount default to 0 through the logical-or; the name and id are the profile's; editing flags and the business cost are untouched |
| Editor.LoadKeepsPricing | src/app/page.tsx:150-157 | loading a profile never changes its cost per cake |
| Editor.LoadKeepsBreakdown | src/app/page.tsx:150-157 | a profile with a stored mode loads to exactly its own breakdown |
| Editor.IngredientIdsIrrelevant | src/app/page.tsx:150 | re-assigning ingredient ids does not change the ingredient total |
| Editor.CostIdsIrrelevant | src/app/page.tsx:151 | re-assigning cost ids does not change either type's total |
| Editor.LoadedModeMatchesRowResolution | src/app/page.tsx:155 | for a row without a stored mode, the page's fallback agrees with the row mapping's resolution |
| Editor.PulledProfileLoadsAsPercentage | src/app/page.tsx:155 | a pulled profile opens in percentage mode |
| Editor.ResetAll | src/app/page.tsx:108-117 | both lists empty, one cake, no percentage, no name, no current profile, not editing and an empty draft name; profit mode, fixed amount and business cost untouched |
| Editor.ResetPricesAtZeroCost | src/app/page.tsx:108-117 | after a reset the cake costs nothing and sells for the clamped fixed profit in fixed mode, 0 otherwise |
| Editor.EmptyInputsPrice | src/utils/calculations.ts:28-37 | with no items and one cake the price is the profit alone |
| Editor.ResetAllIdempotent | src/app/page.tsx:108-117 | resetting twice is resetting once, and the initial state is already reset |
| Editor.LoadBusinessCost | src/app/page.tsx:167-176 | the kept business cost is never negative, is the combined cost when that is non-negative, and is 0 when it cannot be read |
| Editor.HomeBreakdown | src/app/page.tsx:92-106 | the page's breakdown as written totals the three item sums only (no business cost), divides over the cake count, and takes its profit from the page's mode, clamped fixed amount or clamped percentage |
| Editor.HomeBreakdownIgnoresBusinessCost | src/app/page.tsx:92-106 | as written, the business cost never changes the page's breakdown |
| Editor.HomeBreakdownCorrected | src/app/page.tsx:92-106 | corrected: the batch total grows by the business cost before dividing; the cost is consistent with those totals and the profit follows the page's mode as in the written breakdown |
| Editor.CorrectedAgreesWithoutBusinessCost | src/app/page.tsx:92-106 | with no business cost the corrected and written breakdowns agree |
| Editor.ScenarioBusinessCostDropped | src/app/page.tsx:92-106 | a 4,000 batch cost, 5 cakes and 1,000 of business cost: 800 per cake as written, 1,000 corrected |
| Auth.IsValidPassword | src/lib/auth.ts:5-8 | true exactly for the one allowed password; false for null and "" |
| Auth.CookieEntry | src/lib/auth.ts:15-24 | no entry exactly when the trimmed part is empty or starts with `=`; otherwise the name is the non-empty `=`-free start of the trimmed part, and the value is the decoded text after the first `=`, or the decoded empty string when there is none |
| Auth.CookieEntryOfTrim | src/lib/auth.ts:15 | a part and its trim give the same entry |
| Auth.CookieEntryWithoutEquals | src/lib/auth.ts:15-22 | a part without `=` names a cookie with the decoded empty value |
| Auth.AddEntry | src/lib/auth.ts:20-22 | an entry sets its name to its value and leaves other names alone; a skipped part changes nothing |
| Auth.ParseCookieString | src/lib/auth.ts:10-27 | an absent or empty header gives an empty jar; every name is non-empty and holds neither `=` nor `;` |
| Auth.ReadUserIdFromCookieHeader | src/lib/auth.ts:29-32 | an absent or empty header gives nothing; otherwise present exactly when some part names `cp_uid`, and then the value of the last part that does |
| Auth.JarNamesFromEntries | src/lib/auth.ts:14-25 | every name in the jar came from some entry |
| Auth.CookieNamesWellFormed | src/lib/auth.ts:13-16 | parts without `;` give names without `=` or `;` |
| Auth.LastEntryWins | src/lib/auth.ts:19-23 | the last entry naming a cookie decides its value |
| Auth.JarIsLastEntry | src/lib/auth.ts:14-25 | a name is in the jar exactly when some entry names it, and then its value is that of the last such entry |
| Auth.AbsentNameNotInJar | src/lib/auth.ts:14-25 | a name no entry mentions is not in the jar |
| Auth.LastPartWins | src/lib/auth.ts:10-27 | in a whole header, the last part naming a cookie decides its value |
| Auth.HeaderJarIsLastPart | src/lib/auth.ts:10-27 | for a non-empty header, a name is in the jar exactly when some part names it, and its value is that of the last such part |
| Auth.CookieEntryOfPair | src/lib/auth.ts:15-23 | a trimmed `name=value` part reads as the name and the decoded value, with every `=` in the value kept |
| Auth.ParseSingleCookie | src/lib/auth.ts:10-27 | a one-pair header maps the name to the decoded value |
| Auth.ReadSingleUserCookie | src/lib/auth.ts:29-32 | a header carrying only `cp_uid` yields its decoded value |
| Middleware.HandleRequest | middleware.ts:5-24 | a `/login` path is always served; any other path is served exactly when the cookie holds the password; a redirect keeps origin and fragment, sets the path to `/login` and drops the query |
| Middleware.RedirectTargetIsServed | middleware.ts:16-21 | the redirect target is itself served, so the gate never loops |
| Middleware.NoCookieIsRedirected | middleware.ts:14-21 | without the cookie every non-login path is redirected to `/login` |
| Middleware.OnlyUserCookieMatters | middleware.ts:14-15 | the response depends on the cookies only through `cp_uid` |
| Middleware.PasswordCookieHeaderPasses | middleware.ts:5-24 | a header carrying only `cp_uid=<password>` lets every path through |

## Left out

- Supabase I/O is left out because it is network access to a service outside
  the model:
  - every `select/insert/update/delete/upsert`;
  - session lookups;
  - `listCakeProfilesRemote`, `getCakeProfileRemote`, `saveCakeProfileRemote`,
    `deleteCakeProfileRemote`, `pullProfilesFromSupabaseToLocal`,
    `syncProfileToSupabase`, `syncAllLocalCakeProfilesToSupabase` and
    `deleteProfileFromSupabase`;
  - the catalogue and business-cost list/create/update/delete functions;
  - `fetchCombinedPerBatchCost`'s fetches;
  - `src/lib/supabaseClient.ts`.

  The pure parts of these functions are modelled, namely:
  - the row mappings;
  - the merge;
  - the stored percentage;
  - the combined sum.
- Browser storage is left out. `localStorage`, JSON parsing and
  `readAll`/`writeAll` are replaced by an explicit `seq<CakeProfile>` store
  passed in and returned.
- `clearAllCakeProfiles` is not modelled as its own member. It writes an
  empty store, which is the empty sequence.
- The clock and randomness are parameters:
  - `now` is the ISO time;
  - `stamp` is the time-and-random tail of a profile id;
  - `Editor.FreshId` is a deterministic stand-in for the page's random id
    loop. Only its guarantee is relied on: the prefix is kept and the id is
    not among those already used.
- `decodeURIComponent` is a parameter `decode: string -> Option<string>`,
  where `None` means it throws.
- The jar Next.js builds from the request's cookies is a map parameter of
  `Middleware.HandleRequest`. Next's own cookie parser is not part of this
  model.
- `readUserIdFromBrowser` and `clearUserCookieInBrowser` are left out. They
  only read or write `document.cookie`.
- The middleware `matcher` configuration is left out. It is routing
  configuration for the framework.
- Formatting is left out: `formatMoney`, `toLocaleString`, `toFixed` and
  the trailing-zero trimming of `formatQuantity`. Only the precision
  `formatQuantity` chooses is modelled.
- All React pages and components are left out, apart from the handlers
  and computations modelled above. They are UI.
- IEEE-754 rounding is left out: all arithmetic is exact over `real`.
- Non-finite values are modelled only where the code tests `isFinite` or
  applies `||` to a number. These fields are plain finite numbers:
  - package amounts;
  - equipment prices and batch counts;
  - overhead amounts;
  - batches per month;
  - `numberOfCakes`;
  - database row numbers.
- `Quantity.ParseFloat` and `Quantity.FractionAmount` read digits exactly.
  `ParseFloat` is defined only on the alphabet the normalised numeric part can
  contain (digits, `.` and `/`). A digit string so long that JavaScript reads
  it as Infinity (in `parseFloat`, or in `Number(frac[1])` where the
  `isFinite` test then fails) is read as its exact value.
- `Text.ToLowerCase` lower-cases ASCII plus U+0130 and U+212A, the only other
  capitals whose lower-case form contains an ASCII letter. Other scripts are
  left as they are, which is all the comparisons with "fixed" need.
- UTF-16 surrogate pairs are not modelled: strings are sequences of `char`.
  Every position the code slices or compares is an ASCII or BMP character.
- `Profiles.ListCakeProfiles` is modelled as a stable insertion sort.
  JavaScript's `sort` with the source's comparator (which never returns 0)
  may order profiles with equal update times differently. The contract
  states the order and the permutation, not the tie order.
- A record key `__proto__` in the cookie jar is treated as an ordinary name.
- Quantity.ParseAmountAndUnit: its own contract states the error paths, the
  sign of the amount and the trimmed suffix, not the amount's value. The value
  is stated by `Quantity.ParseRenderedWholeAmount`,
  `Quantity.ParseRenderedFraction` and `Quantity.ParseRenderedDecimal` for
  rendered numbers.
- Auth.ParseSingleCookie: states the membership and value of the one cookie,
  not that the jar holds no other name.

## Findings

| source | as written | input that shows it | evidently intended | confidence | as-written member | corrected member |
|---|---|---|---|---|---|---|
| src/app/page.tsx:92-106 | the page passes `{ extraPerBatchCost: businessPerBatchCost }` as a second argument to `calculateBreakdown` (src/utils/calculations.ts:18), which takes one parameter and never reads it, so amortised equipment and overhead never reach the price | a batch cost of 4,000 over 5 cakes with a business cost of 1,000 per batch allocates 800 to each cake | fold the extra per-batch cost into the batch total before dividing, as the page's label "Business Costs per batch auto-applied" (src/app/page.tsx:277) and the memo's dependency on the cost (src/app/page.tsx:105) say: 1,000 per cake | not executed | Editor.ScenarioBusinessCostDropped | Editor.HomeBreakdownCorrected |

=== FILE: auth.dfy ===
/**
  The shared-password gate (src/lib/auth.ts): the one accepted password,
  which the login page also stores as the user-id cookie, and the parser
  of a `Cookie:` header.

  `decodeURIComponent` is a parameter: `decode(v)` is `Some` of the decoded
  text, or `None` where the call would throw (a malformed `%` escape).
 */
module Auth {

  import opened Wrappers
  import opened Text

  /** `USER_COOKIE_NAME`. */
  const UserCookieName: string := "cp_uid"

  /** The single member of `VALID_PASSWORDS`. */
  const Password: string := "ourcakeproject2025"

  const ValidPasswords: set<string> := {Password}

  /**
    `isValidPassword`: a missing or empty value never passes, and the only
    value that passes is the password itself.
   */
  function IsValidPassword(value: Option<string>): (r: bool)
    ensures r <==> value == Some(Password)
  {
    value.Some? && value.value != "" && value.value in ValidPasswords
  }

  /** `decodeURIComponent(v)`, falling back to `v` itself when it throws. */
  function DecodeOr(decode: string -> Option<string>, v: string): string
  {
    match decode(v)
    case Some(d) => d
    case None => v
  }

  /**
    One `;`-separated part of the header: the text before the first `=`
    of the trimmed part is the name, everything after it (with any further
    `=` kept) is the value, and a part without `=` has the empty value. A
    part whose trimmed text is empty or starts with `=` is skipped.
   */
  function CookieEntry(part: string, decode: string -> Option<string>): (r: Option<(string, string)>)
    ensures r.None? <==> Trim(part) == [] || Trim(part)[0] == '='
    ensures r.Some? ==> r.value.0 != "" && '=' !in r.value.0 && |r.value.0| <= |part|
    ensures r.Some? ==> var t, n := Trim(part), r.value.0;
      && |n| <= |t| && n == t[..|n|]
      && (|n| == |t| ==> r.value.1 == DecodeOr(decode, ""))
      && (|n| < |t| ==> t[|n|] == '=' && r.value.1 == DecodeOr(decode, t[|n| + 1..]))
  {
    EntryOfTrimmed(Trim(part), decode)
  }

  /** `CookieEntry` once the part is trimmed. */
  function EntryOfTrimmed(t: string, decode: string -> Option<string>): (r: Option<(string, string)>)
    ensures r.None? <==> t == [] || t[0] == '='
    ensures r.Some? ==> var n := r.value.0;
      && n != "" && '=' !in n && |n| <= |t| && n == t[..|n|]
      && (|n| == |t| ==> r.value.1 == DecodeOr(decode, ""))
      && (|n| < |t| ==> t[|n|] == '=' && r.value.1 == DecodeOr(decode, t[|n| + 1..]))
  {
    var pieces := Split(t, '=');
    SplitFirstPieceBounds(t, '=');
    var name := pieces[0];
    if name == "" then None
    else Some((name, DecodeOr(decode, Join(pieces[1..], '='))))
  }

  /** Only the trimmed text of a part matters. */
  lemma CookieEntryOfTrim(part: string, decode: string -> Option<string>)
    ensures CookieEntry(Trim(part), decode) == CookieEntry(part, decode)
  {
    TrimIdempotent(part);
  }

  /** A part without `=` names a cookie whose value is the decoded empty text. */
  lemma CookieEntryWithoutEquals(part: string, decode: string -> Option<string>)
    requires Trim(part) != [] && '=' !in Trim(part)
    ensures CookieEntry(part, decode) == Some((Trim(part), DecodeOr(decode, "")))
  {
  }

  /** The entries of the parts, in header order. */
  function Entries(parts: seq<string>, decode: string -> Option<string>): (r: seq<Option<(string, string)>>)
    ensures |r| == |parts|
    ensures forall i :: 0 <= i < |parts| ==> r[i] == CookieEntry(parts[i], decode)
  {
    seq(|parts|, i requires 0 <= i < |parts| => CookieEntry(parts[i], decode))
  }

  predicate Names(entry: Option<(string, string)>, name: string)
  {
    entry.Some? && entry.value.0 == name
  }

  /** The jar built from the entries in order; a later entry overwrites an earlier one. */
  function CookieJar(entries: seq<Option<(string, string)>>): (r: map<string, string>)
    decreases |entries|
  {
    if entries == [] then map[]
    else AddEntry(CookieJar(entries[..|entries| - 1]), entries[|entries| - 1])
  }

  /** `result[k] = v` for a part that names a cookie; nothing for one that does not. */
  function AddEntry(jar: map<string, string>, entry: Option<(string, string)>): (r: map<string, string>)
    ensures entry.None? ==> r == jar
    ensures entry.Some? ==> r.Keys == jar.Keys + {entry.value.0} && r[entry.value.0] == entry.value.1
    ensures forall name :: name in jar && !Names(entry, name) ==> name in r && r[name] == jar[name]
  {
    match entry
    case None => jar
    case Some((name, value)) => jar[name := value]
  }

  /**
    `parseCookieString`: an absent or empty header gives an empty jar;
    every name in the jar is non-empty and holds neither `=` nor `;`.
   */
  function ParseCookieString(header: Option<string>, decode: string -> Option<string>): (r: map<string, string>)
    ensures header.None? || header.value == "" ==> r == map[]
    ensures forall name :: name in r ==> name != "" && '=' !in name && ';' !in name
  {
    if header.None? || header.value == "" then map[]
    else
      var parts := Split(header.value, ';');
      SplitPartsLackSeparator(header.value, ';');
      CookieNamesWellFormed(parts, decode);
      CookieJar(Entries(parts, decode))
  }

  /** Some part of the header names the cookie `name`. */
  predicate PartNames(header: string, decode: string -> Option<string>, name: string)
  {
    SomePartNames(Split(header, ';'), decode, name)
  }

  /** Some part of a split header names the cookie `name`. */
  predicate SomePartNames(parts: seq<string>, decode: string -> Option<string>, name: string)
  {
    exists i :: 0 <= i < |parts| && Names(CookieEntry(parts[i], decode), name)
  }

  /** The `i`-th part is `name=value` and no later part names `name`. */
  predicate LastPartIs(header: string, decode: string -> Option<string>, i: int, name: string, value: string)
  {
    var parts := Split(header, ';');
    && 0 <= i < |parts|
    && CookieEntry(parts[i], decode) == Some((name, value))
    && forall j :: i < j < |parts| ==> !Names(CookieEntry(parts[j], decode), name)
  }

  /**
    `readUserIdFromCookieHeader`: nothing for an absent or empty header;
    otherwise a value exactly when some part names `cp_uid`, and then the
    value of the last such part.
   */
  function ReadUserIdFromCookieHeader(header: Option<string>, decode: string -> Option<string>): (r: Option<string>)
    ensures header.None? || header.value == "" ==> r.None?
    ensures header.Some? && header.value != "" ==> (r.Some? <==> PartNames(header.value, decode, UserCookieName))
    ensures r.Some? ==> header.Some? && exists i :: LastPartIs(header.value, decode, i, UserCookieName, r.value)
  {
    var jar := ParseCookieString(header, decode);
    var r := if UserCookieName in jar then Some(jar[UserCookieName]) else None;
    if header.Some? && header.value != "" then
      HeaderJarIsLastPart(header.value, decode, UserCookieName);
      r
    else r
  }

  /** The jar of a header, stated over its parts. */
  lemma {:induction false} HeaderJarIsLastPart(header: string, decode: string -> Option<string>, name: string)
    requires header != ""
    ensures name in ParseCookieString(Some(header), decode) <==> PartNames(header, decode, name)
    ensures name in ParseCookieString(Some(header), decode) ==>
              exists i :: LastPartIs(header, decode, i, name, ParseCookieString(Some(header), decode)[name])
  {
    var entries := Entries(Split(header, ';'), decode);
    ParsedHeaderIsJar(header, decode);
    JarIsLastEntry(entries, name);
    PartNamesIsEntryNames(header, decode, name);
    if name in CookieJar(entries) {
      var v := CookieJar(entries)[name];
      var i :| 0 <= i < |entries| && entries[i] == Some((name, v))
               && forall j :: i < j < |entries| ==> !Names(entries[j], name);
      LastEntryIsLastPart(header, decode, i, name, v);
    }
  }

  lemma {:induction false} PartNamesIsEntryNames(header: string, decode: string -> Option<string>, name: string)
    ensures var entries := Entries(Split(header, ';'), decode);
      PartNames(header, decode, name) <==> exists i :: 0 <= i < |entries| && Names(entries[i], name)
  {
    EntriesName(Split(header, ';'), decode, name);
  }

  lemma {:induction false} EntriesName(parts: seq<string>, decode: string -> Option<string>, name: string)
    ensures var entries := Entries(parts, decode);
      SomePartNames(parts, decode, name) <==> exists i :: 0 <= i < |entries| && Names(entries[i], name)
  {
    var entries := Entries(parts, decode);
    if SomePartNames(parts, decode, name) {
      var i :| 0 <= i < |parts| && Names(CookieEntry(parts[i], decode), name);
      assert Names(entries[i], name);
    }
    if exists i :: 0 <= i < |entries| && Names(entries[i], name) {
      var i :| 0 <= i < |entries| && Names(entries[i], name);
      assert Names(CookieEntry(parts[i], decode), name);
    }
  }

  lemma {:induction false} LastEntryIsLastPart(header: string, decode: string -> Option<string>, i: int, name: string, value: string)
    requires var entries := Entries(Split(header, ';'), decode);
      && 0 <= i < |entries| && entries[i] == Some((name, value))
      && forall j :: i < j < |entries| ==> !Names(entries[j], name)
    ensures LastPartIs(header, decode, i, name, value)
  {
    var parts := Split(header, ';');
    var entries := Entries(parts, decode);
    forall j | i < j < |parts|
      ensures !Names(CookieEntry(parts[j], decode), name)
    {
      assert entries[j] == CookieEntry(parts[j], decode);
    }
  }

  /**
    A name is in the jar exactly when some entry names it, and its value
    is the one the last such entry carries.
   */
  lemma {:induction false} JarIsLastEntry(entries: seq<Option<(string, string)>>, name: string)
    ensures name in CookieJar(entries) <==> exists i :: 0 <= i < |entries| && Names(entries[i], name)
    ensures name in CookieJar(entries) ==>
              exists i :: 0 <= i < |entries| && entries[i] == Some((name, CookieJar(entries)[name]))
                          && forall j :: i < j < |entries| ==> !Names(entries[j], name)
    decreases |entries|
  {
    if entries != [] {
      var n := |entries| - 1;
      var init := entries[..n];
      JarIsLastEntry(init, name);
      if Names(entries[n], name) {
        assert entries[n] == Some((name, CookieJar(entries)[name]));
      } else {
        forall i | 0 <= i < n
          ensures entries[i] == init[i]
        {
        }
        if name in CookieJar(entries) {
          var i :| 0 <= i < |init| && init[i] == Some((name, CookieJar(init)[name]))
                   && forall j :: i < j < |init| ==> !Names(init[j], name);
          assert entries[i] == Some((name, CookieJar(entries)[name]));
        }
        if exists i :: 0 <= i < |entries| && Names(entries[i], name) {
          var i :| 0 <= i < |entries| && Names(entries[i], name);
          assert Names(init[i], name);
        }
      }
    }
  }

  /** Every name in the jar was named by some entry. */
  lemma {:induction false} JarNamesFromEntries(entries: seq<Option<(string, string)>>)
    ensures forall name :: name in CookieJar(entries) ==>
              exists i :: 0 <= i < |entries| && Names(entries[i], name)
    decreases |entries|
  {
    if entries != [] {
      var init := entries[..|entries| - 1];
      var last := entries[|entries| - 1];
      JarNamesFromEntries(init);
      forall name | name in CookieJar(entries)
        ensures exists i :: 0 <= i < |entries| && Names(entries[i], name)
      {
        if Names(last, name) {
          assert Names(entries[|entries| - 1], name);
        } else {
          assert name in CookieJar(init);
          var i :| 0 <= i < |init| && Names(init[i], name);
          assert entries[i] == init[i];
        }
      }
    }
  }

  /** Parts without `;` give a jar whose names lack `=` and `;` and are non-empty. */
  lemma CookieNamesWellFormed(parts: seq<string>, decode: string -> Option<string>)
    requires forall i :: 0 <= i < |parts| ==> ';' !in parts[i]
    ensures forall name :: name in CookieJar(Entries(parts, decode)) ==> name != "" && '=' !in name && ';' !in name
  {
    var entries := Entries(parts, decode);
    JarNamesFromEntries(entries);
    forall name | name in CookieJar(entries)
      ensures name != "" && '=' !in name && ';' !in name
    {
      var i :| 0 <= i < |entries| && Names(entries[i], name);
      NameWithinPart(parts[i], decode, ';');
    }
  }

  /** A name is a piece of its part, so it lacks every character the part lacks. */
  lemma NameWithinPart(part: string, decode: string -> Option<string>, c: char)
    requires CookieEntry(part, decode).Some? && c !in part
    ensures c !in CookieEntry(part, decode).value.0
  {
    var t := Trim(part);
    TrimKeepsAbsent(part, c);
    var k := IndexOf(t, '=');
    assert Split(t, '=')[0] == if k < 0 then t else t[..k];
    if k >= 0 {
      SliceKeepsAbsent(t, 0, k, c);
    }
  }

  lemma SliceKeepsAbsent(s: string, i: nat, j: nat, c: char)
    requires i <= j <= |s| && c !in s
    ensures c !in s[i..j]
  {
    forall k | 0 <= k < j - i
      ensures s[i..j][k] != c
    {
      assert s[i..j][k] == s[i + k];
    }
  }

  lemma TrimKeepsAbsent(s: string, c: char)
    requires c !in s
    ensures c !in Trim(s)
  {
    var t := TrimStart(s);
    SliceKeepsAbsent(s, |s| - |t|, |s|, c);
    SliceKeepsAbsent(t, 0, |TrimEnd(t)|, c);
  }

  /**
    The last entry that names a cookie decides its value: earlier entries
    with the same name are overwritten.
   */
  lemma {:induction false} LastEntryWins(entries: seq<Option<(string, string)>>, i: nat, name: string, value: string)
    requires i < |entries| && entries[i] == Some((name, value))
    requires forall j :: i < j < |entries| ==> !Names(entries[j], name)
    ensures name in CookieJar(entries) && CookieJar(entries)[name] == value
    decreases |entries|
  {
    var init := entries[..|entries| - 1];
    if i < |entries| - 1 {
      assert init[i] == entries[i];
      forall j | i < j < |init|
        ensures !Names(init[j], name)
      {
        assert init[j] == entries[j];
      }
      LastEntryWins(init, i, name, value);
    }
  }

  /** A name no entry mentions is not in the jar. */
  lemma AbsentNameNotInJar(entries: seq<Option<(string, string)>>, name: string)
    requires forall j :: 0 <= j < |entries| ==> !Names(entries[j], name)
    ensures name !in CookieJar(entries)
  {
    JarNamesFromEntries(entries);
  }

  /**
    In a whole header: when the `i`-th part is `name=value` and no later
    part names the same cookie, the jar maps `name` to the decoded value.
   */
  lemma LastPartWins(header: string, decode: string -> Option<string>, i: nat, name: string, value: string)
    requires header != "" && i < |Split(header, ';')|
    requires CookieEntry(Split(header, ';')[i], decode) == Some((name, value))
    requires forall j :: i < j < |Split(header, ';')| ==> !Names(CookieEntry(Split(header, ';')[j], decode), name)
    ensures name in ParseCookieString(Some(header), decode)
    ensures ParseCookieString(Some(header), decode)[name] == value
  {
    var parts := Split(header, ';');
    var entries := Entries(parts, decode);
    forall j | i < j < |entries|
      ensures !Names(entries[j], name)
    {
      assert entries[j] == CookieEntry(parts[j], decode);
    }
    LastEntryWins(entries, i, name, value);
    ParsedHeaderIsJar(header, decode);
  }

  lemma ParsedHeaderIsJar(header: string, decode: string -> Option<string>)
    requires header != ""
    ensures ParseCookieString(Some(header), decode) == CookieJar(Entries(Split(header, ';'), decode))
  {
  }

  /**
    A trimmed `name=value` part is read as that name and the (decoded)
    value, with every `=` inside the value kept.
   */
  lemma CookieEntryOfPair(name: string, value: string, decode: string -> Option<string>)
    requires name != "" && '=' !in name && Trimmed(name + "=" + value)
    ensures CookieEntry(name + "=" + value, decode) == Some((name, DecodeOr(decode, value)))
  {
    var part := name + "=" + value;
    TrimOfTrimmed(part);
    SplitAtFirst(name, '=', value);
    assert ([name] + Split(value, '='))[1..] == Split(value, '=');
    JoinSplit(value, '=');
  }

  /** A header holding a single trimmed `name=value` pair maps `name` to the decoded value. */
  lemma ParseSingleCookie(name: string, value: string, decode: string -> Option<string>)
    requires name != "" && '=' !in name && ';' !in name && ';' !in value
    requires Trimmed(name + "=" + value)
    ensures name in ParseCookieString(Some(name + "=" + value), decode)
    ensures ParseCookieString(Some(name + "=" + value), decode)[name] == DecodeOr(decode, value)
  {
    var header := name + "=" + value;
    ConcatLacks(name, "=", ';');
    ConcatLacks(name + "=", value, ';');
    assert Split(header, ';') == [header];
    CookieEntryOfPair(name, value, decode);
    LastPartWins(header, decode, 0, name, DecodeOr(decode, value));
  }

  lemma ConcatLacks(a: string, b: string, c: char)
    requires c !in a && c !in b
    ensures c !in a + b
  {
    forall k | 0 <= k < |a + b|
      ensures (a + b)[k] != c
    {
      if k < |a| {
        assert (a + b)[k] == a[k];
      } else {
        assert (a + b)[k] == b[k - |a|];
      }
    }
  }

  /** A header carrying only the user-id cookie yields its value. */
  lemma ReadSingleUserCookie(value: string, decode: string -> Option<string>)
    requires ';' !in value && Trimmed(UserCookieName + "=" + value)
    ensures ReadUserIdFromCookieHeader(Some(UserCookieName + "=" + value), decode) == Some(DecodeOr(decode, value))
  {
    assert '=' !in UserCookieName && ';' !in UserCookieName;
    ParseSingleCookie(UserCookieName, value, decode);
  }
}

=== FILE: business_costs.dfy ===
/** Amortisation of equipment and monthly overhead into a per-batch cost (src/utils/businessCosts.ts). */
module BusinessCosts {

  import opened Wrappers
  import opened Numbers

  /** A piece of equipment expected to last `expectedTotalBatches` batches. */
  datatype EquipmentItem = EquipmentItem(id: string, name: string, price: real, expectedTotalBatches: real)

  datatype OverheadItem = OverheadItem(id: string, name: string, monthlyAmount: real)

  datatype BusinessSettings = BusinessSettings(batchesPerMonth: real)

  datatype PerBatchCosts = PerBatchCosts(equipmentPerBatch: real, overheadPerBatch: real, combinedPerBatch: real)

  /** Whether an item is amortised at all: `Math.max(0, batches) > 0`. */
  predicate Amortisable(it: EquipmentItem)
  {
    MaxReal(0.0, it.expectedTotalBatches) > 0.0
  }

  /** One item's share of each batch: its clamped price spread over its batches, or 0. */
  function EquipmentShare(it: EquipmentItem): (r: real)
    ensures r >= 0.0
    ensures !Amortisable(it) ==> r == 0.0
    ensures Amortisable(it) ==> r * it.expectedTotalBatches == MaxReal(0.0, it.price)
  {
    var batches := MaxReal(0.0, it.expectedTotalBatches);
    var price := MaxReal(0.0, it.price);
    if batches <= 0.0 then 0.0
    else
      DivFacts(price, batches);
      price / batches
  }

  lemma DivFacts(a: real, n: real)
    requires a >= 0.0 && n > 0.0
    ensures a / n >= 0.0 && (a / n) * n == a
  {
  }

  /** `computeEquipmentPerBatch`: the shares of all items added up. */
  function ComputeEquipmentPerBatch(items: seq<EquipmentItem>): (r: real)
    ensures r >= 0.0
  {
    if items == [] then 0.0 else EquipmentShare(items[0]) + ComputeEquipmentPerBatch(items[1..])
  }

  /** The shares of the amortisable items, in order: `max(0, price) / batches` for each. */
  function AmortisedPrices(items: seq<EquipmentItem>): seq<real>
  {
    if items == [] then []
    else if Amortisable(items[0]) then
      [MaxReal(0.0, items[0].price) / items[0].expectedTotalBatches] + AmortisedPrices(items[1..])
    else AmortisedPrices(items[1..])
  }

  /** The per-batch equipment cost is the sum over amortisable items of price over batches. */
  lemma {:induction false} EquipmentPerBatchIsSumOfShares(items: seq<EquipmentItem>)
    ensures ComputeEquipmentPerBatch(items) == SumReals(AmortisedPrices(items))
  {
    if items != [] {
      EquipmentPerBatchIsSumOfShares(items[1..]);
      var rest := AmortisedPrices(items[1..]);
      if Amortisable(items[0]) {
        var head := MaxReal(0.0, items[0].price) / items[0].expectedTotalBatches;
        assert ([head] + rest)[1..] == rest;
      }
    }
  }

  /** The per-batch cost of two lists together is the sum of their costs. */
  lemma {:induction false} EquipmentPerBatchAppend(a: seq<EquipmentItem>, b: seq<EquipmentItem>)
    ensures ComputeEquipmentPerBatch(a + b) == ComputeEquipmentPerBatch(a) + ComputeEquipmentPerBatch(b)
  {
    if a != [] {
      assert (a + b)[1..] == a[1..] + b;
      EquipmentPerBatchAppend(a[1..], b);
    } else {
      assert a + b == b;
    }
  }

  /** Adding an item with no positive batch count anywhere in the list leaves the cost unchanged. */
  lemma EquipmentIgnoresUnamortisable(items: seq<EquipmentItem>, i: nat, it: EquipmentItem)
    requires i <= |items|
    requires it.expectedTotalBatches <= 0.0
    ensures ComputeEquipmentPerBatch(items[..i] + [it] + items[i..]) == ComputeEquipmentPerBatch(items)
  {
    EquipmentPerBatchAppend(items[..i] + [it], items[i..]);
    EquipmentPerBatchAppend(items[..i], [it]);
    EquipmentPerBatchAppend(items[..i], items[i..]);
    assert items[..i] + items[i..] == items;
    assert ComputeEquipmentPerBatch([it]) == 0.0;
  }

  /** The monthly overheads added up, each clamped at 0. */
  function TotalMonthly(overheads: seq<OverheadItem>): (r: real)
    ensures r >= 0.0
  {
    if overheads == [] then 0.0
    else MaxReal(0.0, overheads[0].monthlyAmount) + TotalMonthly(overheads[1..])
  }

  /** The whole batches per month the overhead is spread over: `Math.max(0, Math.floor(bpm || 0))`. */
  function BatchesPerMonth(bpm: real): (r: int)
    ensures r >= 0
    ensures r > 0 <==> bpm >= 1.0
    ensures r > 0 ==> r as real <= bpm < r as real + 1.0
  {
    if bpm.Floor > 0 then bpm.Floor else 0
  }

  /**
    `computeOverheadPerBatch`: the month's overhead divided by the whole
    number of batches per month, or 0 when that number is not positive.
   */
  function ComputeOverheadPerBatch(overheads: seq<OverheadItem>, batchesPerMonth: real): (r: real)
    ensures r >= 0.0
    ensures BatchesPerMonth(batchesPerMonth) == 0 ==> r == 0.0
    ensures BatchesPerMonth(batchesPerMonth) > 0 ==>
              r * BatchesPerMonth(batchesPerMonth) as real == TotalMonthly(overheads)
  {
    var totalMonthly := TotalMonthly(overheads);
    var bpm := BatchesPerMonth(batchesPerMonth);
    if bpm <= 0 then 0.0
    else
      DivFacts(totalMonthly, bpm as real);
      totalMonthly / bpm as real
  }

  /** Producing more batches a month never raises the overhead each batch carries. */
  lemma OverheadPerBatchAntitone(overheads: seq<OverheadItem>, m: real, n: real)
    requires 1.0 <= m <= n
    ensures ComputeOverheadPerBatch(overheads, n) <= ComputeOverheadPerBatch(overheads, m)
  {
    var a := BatchesPerMonth(m);
    var b := BatchesPerMonth(n);
    assert a == m.Floor && b == n.Floor;
    FloorMonotone(m, n);
    AntitoneStep(ComputeOverheadPerBatch(overheads, m), ComputeOverheadPerBatch(overheads, n),
                 a as real, b as real, TotalMonthly(overheads));
  }

  lemma FloorMonotone(m: real, n: real)
    requires m <= n
    ensures m.Floor <= n.Floor
  {
  }

  lemma AntitoneStep(x: real, y: real, a: real, b: real, t: real)
    requires 0.0 < a <= b && x >= 0.0 && y >= 0.0 && x * a == t && y * b == t
    ensures y <= x
  {
    assert y * a <= y * b;
  }

  /**
    `fetchCombinedPerBatchCost` once its three reads have been done:
    missing settings count as 0 batches per month, and the combined cost
    is equipment plus overhead.
   */
  function CombinedPerBatchCost(
    settings: Option<BusinessSettings>, equipment: seq<EquipmentItem>, overheads: seq<OverheadItem>): (r: PerBatchCosts)
    ensures r.combinedPerBatch == r.equipmentPerBatch + r.overheadPerBatch
    ensures r.combinedPerBatch >= r.equipmentPerBatch >= 0.0
    ensures r.combinedPerBatch >= r.overheadPerBatch >= 0.0
    ensures r.equipmentPerBatch == ComputeEquipmentPerBatch(equipment)
    ensures settings.None? ==> r.overheadPerBatch == 0.0
    ensures settings.Some? ==> r.overheadPerBatch == ComputeOverheadPerBatch(overheads, settings.value.batchesPerMonth)
  {
    var bpm := if settings.Some? then settings.value.batchesPerMonth else 0.0;
    var equipmentPerBatch := ComputeEquipmentPerBatch(equipment);
    var overheadPerBatch := ComputeOverheadPerBatch(overheads, bpm);
    PerBatchCosts(equipmentPerBatch, overheadPerBatch, equipmentPerBatch + overheadPerBatch)
  }
}

=== FILE: calculations.dfy ===
/** The per-cake cost breakdown (src/utils/calculations.ts). */
module Calculations {

  import opened Wrappers
  import opened Numbers
  import opened Types

  /*** Sums ***/

  /** `sumIngredients`: the total of the finite ingredient costs. */
  function SumIngredients(xs: seq<Ingredient>): (r: real)
    ensures NonNegativeCosts(xs) ==> r >= 0.0
  {
    if xs == [] then 0.0 else FiniteOrZero(xs[0].cost) + SumIngredients(xs[1..])
  }

  predicate NonNegativeCosts(xs: seq<Ingredient>)
  {
    forall i :: 0 <= i < |xs| ==> FiniteOrZero(xs[i].cost) >= 0.0
  }

  /** The costs of the ingredients whose cost is a finite number, in order. */
  function FiniteCosts(xs: seq<Ingredient>): (r: seq<real>)
    ensures |r| <= |xs|
  {
    if xs == [] then []
    else if xs[0].cost.Finite? then [xs[0].cost.value] + FiniteCosts(xs[1..])
    else FiniteCosts(xs[1..])
  }

  /** Non-finite costs contribute nothing: the sum is the sum of the finite costs alone. */
  lemma {:induction false} SumIngredientsIsSumOfFiniteCosts(xs: seq<Ingredient>)
    ensures SumIngredients(xs) == SumReals(FiniteCosts(xs))
  {
    if xs != [] {
      SumIngredientsIsSumOfFiniteCosts(xs[1..]);
      if xs[0].cost.Finite? {
        assert ([xs[0].cost.value] + FiniteCosts(xs[1..]))[1..] == FiniteCosts(xs[1..]);
      }
    }
  }

  /** Changing one ingredient changes the sum by exactly the change in its finite cost. */
  lemma {:induction false} SumIngredientsUpdate(xs: seq<Ingredient>, i: nat, y: Ingredient)
    requires i < |xs|
    ensures SumIngredients(xs[i := y])
         == SumIngredients(xs) - FiniteOrZero(xs[i].cost) + FiniteOrZero(y.cost)
  {
    if i == 0 {
      assert xs[i := y][1..] == xs[1..];
    } else {
      SumIngredientsUpdate(xs[1..], i - 1, y);
      assert xs[i := y][1..] == xs[1..][i - 1 := y];
    }
  }

  /** The items of one allocation type, in order (the source's `filter`). */
  function OfType(xs: seq<AdditionalCostItem>, t: AllocationType): (r: seq<AdditionalCostItem>)
    ensures forall c :: c in r <==> c in xs && c.allocationType == t
  {
    if xs == [] then []
    else if xs[0].allocationType == t then [xs[0]] + OfType(xs[1..], t)
    else OfType(xs[1..], t)
  }

  /** The total of the finite amounts. */
  function SumAmounts(xs: seq<AdditionalCostItem>): (r: real)
    ensures NonNegativeAmounts(xs) ==> r >= 0.0
  {
    if xs == [] then 0.0 else FiniteOrZero(xs[0].amount) + SumAmounts(xs[1..])
  }

  predicate NonNegativeAmounts(xs: seq<AdditionalCostItem>)
  {
    forall i :: 0 <= i < |xs| ==> FiniteOrZero(xs[i].amount) >= 0.0
  }

  /** `sumAdditionalCosts(xs, t)`: the finite amounts of the items allocated as `t`. */
  function SumAdditionalCosts(xs: seq<AdditionalCostItem>, t: AllocationType): (r: real)
    ensures NonNegativeAmounts(xs) ==> r >= 0.0
  {
    var picked := OfType(xs, t);
    assert NonNegativeAmounts(xs) ==> NonNegativeAmounts(picked) by {
      if NonNegativeAmounts(xs) {
        forall i | 0 <= i < |picked| ensures FiniteOrZero(picked[i].amount) >= 0.0 {
          assert picked[i] in xs;
        }
      }
    }
    SumAmounts(picked)
  }

  /** What one item adds to the sum for type `t`. */
  function Share(c: AdditionalCostItem, t: AllocationType): real
  {
    if c.allocationType == t then FiniteOrZero(c.amount) else 0.0
  }

  lemma SumAdditionalCostsCons(xs: seq<AdditionalCostItem>, t: AllocationType)
    requires xs != []
    ensures SumAdditionalCosts(xs, t) == Share(xs[0], t) + SumAdditionalCosts(xs[1..], t)
  {
    if xs[0].allocationType == t {
      assert ([xs[0]] + OfType(xs[1..], t))[1..] == OfType(xs[1..], t);
    }
  }

  /** The batch sum and the per-cake sum together account for every finite amount exactly once. */
  lemma {:induction false} SumAdditionalCostsPartition(xs: seq<AdditionalCostItem>)
    ensures SumAdditionalCosts(xs, Batch) + SumAdditionalCosts(xs, PerCake) == SumAmounts(xs)
  {
    if xs != [] {
      SumAdditionalCostsCons(xs, Batch);
      SumAdditionalCostsCons(xs, PerCake);
      SumAdditionalCostsPartition(xs[1..]);
    }
  }

  /**
    Changing one item changes the sum for `t` only by what that item
    contributes to `t`: an item of the other type never counts.
   */
  lemma {:induction false} SumAdditionalCostsUpdate(
    xs: seq<AdditionalCostItem>, i: nat, y: AdditionalCostItem, t: AllocationType)
    requires i < |xs|
    ensures SumAdditionalCosts(xs[i := y], t)
         == SumAdditionalCosts(xs, t) - Share(xs[i], t) + Share(y, t)
  {
    SumAdditionalCostsCons(xs, t);
    SumAdditionalCostsCons(xs[i := y], t);
    if i == 0 {
      assert xs[i := y][1..] == xs[1..];
    } else {
      SumAdditionalCostsUpdate(xs[1..], i - 1, y, t);
      assert xs[i := y][1..] == xs[1..][i - 1 := y];
    }
  }

  /*** Clamping ***/

  /**
    `clampNumber(value, min, max)`, with `None` for the default maximum
    of +Infinity: `min` for a non-finite value, otherwise
    `Math.min(Math.max(value, min), max)`.
   */
  function ClampNumber(value: Num, min: real, max: Option<real>): (r: real)
    ensures !value.Finite? ==> r == min
    ensures value.Finite? && (max.None? || min <= max.value) ==>
              min <= r && (max.Some? ==> r <= max.value)
    ensures value.Finite? && min <= value.value && (max.None? || value.value <= max.value) ==>
              r == value.value
    ensures value.Finite? && max.Some? && max.value < min ==> r == max.value
  {
    if !value.Finite? then min
    else
      var atLeast := MaxReal(value.value, min);
      match max
      case None => atLeast
      case Some(hi) => MinReal(atLeast, hi)
  }

  /** Clamping a clamped value again changes nothing. */
  lemma ClampNumberIdempotent(value: Num, min: real, max: Option<real>)
    requires max.None? || min <= max.value
    ensures ClampNumber(Finite(ClampNumber(value, min, max)), min, max) == ClampNumber(value, min, max)
  {
  }

  /*** Breakdown ***/

  /** The percentage actually applied: `clampNumber(p || 0, 0, 1000)`. */
  function EffectivePercentage(inputs: PricingInputs): (p: real)
    ensures 0.0 <= p <= 1000.0
  {
    ClampNumber(Or(inputs.profitPercentage, 0.0), 0.0, Some(1000.0))
  }

  /** The fixed profit actually applied: `clampNumber(f || 0, 0)`. */
  function EffectiveFixedAmount(inputs: PricingInputs): (f: real)
    ensures f >= 0.0
  {
    ClampNumber(OptOr(inputs.profitFixedAmount, 0.0), 0.0, None)
  }

  /** A missing profit mode means percentage. */
  function EffectiveMode(inputs: PricingInputs): (m: ProfitMode)
    ensures m == Fixed <==> inputs.profitMode == Some(Fixed)
  {
    inputs.profitMode.GetOr(Percentage)
  }

  /** `calculateBreakdown(inputs)`, exactly as the source computes it (one argument). */
  function CalculateBreakdown(inputs: PricingInputs): (r: CostBreakdownPerCake)
    ensures r.totals == BatchTotals(
              SumIngredients(inputs.ingredients),
              SumAdditionalCosts(inputs.additionalCosts, Batch),
              SumAdditionalCosts(inputs.additionalCosts, PerCake))
    ensures Consistent(r, CakeCount(inputs.numberOfCakes) as real)
    ensures EffectiveMode(inputs) == Fixed ==> r.profitPerCake == EffectiveFixedAmount(inputs)
    ensures EffectiveMode(inputs) == Percentage ==>
              r.profitPerCake == PercentOf(r.totalCostPerCake, EffectivePercentage(inputs))
  {
    var numberOfCakes := CakeCount(inputs.numberOfCakes);
    var totals := BatchTotals(
      SumIngredients(inputs.ingredients),
      SumAdditionalCosts(inputs.additionalCosts, Batch),
      SumAdditionalCosts(inputs.additionalCosts, PerCake));
    Assemble(totals, numberOfCakes as real, EffectiveMode(inputs),
             EffectivePercentage(inputs), EffectiveFixedAmount(inputs))
  }

  /**
    How the per-cake figures relate to the batch sums for `n` cakes: each
    divided figure times `n` gives its batch sum back, the per-cake
    additional cost is the allocated batch share plus the undivided
    per-cake sum, and the selling price is cost plus profit.
   */
  predicate Consistent(r: CostBreakdownPerCake, n: real)
  {
    && r.ingredientCostPerCake * n == r.totals.totalIngredientCost
    && r.allocatedBatchCostsPerCake * n == r.totals.totalPerBatchAdditionalCosts
    && r.perCakeAdditionalCosts == r.allocatedBatchCostsPerCake + r.totals.totalPerCakeAdditionalCosts
    && r.totalCostPerCake == r.ingredientCostPerCake + r.perCakeAdditionalCosts
    && r.sellingPricePerCake == r.totalCostPerCake + r.profitPerCake
  }

  /** The arithmetic of `calculateBreakdown` once the sums and clamped settings are known. */
  function Assemble(totals: BatchTotals, n: real, mode: ProfitMode, pct: real, fixed: real): (r: CostBreakdownPerCake)
    requires n >= 1.0
    ensures r.totals == totals
    ensures Consistent(r, n)
    ensures mode == Fixed ==> r.profitPerCake == fixed
    ensures mode == Percentage ==> r.profitPerCake == PercentOf(r.totalCostPerCake, pct)
  {
    var ingredientCostPerCake := totals.totalIngredientCost / n;
    var allocatedBatchCostsPerCake := totals.totalPerBatchAdditionalCosts / n;
    var perCakeAdditionalCosts := allocatedBatchCostsPerCake + totals.totalPerCakeAdditionalCosts;
    var totalCostPerCake := ingredientCostPerCake + perCakeAdditionalCosts;
    var profitPerCake :=
      if mode == Fixed then fixed
      else PercentOf(totalCostPerCake, pct);
    DivCancel(totals.totalIngredientCost, n);
    DivCancel(totals.totalPerBatchAdditionalCosts, n);
    CostBreakdownPerCake(
      ingredientCostPerCake,
      allocatedBatchCostsPerCake,
      perCakeAdditionalCosts,
      totalCostPerCake,
      profitPerCake,
      totalCostPerCake + profitPerCake,
      totals)
  }

  /** Every item cost is non-negative (non-finite ones count as 0). */
  predicate NonNegativeItems(inputs: PricingInputs)
  {
    NonNegativeCosts(inputs.ingredients) && NonNegativeAmounts(inputs.additionalCosts)
  }

  /** With non-negative item costs, profit is never negative: 0 <= total cost <= selling price. */
  lemma BreakdownNonNegative(inputs: PricingInputs)
    requires NonNegativeItems(inputs)
    ensures var r := CalculateBreakdown(inputs);
      && 0.0 <= r.totalCostPerCake <= r.sellingPricePerCake
      && r.profitPerCake >= 0.0
  {
    var r := CalculateBreakdown(inputs);
    var n := CakeCount(inputs.numberOfCakes) as real;
    assert r.ingredientCostPerCake >= 0.0 by { DivNonNegative(r.totals.totalIngredientCost, n); }
    assert r.allocatedBatchCostsPerCake >= 0.0 by { DivNonNegative(r.totals.totalPerBatchAdditionalCosts, n); }
    if EffectiveMode(inputs) == Percentage {
      MulNonNegative(r.totalCostPerCake, EffectivePercentage(inputs) / 100.0);
    }
  }

  lemma MulCancel(x: real, y: real, n: real)
    requires n > 0.0 && x * n == y * n
    ensures x == y
  {
  }

  /** Two breakdowns consistent with the same sums and cake count agree on the cost per cake. */
  lemma ConsistentCostUnique(r1: CostBreakdownPerCake, r2: CostBreakdownPerCake, n: real)
    requires n > 0.0 && Consistent(r1, n) && Consistent(r2, n) && r1.totals == r2.totals
    ensures r1.totalCostPerCake == r2.totalCostPerCake
  {
    MulCancel(r1.ingredientCostPerCake, r2.ingredientCostPerCake, n);
    MulCancel(r1.allocatedBatchCostsPerCake, r2.allocatedBatchCostsPerCake, n);
  }

  /** The cost per cake depends on the items and the cake count only, not on the profit settings. */
  lemma TotalCostIgnoresProfit(a: PricingInputs, b: PricingInputs)
    requires a.ingredients == b.ingredients && a.additionalCosts == b.additionalCosts
    requires CakeCount(a.numberOfCakes) == CakeCount(b.numberOfCakes)
    ensures CalculateBreakdown(a).totalCostPerCake == CalculateBreakdown(b).totalCostPerCake
  {
    ConsistentCostUnique(CalculateBreakdown(a), CalculateBreakdown(b), CakeCount(a.numberOfCakes) as real);
  }

  /** `p` percent of `t`, written as the source writes it: `t * (p / 100)`. */
  function PercentOf(t: real, p: real): (r: real)
    ensures r * 100.0 == t * p
  {
    t * (p / 100.0)
  }

  lemma PercentOfValue(t: real, p: real, v: real)
    requires v * 100.0 == t * p
    ensures PercentOf(t, p) == v
  {
    MulCancel(PercentOf(t, p), v, 100.0);
  }

  lemma DivNonNegative(a: real, n: real)
    requires a >= 0.0 && n > 0.0
    ensures a / n >= 0.0
  {
  }

  lemma MulNonNegative(a: real, b: real)
    requires a >= 0.0 && b >= 0.0
    ensures a * b >= 0.0
  {
  }

  /**
    Raising one ingredient's cost never lowers the total cost per cake
    or the selling price.
   */
  lemma TotalCostMonotoneInIngredient(inputs: PricingInputs, i: nat, cost: Num)
    requires i < |inputs.ingredients|
    requires FiniteOrZero(inputs.ingredients[i].cost) <= FiniteOrZero(cost)
    ensures var before := CalculateBreakdown(inputs);
      var after := CalculateBreakdown(inputs.(ingredients :=
                     inputs.ingredients[i := inputs.ingredients[i].(cost := cost)]));
      && before.totalCostPerCake <= after.totalCostPerCake
      && before.sellingPricePerCake <= after.sellingPricePerCake
  {
    var xs := inputs.ingredients;
    var inputs' := inputs.(ingredients := xs[i := xs[i].(cost := cost)]);
    SumIngredientsUpdate(xs, i, xs[i].(cost := cost));
    var n := CakeCount(inputs.numberOfCakes) as real;
    DivMonotone(SumIngredients(xs), SumIngredients(inputs'.ingredients), n);
    SellingMonotone(inputs, inputs');
  }

  /**
    Raising one additional cost's amount (keeping its allocation type)
    never lowers the total cost per cake or the selling price.
   */
  lemma TotalCostMonotoneInAdditionalCost(inputs: PricingInputs, i: nat, amount: Num)
    requires i < |inputs.additionalCosts|
    requires FiniteOrZero(inputs.additionalCosts[i].amount) <= FiniteOrZero(amount)
    ensures var before := CalculateBreakdown(inputs);
      var after := CalculateBreakdown(inputs.(additionalCosts :=
                     inputs.additionalCosts[i := inputs.additionalCosts[i].(amount := amount)]));
      && before.totalCostPerCake <= after.totalCostPerCake
      && before.sellingPricePerCake <= after.sellingPricePerCake
  {
    var xs := inputs.additionalCosts;
    var y := xs[i].(amount := amount);
    var inputs' := inputs.(additionalCosts := xs[i := y]);
    SumAdditionalCostsUpdate(xs, i, y, Batch);
    SumAdditionalCostsUpdate(xs, i, y, PerCake);
    var n := CakeCount(inputs.numberOfCakes) as real;
    DivMonotone(SumAdditionalCosts(xs, Batch), SumAdditionalCosts(xs[i := y], Batch), n);
    SellingMonotone(inputs, inputs');
  }

  lemma DivMonotone(a: real, b: real, n: real)
    requires a <= b && n > 0.0
    ensures a / n <= b / n
  {
    assert b / n - a / n == (b - a) / n;
  }

  /** Same profit settings and a higher total cost give a higher selling price. */
  lemma SellingMonotone(inputs: PricingInputs, inputs': PricingInputs)
    requires inputs'.profitPercentage == inputs.profitPercentage
    requires inputs'.profitMode == inputs.profitMode
    requires inputs'.profitFixedAmount == inputs.profitFixedAmount
    requires CalculateBreakdown(inputs).totalCostPerCake <= CalculateBreakdown(inputs').totalCostPerCake
    ensures CalculateBreakdown(inputs).sellingPricePerCake <= CalculateBreakdown(inputs').sellingPricePerCake
  {
    if EffectiveMode(inputs) == Percentage {
      PercentOfMonotone(CalculateBreakdown(inputs).totalCostPerCake,
                        CalculateBreakdown(inputs').totalCostPerCake,
                        EffectivePercentage(inputs));
    }
  }

  lemma PercentOfMonotone(a: real, b: real, p: real)
    requires a <= b && p >= 0.0
    ensures PercentOf(a, p) <= PercentOf(b, p)
  {
    assert PercentOf(b, p) - PercentOf(a, p) == (b - a) * (p / 100.0);
    MulNonNegative(b - a, p / 100.0);
  }

  /** A cake count of zero, a negative count or any count below two behaves exactly like one cake. */
  lemma SmallCakeCountActsAsOne(inputs: PricingInputs)
    requires inputs.numberOfCakes < 2.0
    ensures CalculateBreakdown(inputs) == CalculateBreakdown(inputs.(numberOfCakes := 1.0))
  {
  }

  /** A percentage above 1000 is applied as 1000. */
  lemma PercentageCappedAt1000(inputs: PricingInputs, p: real)
    requires p >= 1000.0
    ensures CalculateBreakdown(inputs.(profitPercentage := Finite(p)))
         == CalculateBreakdown(inputs.(profitPercentage := Finite(1000.0)))
  {
  }

  /** 100,000 of ingredients, a 20,000 batch cost, 10 cakes, 50 % markup. */
  const PercentageScenario := PricingInputs(
    [Ingredient("flour", "Flour", Finite(100000.0), None)],
    [AdditionalCostItem("gas", "utilities", None, Finite(20000.0), Batch)],
    10.0, Finite(50.0), Some(Percentage), None)

  /** The same batch with a fixed profit of 5,000 per cake. */
  const FixedScenario := PercentageScenario.(profitMode := Some(Fixed), profitFixedAmount := Some(Finite(5000.0)))

  /** A per-cake cost of 3,000 over 5 cakes and nothing else. */
  const PerCakeScenario := PricingInputs(
    [], [AdditionalCostItem("box", "packaging", None, Finite(3000.0), PerCake)],
    5.0, Finite(0.0), Some(Percentage), None)

  lemma ScenarioPercentage()
    ensures var r := CalculateBreakdown(PercentageScenario);
      && r.ingredientCostPerCake == 10000.0
      && r.allocatedBatchCostsPerCake == 2000.0
      && r.totalCostPerCake == 12000.0
      && r.profitPerCake == 6000.0
      && r.sellingPricePerCake == 18000.0
  {
    var inputs := PercentageScenario;
    ScenarioSums(inputs, 100000.0, 20000.0, Batch);
    assert CakeCount(10.0) == 10;
    assert EffectivePercentage(inputs) == 50.0;
    var r := CalculateBreakdown(inputs);
    PerCakeFigures(r, 10.0);
    PercentOfValue(12000.0, 50.0, 6000.0);
  }

  lemma ScenarioFixed()
    ensures var r := CalculateBreakdown(FixedScenario);
      && r.totalCostPerCake == 12000.0
      && r.profitPerCake == 5000.0
      && r.sellingPricePerCake == 17000.0
  {
    var inputs := FixedScenario;
    ScenarioSums(inputs, 100000.0, 20000.0, Batch);
    assert CakeCount(10.0) == 10;
    assert EffectiveFixedAmount(inputs) == 5000.0;
    var r := CalculateBreakdown(inputs);
    PerCakeFigures(r, 10.0);
  }

  /** The per-cake cost is charged in full on each cake, not divided by the cake count. */
  lemma ScenarioPerCakeNotDivided()
    ensures CalculateBreakdown(PerCakeScenario).totalCostPerCake == 3000.0
  {
    var inputs := PerCakeScenario;
    ScenarioSums(inputs, 0.0, 3000.0, PerCake);
    assert CakeCount(5.0) == 5;
    var r := CalculateBreakdown(inputs);
    PerCakeFigures(r, 5.0);
  }

  /** The divided figures of a consistent breakdown are the batch sums over `n`. */
  lemma PerCakeFigures(r: CostBreakdownPerCake, n: real)
    requires n > 0.0 && Consistent(r, n)
    ensures r.ingredientCostPerCake == r.totals.totalIngredientCost / n
    ensures r.allocatedBatchCostsPerCake == r.totals.totalPerBatchAdditionalCosts / n
  {
    DivCancel(r.totals.totalIngredientCost, n);
    MulCancel(r.ingredientCostPerCake, r.totals.totalIngredientCost / n, n);
    DivCancel(r.totals.totalPerBatchAdditionalCosts, n);
    MulCancel(r.allocatedBatchCostsPerCake, r.totals.totalPerBatchAdditionalCosts / n, n);
  }

  /** The sums of a scenario with at most one ingredient and exactly one additional cost. */
  lemma ScenarioSums(inputs: PricingInputs, ingredientTotal: real, amount: real, t: AllocationType)
    requires |inputs.ingredients| <= 1 && |inputs.additionalCosts| == 1
    requires inputs.ingredients != [] ==> inputs.ingredients[0].cost == Finite(ingredientTotal)
    requires inputs.ingredients == [] ==> ingredientTotal == 0.0
    requires inputs.additionalCosts[0].amount == Finite(amount)
    requires inputs.additionalCosts[0].allocationType == t
    ensures SumIngredients(inputs.ingredients) == ingredientTotal
    ensures SumAdditionalCosts(inputs.additionalCosts, t) == amount
    ensures forall u :: u != t ==> SumAdditionalCosts(inputs.additionalCosts, u) == 0.0
  {
    var cs := inputs.additionalCosts;
    SumAdditionalCostsCons(cs, Batch);
    SumAdditionalCostsCons(cs, PerCake);
    assert cs[1..] == [];
    if inputs.ingredients != [] {
      assert inputs.ingredients[1..] == [];
    }
  }

  /*** The two-argument call the editor page makes ***/

  /**
    The breakdown with an externally amortised per-batch cost (equipment
    plus overhead) folded into the batch total before dividing: what the
    editor page asks for when it passes `{ extraPerBatchCost }`.
   */
  function CalculateBreakdownWithExtra(inputs: PricingInputs, extraPerBatchCost: real): (r: CostBreakdownPerCake)
    ensures r.totals == BatchTotals(
              SumIngredients(inputs.ingredients),
              SumAdditionalCosts(inputs.additionalCosts, Batch) + extraPerBatchCost,
              SumAdditionalCosts(inputs.additionalCosts, PerCake))
    ensures Consistent(r, CakeCount(inputs.numberOfCakes) as real)
    ensures EffectiveMode(inputs) == Fixed ==> r.profitPerCake == EffectiveFixedAmount(inputs)
    ensures EffectiveMode(inputs) == Percentage ==>
              r.profitPerCake == PercentOf(r.totalCostPerCake, EffectivePercentage(inputs))
  {
    var numberOfCakes := CakeCount(inputs.numberOfCakes);
    var totals := BatchTotals(
      SumIngredients(inputs.ingredients),
      SumAdditionalCosts(inputs.additionalCosts, Batch) + extraPerBatchCost,
      SumAdditionalCosts(inputs.additionalCosts, PerCake));
    Assemble(totals, numberOfCakes as real, EffectiveMode(inputs),
             EffectivePercentage(inputs), EffectiveFixedAmount(inputs))
  }

  /** With no extra cost the two-argument form is the one-argument form. */
  lemma WithExtraZeroIsBreakdown(inputs: PricingInputs)
    ensures CalculateBreakdownWithExtra(inputs, 0.0) == CalculateBreakdown(inputs)
  {
  }

  /**
    With the extra cost folded in, a 1,000 amortised cost plus a 4,000
    batch cost over 5 cakes allocates 1,000 to each cake.
   */
  lemma ScenarioExtraBatchCost()
    ensures CalculateBreakdownWithExtra(PricingInputs(
      [], [AdditionalCostItem("rent", "rent", None, Finite(4000.0), Batch)],
      5.0, Finite(0.0), Some(Percentage), None), 1000.0).allocatedBatchCostsPerCake == 1000.0
  {
    var inputs := PricingInputs(
      [], [AdditionalCostItem("rent", "rent", None, Finite(4000.0), Batch)],
      5.0, Finite(0.0), Some(Percentage), None);
    ScenarioSums(inputs, 0.0, 4000.0, Batch);
    assert CakeCount(5.0) == 5;
    var r := CalculateBreakdownWithExtra(inputs, 1000.0);
    assert r.allocatedBatchCostsPerCake * 5.0 == 5000.0;
  }
}

=== FILE: catalog.dfy ===
/** Unit conversion and pro-rated usage cost for catalogued ingredients (src/utils/ingredientsCatalog.ts). */
module IngredientsCatalog {

  import opened Numbers

  /**
    The package unit. `Other` stands for any unrecognised unit text a
    stored row may carry; the source's `default:` branch treats it as a piece.
   */
  datatype IngredientUnit = G | Kg | Ml | L | Piece | Other(raw: string)

  /** The units a quantity is normalised to: never kg or l. */
  type BaseUnit = u: IngredientUnit | u.G? || u.Ml? || u.Piece? witness G

  datatype BaseQuantity = BaseQuantity(baseAmount: real, baseUnit: BaseUnit)

  /** `packageAmount` is a finite number; `price` is what the whole package costs. */
  datatype IngredientCatalogItem = IngredientCatalogItem(
    id: string,
    name: string,
    packageAmount: real,
    packageUnit: IngredientUnit,
    price: Num)

  /** The physical dimension of a unit: mass, volume, or count (anything else). */
  function Dimension(u: IngredientUnit): BaseUnit
  {
    match u
    case G | Kg => G
    case Ml | L => Ml
    case _ => Piece
  }

  /** How many base units one of `u` holds. */
  function Factor(u: IngredientUnit): real
  {
    if u == Kg || u == L then 1000.0 else 1.0
  }

  /**
    `normalizeToBaseUnit`: a negative amount counts as 0; kg and l are
    scaled by 1000 to g and ml; g, ml, piece and unknown units keep
    their amount.
   */
  function NormalizeToBaseUnit(amount: real, unit: IngredientUnit): (r: BaseQuantity)
    ensures r.baseAmount >= 0.0
    ensures r.baseUnit == Dimension(unit)
    ensures r.baseAmount == Factor(unit) * MaxReal(0.0, amount)
  {
    var value := MaxReal(0.0, amount);
    match unit
    case Kg => BaseQuantity(value * 1000.0, G)
    case L => BaseQuantity(value * 1000.0, Ml)
    case G => BaseQuantity(value, G)
    case Ml => BaseQuantity(value, Ml)
    case _ => BaseQuantity(value, Piece)
  }

  /** A normalised quantity is already in base form: normalising it again changes nothing. */
  lemma NormalizeIdempotent(amount: real, unit: IngredientUnit)
    ensures var q := NormalizeToBaseUnit(amount, unit);
      NormalizeToBaseUnit(q.baseAmount, q.baseUnit) == q
  {
  }

  /** `a` kilograms normalise exactly as `1000 a` grams do, and litres as millilitres. */
  lemma NormalizeLargeUnit(a: real)
    requires a >= 0.0
    ensures NormalizeToBaseUnit(a, Kg) == NormalizeToBaseUnit(1000.0 * a, G)
    ensures NormalizeToBaseUnit(a, L) == NormalizeToBaseUnit(1000.0 * a, Ml)
  {
  }

  /** True when `computeCostForUsage` reaches its pro-rating step. */
  predicate Priceable(item: IngredientCatalogItem, usedAmount: Num, usedUnit: IngredientUnit)
  {
    && usedAmount.Finite? && usedAmount.value > 0.0
    && item.price.Finite? && item.price.value > 0.0
    && Dimension(item.packageUnit) == Dimension(usedUnit)
    && NormalizeToBaseUnit(item.packageAmount, item.packageUnit).baseAmount > 0.0
  }

  /**
    `computeCostForUsage`: the price pro-rated by the used share of the
    package, both sides in base units; 0 for a non-positive or
    non-finite usage or price, for units of different dimensions, and for
    an empty package.
   */
  function ComputeCostForUsage(item: IngredientCatalogItem, usedAmount: Num, usedUnit: IngredientUnit): (r: real)
    ensures r >= 0.0
    ensures !Priceable(item, usedAmount, usedUnit) <==> r == 0.0
    ensures Priceable(item, usedAmount, usedUnit) ==>
              r * NormalizeToBaseUnit(item.packageAmount, item.packageUnit).baseAmount
              == item.price.value * NormalizeToBaseUnit(usedAmount.value, usedUnit).baseAmount
  {
    if !usedAmount.Finite? || usedAmount.value <= 0.0 || !item.price.Finite? || item.price.value <= 0.0 then 0.0
    else
      var pkgBase := NormalizeToBaseUnit(item.packageAmount, item.packageUnit);
      var usedBase := NormalizeToBaseUnit(usedAmount.value, usedUnit);
      if pkgBase.baseUnit != usedBase.baseUnit then 0.0
      else if pkgBase.baseAmount <= 0.0 then 0.0
      else
        var ratio := usedBase.baseAmount / pkgBase.baseAmount;
        RatioFacts(item.price.value, usedBase.baseAmount, pkgBase.baseAmount);
        MaxReal(0.0, item.price.value * ratio)
  }

  lemma RatioFacts(price: real, used: real, pkg: real)
    requires price > 0.0 && used > 0.0 && pkg > 0.0
    ensures price * (used / pkg) > 0.0
    ensures (price * (used / pkg)) * pkg == price * used
  {
    assert used / pkg > 0.0;
  }

  /** Using exactly the package quantity costs exactly the package price. */
  lemma WholePackageCostsPrice(item: IngredientCatalogItem)
    requires item.price.Finite? && item.price.value > 0.0
    requires item.packageAmount > 0.0
    ensures ComputeCostForUsage(item, Finite(item.packageAmount), item.packageUnit) == item.price.value
  {
    var b := NormalizeToBaseUnit(item.packageAmount, item.packageUnit).baseAmount;
    var r := ComputeCostForUsage(item, Finite(item.packageAmount), item.packageUnit);
    assert b > 0.0;
    assert r * b == item.price.value * b;
    CancelPositive(r, item.price.value, b);
  }

  lemma CancelPositive(x: real, y: real, b: real)
    requires b > 0.0 && x * b == y * b
    ensures x == y
  {
    assert (x - y) * b == 0.0;
  }

  /** The same usage stated in kg or in g (l or ml) costs the same. */
  lemma UsageCostUnitInvariant(item: IngredientCatalogItem, a: real)
    requires a >= 0.0
    ensures ComputeCostForUsage(item, Finite(a), Kg) == ComputeCostForUsage(item, Finite(1000.0 * a), G)
    ensures ComputeCostForUsage(item, Finite(a), L) == ComputeCostForUsage(item, Finite(1000.0 * a), Ml)
  {
    NormalizeLargeUnit(a);
  }

  /** Example from the source's comments: 1 kg used from a 1000 g package costs the whole price. */
  lemma OneKilogramOfThousandGramPackage(price: real)
    requires price > 0.0
    ensures ComputeCostForUsage(IngredientCatalogItem("sugar", "Sugar", 1000.0, G, Finite(price)), Finite(1.0), Kg)
            == price
  {
    var item := IngredientCatalogItem("sugar", "Sugar", 1000.0, G, Finite(price));
    UsageCostUnitInvariant(item, 1.0);
    WholePackageCostsPrice(item);
  }

  /** Using more of a priceable package never costs less. */
  lemma UsageCostMonotone(item: IngredientCatalogItem, a: real, b: real, unit: IngredientUnit)
    requires 0.0 < a <= b
    requires Priceable(item, Finite(a), unit)
    ensures ComputeCostForUsage(item, Finite(a), unit) <= ComputeCostForUsage(item, Finite(b), unit)
  {
    var price := item.price.value;
    var pkg := NormalizeToBaseUnit(item.packageAmount, item.packageUnit).baseAmount;
    var ua := NormalizeToBaseUnit(a, unit).baseAmount;
    var ub := NormalizeToBaseUnit(b, unit).baseAmount;
    var ra := ComputeCostForUsage(item, Finite(a), unit);
    var rb := ComputeCostForUsage(item, Finite(b), unit);
    assert Priceable(item, Finite(b), unit);
    assert ua <= ub by {
      assert ua == Factor(unit) * a && ub == Factor(unit) * b;
    }
    ProRatedMonotone(price, pkg, ua, ub, ra, rb);
  }

  /** Pro-rating is monotone in the used amount. */
  lemma ProRatedMonotone(price: real, pkg: real, ua: real, ub: real, ra: real, rb: real)
    requires price > 0.0 && pkg > 0.0 && ua <= ub
    requires ra * pkg == price * ua && rb * pkg == price * ub
    ensures ra <= rb
  {
    MulLe(price, ua, ub);
    CancelLe(ra, rb, pkg);
  }

  lemma MulLe(p: real, x: real, y: real)
    requires p > 0.0 && x <= y
    ensures p * x <= p * y
  {
    assert p * y - p * x == p * (y - x);
  }

  lemma CancelLe(x: real, y: real, b: real)
    requires b > 0.0 && x * b <= y * b
    ensures x <= y
  {
  }
}

=== FILE: editor.dfy ===
/**
  The pricing editor's state and its handlers (src/app/page.tsx): unique
  ids for loaded items, add / edit / delete of ingredients and additional
  costs, loading a saved profile, resetting, and the breakdown the page
  shows. Ids that the page draws from `Date.now()` and `Math.random()` are
  modelled by `FreshId`, which only guarantees what the page's retry loop
  guarantees: the id is new.
 */
module Editor {

  import opened Wrappers
  import opened Numbers
  import opened Types
  import opened Calculations
  import opened KeyedLists
  import opened BusinessCosts
  import opened Profiles

  datatype EditorState = EditorState(
    ingredients: seq<Ingredient>,
    additionalCosts: seq<AdditionalCostItem>,
    numberOfCakes: real,
    profitMode: ProfitMode,
    profitPercentage: Num,
    profitFixedAmount: Num,
    cakeName: string,
    currentProfileId: Option<string>,
    isEditingName: bool,
    tempName: string,
    businessPerBatchCost: real)

  /** The state the page starts in: no items, one cake, fixed mode with nothing set. */
  const InitialState := EditorState([], [], 1.0, Fixed, Finite(0.0), Finite(0.0), "", None, false, "", 0.0)

  function IngredientId(x: Ingredient): string
  {
    x.id
  }

  function CostId(x: AdditionalCostItem): string
  {
    x.id
  }

  /** The pricing inputs the page's state describes. */
  function InputsOf(s: EditorState): PricingInputs
  {
    PricingInputs(s.ingredients, s.additionalCosts, s.numberOfCakes, s.profitPercentage,
                  Some(s.profitMode), Some(s.profitFixedAmount))
  }

  /** Every item has a non-empty id and no two items of one list share one. */
  predicate WellFormed(s: EditorState)
  {
    && DistinctIds(s.ingredients, IngredientId) && NonEmptyIds(s.ingredients, IngredientId)
    && DistinctIds(s.additionalCosts, CostId) && NonEmptyIds(s.additionalCosts, CostId)
  }

  /*** Fresh ids ***/

  function MaxLength(xs: seq<string>): (m: nat)
    ensures forall i :: 0 <= i < |xs| ==> |xs[i]| <= m
  {
    if xs == [] then 0
    else
      var rest := MaxLength(xs[1..]);
      if |xs[0]| > rest then |xs[0]| else rest
  }

  function Zeros(n: nat): (r: string)
    ensures |r| == n
  {
    if n == 0 then "" else "0" + Zeros(n - 1)
  }

  /**
    A stand-in for `generateId(prefix)` retried until the id is unused:
    `<prefix>_` followed by something, different from every id in `used`.
   */
  function FreshId(prefix: string, used: seq<string>): (r: string)
    ensures r !in used
    ensures |r| > |prefix| && r[..|prefix| + 1] == prefix + "_"
  {
    var r := prefix + "_" + Zeros(MaxLength(used) + 1);
    assert r[..|prefix| + 1] == prefix + "_";
    r
  }

  /*** ensureUniqueIds ***/

  /**
    The ids `ensureUniqueIds` hands out, given the items' ids and the ids
    already taken: an id is kept when it is non-empty and not taken,
    otherwise a fresh one is drawn; either way it is then taken.
   */
  function AssignIds(ids: seq<string>, prefix: string, taken: seq<string>): (r: seq<string>)
    ensures |r| == |ids|
    ensures forall i :: 0 <= i < |r| ==> r[i] != "" && r[i] !in taken
    ensures forall i, j :: 0 <= i < j < |r| ==> r[i] != r[j]
    ensures forall i :: 0 <= i < |r| ==>
              (r[i] == ids[i] <==> ids[i] != "" && ids[i] !in taken && ids[i] !in r[..i])
  {
    if ids == [] then []
    else
      var id := if ids[0] == "" || ids[0] in taken then FreshId(prefix, taken) else ids[0];
      var rest := AssignIds(ids[1..], prefix, taken + [id]);
      AssignedCons(ids, taken, id, rest);
      [id] + rest
  }

  /** The first id handed out, in front of those handed out after taking it. */
  lemma AssignedCons(ids: seq<string>, taken: seq<string>, id: string, rest: seq<string>)
    requires ids != [] && |rest| == |ids| - 1
    requires id != "" && id !in taken
    requires id == ids[0] <==> ids[0] != "" && ids[0] !in taken
    requires forall i :: 0 <= i < |rest| ==> rest[i] != "" && rest[i] !in taken + [id]
    requires forall i, j :: 0 <= i < j < |rest| ==> rest[i] != rest[j]
    requires forall i :: 0 <= i < |rest| ==>
               (rest[i] == ids[i + 1] <==> ids[i + 1] != "" && ids[i + 1] !in taken + [id] && ids[i + 1] !in rest[..i])
    ensures var r := [id] + rest;
      && (forall i :: 0 <= i < |r| ==> r[i] != "" && r[i] !in taken)
      && (forall i, j :: 0 <= i < j < |r| ==> r[i] != r[j])
      && (forall i :: 0 <= i < |r| ==> (r[i] == ids[i] <==> ids[i] != "" && ids[i] !in taken && ids[i] !in r[..i]))
  {
    var r := [id] + rest;
    forall i | 0 < i < |r|
      ensures r[i] == rest[i - 1] && r[..i] == [id] + rest[..i - 1]
    {
    }
  }

  /** `ensureUniqueIds(items, "ing")`: same items, each with a non-empty id no other item has. */
  function EnsureUniqueIngredientIds(xs: seq<Ingredient>): (r: seq<Ingredient>)
    ensures |r| == |xs|
    ensures forall i :: 0 <= i < |xs| ==> r[i] == xs[i].(id := r[i].id)
    ensures DistinctIds(r, IngredientId) && NonEmptyIds(r, IngredientId)
    ensures forall i :: 0 <= i < |xs| ==>
              (r[i].id == xs[i].id <==> xs[i].id != "" && xs[i].id !in Ids(r[..i], IngredientId))
  {
    var ids := AssignIds(Ids(xs, IngredientId), "ing", []);
    var r := seq(|xs|, i requires 0 <= i < |xs| => xs[i].(id := ids[i]));
    assert forall i :: 0 <= i <= |xs| ==> Ids(r[..i], IngredientId) == ids[..i];
    r
  }

  /** `ensureUniqueIds(items, "cost")`. */
  function EnsureUniqueCostIds(xs: seq<AdditionalCostItem>): (r: seq<AdditionalCostItem>)
    ensures |r| == |xs|
    ensures forall i :: 0 <= i < |xs| ==> r[i] == xs[i].(id := r[i].id)
    ensures DistinctIds(r, CostId) && NonEmptyIds(r, CostId)
    ensures forall i :: 0 <= i < |xs| ==>
              (r[i].id == xs[i].id <==> xs[i].id != "" && xs[i].id !in Ids(r[..i], CostId))
  {
    var ids := AssignIds(Ids(xs, CostId), "cost", []);
    var r := seq(|xs|, i requires 0 <= i < |xs| => xs[i].(id := ids[i]));
    assert forall i :: 0 <= i <= |xs| ==> Ids(r[..i], CostId) == ids[..i];
    r
  }

  /** Items that already have distinct non-empty ids come through unchanged. */
  lemma {:induction false} AssignIdsKeepsGoodIds(ids: seq<string>, prefix: string, taken: seq<string>)
    requires forall i :: 0 <= i < |ids| ==> ids[i] != "" && ids[i] !in taken
    requires forall i, j :: 0 <= i < j < |ids| ==> ids[i] != ids[j]
    ensures AssignIds(ids, prefix, taken) == ids
  {
    if ids != [] {
      var tail := ids[1..];
      assert forall i :: 0 <= i < |tail| ==> tail[i] == ids[i + 1];
      AssignIdsKeepsGoodIds(tail, prefix, taken + [ids[0]]);
      assert ids == [ids[0]] + tail;
    }
  }

  lemma EnsureUniqueIngredientIdsKeepsWellFormed(xs: seq<Ingredient>)
    requires DistinctIds(xs, IngredientId) && NonEmptyIds(xs, IngredientId)
    ensures EnsureUniqueIngredientIds(xs) == xs
  {
    AssignIdsKeepsGoodIds(Ids(xs, IngredientId), "ing", []);
  }

  /*** Handlers ***/

  /** `addIngredient`: a copy of `ing` under a new id, put first. */
  function AddIngredient(s: EditorState, ing: Ingredient): (r: EditorState)
    ensures r == s.(ingredients := r.ingredients)
    ensures |r.ingredients| == |s.ingredients| + 1 && r.ingredients[1..] == s.ingredients
    ensures r.ingredients[0] == ing.(id := r.ingredients[0].id)
    ensures r.ingredients[0].id != "" && !HasId(s.ingredients, IngredientId, r.ingredients[0].id)
  {
    var id := FreshId("ing", Ids(s.ingredients, IngredientId));
    assert forall i :: 0 <= i < |s.ingredients| ==> s.ingredients[i].id in Ids(s.ingredients, IngredientId);
    s.(ingredients := [ing.(id := id)] + s.ingredients)
  }

  /** `editIngredient`: every ingredient with the updated one's id becomes the updated one. */
  function EditIngredient(s: EditorState, updated: Ingredient): (r: EditorState)
    ensures r == s.(ingredients := r.ingredients)
    ensures |r.ingredients| == |s.ingredients|
    ensures forall i :: 0 <= i < |s.ingredients| ==>
              r.ingredients[i] == (if s.ingredients[i].id == updated.id then updated else s.ingredients[i])
  {
    s.(ingredients := ReplaceById(s.ingredients, IngredientId, updated.id, updated))
  }

  /** `deleteIngredient`: drop the ingredients with that id. */
  function DeleteIngredient(s: EditorState, id: string): (r: EditorState)
    ensures r == s.(ingredients := r.ingredients)
    ensures forall i :: 0 <= i < |r.ingredients| ==> r.ingredients[i] in s.ingredients && r.ingredients[i].id != id
    ensures forall i :: 0 <= i < |s.ingredients| && s.ingredients[i].id != id ==> s.ingredients[i] in r.ingredients
    ensures r.ingredients == RemoveById(s.ingredients, IngredientId, id)
  {
    s.(ingredients := RemoveById(s.ingredients, IngredientId, id))
  }

  /** `addAdditionalCost`. */
  function AddAdditionalCost(s: EditorState, item: AdditionalCostItem): (r: EditorState)
    ensures r == s.(additionalCosts := r.additionalCosts)
    ensures |r.additionalCosts| == |s.additionalCosts| + 1 && r.additionalCosts[1..] == s.additionalCosts
    ensures r.additionalCosts[0] == item.(id := r.additionalCosts[0].id)
    ensures r.additionalCosts[0].id != "" && !HasId(s.additionalCosts, CostId, r.additionalCosts[0].id)
  {
    var id := FreshId("cost", Ids(s.additionalCosts, CostId));
    assert forall i :: 0 <= i < |s.additionalCosts| ==> s.additionalCosts[i].id in Ids(s.additionalCosts, CostId);
    s.(additionalCosts := [item.(id := id)] + s.additionalCosts)
  }

  /** `editAdditionalCost`. */
  function EditAdditionalCost(s: EditorState, updated: AdditionalCostItem): (r: EditorState)
    ensures r == s.(additionalCosts := r.additionalCosts)
    ensures |r.additionalCosts| == |s.additionalCosts|
    ensures forall i :: 0 <= i < |s.additionalCosts| ==>
              r.additionalCosts[i] == (if s.additionalCosts[i].id == updated.id then updated else s.additionalCosts[i])
  {
    s.(additionalCosts := ReplaceById(s.additionalCosts, CostId, updated.id, updated))
  }

  /** `deleteAdditionalCost`. */
  function DeleteAdditionalCost(s: EditorState, id: string): (r: EditorState)
    ensures r == s.(additionalCosts := r.additionalCosts)
    ensures forall i :: 0 <= i < |r.additionalCosts| ==> r.additionalCosts[i] in s.additionalCosts && r.additionalCosts[i].id != id
    ensures forall i :: 0 <= i < |s.additionalCosts| && s.additionalCosts[i].id != id ==> s.additionalCosts[i] in r.additionalCosts
    ensures r.additionalCosts == RemoveById(s.additionalCosts, CostId, id)
  {
    s.(additionalCosts := RemoveById(s.additionalCosts, CostId, id))
  }

  /** Deleting the ingredient just added gives back the state before the add. */
  lemma DeleteUndoesAddIngredient(s: EditorState, ing: Ingredient)
    ensures var added := AddIngredient(s, ing);
            DeleteIngredient(added, added.ingredients[0].id) == s
  {
    var added := AddIngredient(s, ing);
    var id := added.ingredients[0].id;
    RemoveAbsent(s.ingredients, IngredientId, id);
    assert added.ingredients == [added.ingredients[0]] + s.ingredients;
  }

  lemma DeleteUndoesAddAdditionalCost(s: EditorState, item: AdditionalCostItem)
    ensures var added := AddAdditionalCost(s, item);
            DeleteAdditionalCost(added, added.additionalCosts[0].id) == s
  {
    var added := AddAdditionalCost(s, item);
    var id := added.additionalCosts[0].id;
    RemoveAbsent(s.additionalCosts, CostId, id);
    assert added.additionalCosts == [added.additionalCosts[0]] + s.additionalCosts;
  }

  /** Editing twice with the same item is editing once; deleting an edited id is deleting it. */
  lemma EditIngredientLaws(s: EditorState, updated: Ingredient)
    ensures EditIngredient(EditIngredient(s, updated), updated) == EditIngredient(s, updated)
    ensures DeleteIngredient(EditIngredient(s, updated), updated.id) == DeleteIngredient(s, updated.id)
  {
    ReplaceIdempotent(s.ingredients, IngredientId, updated.id, updated);
    RemoveAfterReplace(s.ingredients, IngredientId, updated.id, updated);
  }

  lemma EditAdditionalCostLaws(s: EditorState, updated: AdditionalCostItem)
    ensures EditAdditionalCost(EditAdditionalCost(s, updated), updated) == EditAdditionalCost(s, updated)
    ensures DeleteAdditionalCost(EditAdditionalCost(s, updated), updated.id) == DeleteAdditionalCost(s, updated.id)
  {
    ReplaceIdempotent(s.additionalCosts, CostId, updated.id, updated);
    RemoveAfterReplace(s.additionalCosts, CostId, updated.id, updated);
  }

  /** Adding keeps the ids of both lists non-empty and distinct. */
  lemma AddKeepsWellFormed(s: EditorState, ing: Ingredient, item: AdditionalCostItem)
    requires WellFormed(s)
    ensures WellFormed(AddIngredient(s, ing)) && WellFormed(AddAdditionalCost(s, item))
  {
    var a := AddIngredient(s, ing).ingredients;
    ConsKeepsIds(a[0], s.ingredients, IngredientId);
    assert a == [a[0]] + s.ingredients;
    var c := AddAdditionalCost(s, item).additionalCosts;
    ConsKeepsIds(c[0], s.additionalCosts, CostId);
    assert c == [c[0]] + s.additionalCosts;
  }

  /** Editing with an item that has a non-empty id keeps the ids well formed. */
  lemma EditKeepsWellFormed(s: EditorState, ing: Ingredient, item: AdditionalCostItem)
    requires WellFormed(s) && ing.id != "" && item.id != ""
    ensures WellFormed(EditIngredient(s, ing)) && WellFormed(EditAdditionalCost(s, item))
  {
    ReplaceKeepsIds(s.ingredients, IngredientId, ing.id, ing);
    ReplaceKeepsIds(s.additionalCosts, CostId, item.id, item);
  }

  lemma DeleteKeepsWellFormed(s: EditorState, ingredientId: string, costId: string)
    requires WellFormed(s)
    ensures WellFormed(DeleteIngredient(s, ingredientId)) && WellFormed(DeleteAdditionalCost(s, costId))
  {
    RemoveKeepsDistinct(s.ingredients, IngredientId, ingredientId);
    RemoveKeepsDistinct(s.additionalCosts, CostId, costId);
  }

  /*** Loading, resetting, business costs ***/

  /** `x && x > 0` on a JavaScript number. */
  predicate Positive(x: Num)
  {
    (x.Finite? && x.value > 0.0) || x.PosInf?
  }

  /** The mode a loaded profile is edited in: its own, else fixed when it carries a positive fixed amount. */
  function LoadedMode(inputs: PricingInputs): (m: ProfitMode)
    ensures inputs.profitMode.Some? ==> m == inputs.profitMode.value
    ensures inputs.profitMode.None? ==>
              (m == Fixed <==> inputs.profitFixedAmount.Some? && Positive(inputs.profitFixedAmount.value))
  {
    match inputs.profitMode
    case Some(m) => m
    case None =>
      if inputs.profitFixedAmount.Some? && Positive(inputs.profitFixedAmount.value) then Fixed else Percentage
  }

  /** The effect of opening a saved profile: its items with unique ids, its numbers with the page's defaults. */
  function LoadProfile(s: EditorState, p: CakeProfile): (r: EditorState)
    ensures WellFormed(r)
    ensures r.ingredients == EnsureUniqueIngredientIds(p.inputs.ingredients)
    ensures r.additionalCosts == EnsureUniqueCostIds(p.inputs.additionalCosts)
    ensures r.profitMode == LoadedMode(p.inputs)
    ensures p.inputs.numberOfCakes != 0.0 ==> r.numberOfCakes == p.inputs.numberOfCakes
    ensures p.inputs.numberOfCakes == 0.0 ==> r.numberOfCakes == 1.0
    ensures r.profitPercentage == Or(p.inputs.profitPercentage, 0.0)
    ensures r.profitFixedAmount == OptOr(p.inputs.profitFixedAmount, 0.0)
    ensures r.cakeName == p.name && r.currentProfileId == Some(p.id)
    ensures r.isEditingName == s.isEditingName && r.tempName == s.tempName
    ensures r.businessPerBatchCost == s.businessPerBatchCost
  {
    s.(ingredients := EnsureUniqueIngredientIds(p.inputs.ingredients),
       additionalCosts := EnsureUniqueCostIds(p.inputs.additionalCosts),
       numberOfCakes := if p.inputs.numberOfCakes == 0.0 then 1.0 else p.inputs.numberOfCakes,
       profitPercentage := Or(p.inputs.profitPercentage, 0.0),
       profitMode := LoadedMode(p.inputs),
       profitFixedAmount := OptOr(p.inputs.profitFixedAmount, 0.0),
       cakeName := p.name,
       currentProfileId := Some(p.id))
  }

  /** Loading keeps what the saved profile's cake costs. */
  lemma LoadKeepsPricing(s: EditorState, p: CakeProfile)
    ensures CalculateBreakdown(InputsOf(LoadProfile(s, p))).totalCostPerCake
         == CalculateBreakdown(p.inputs).totalCostPerCake
  {
    var r := LoadProfile(s, p);
    IngredientIdsIrrelevant(p.inputs.ingredients, r.ingredients);
    CostIdsIrrelevant(p.inputs.additionalCosts, r.additionalCosts);
    assert CakeCount(r.numberOfCakes) == CakeCount(p.inputs.numberOfCakes);
    TotalCostIgnoresProfit(InputsOf(r), p.inputs.(ingredients := r.ingredients, additionalCosts := r.additionalCosts));
    assert CalculateBreakdown(p.inputs.(ingredients := r.ingredients, additionalCosts := r.additionalCosts))
        == CalculateBreakdown(p.inputs);
  }

  /**
    When the profile stores its mode, loading keeps the whole breakdown: the
    defaults the page applies are the ones the calculation applies anyway.
    Without a stored mode the page may open it in fixed mode where the
    calculation reads percentage.
   */
  lemma LoadKeepsBreakdown(s: EditorState, p: CakeProfile)
    requires p.inputs.profitMode.Some?
    ensures CalculateBreakdown(InputsOf(LoadProfile(s, p))) == CalculateBreakdown(p.inputs)
  {
    var r := LoadProfile(s, p);
    var a, b := InputsOf(r), p.inputs;
    IngredientIdsIrrelevant(b.ingredients, a.ingredients);
    CostIdsIrrelevant(b.additionalCosts, a.additionalCosts);
    OrIdempotent(b.profitPercentage, 0.0);
    OptOrIdempotent(b.profitFixedAmount, 0.0);
    assert CakeCount(a.numberOfCakes) == CakeCount(b.numberOfCakes);
    assert EffectiveMode(a) == EffectiveMode(b);
    assert EffectivePercentage(a) == EffectivePercentage(b);
    assert EffectiveFixedAmount(a) == EffectiveFixedAmount(b);
  }

  lemma {:induction false} IngredientIdsIrrelevant(xs: seq<Ingredient>, ys: seq<Ingredient>)
    requires |xs| == |ys| && forall i :: 0 <= i < |xs| ==> ys[i] == xs[i].(id := ys[i].id)
    ensures SumIngredients(xs) == SumIngredients(ys)
  {
    if xs != [] {
      IngredientIdsIrrelevant(xs[1..], ys[1..]);
    }
  }

  lemma {:induction false} CostIdsIrrelevant(xs: seq<AdditionalCostItem>, ys: seq<AdditionalCostItem>)
    requires |xs| == |ys| && forall i :: 0 <= i < |xs| ==> ys[i] == xs[i].(id := ys[i].id)
    ensures forall t :: SumAdditionalCosts(xs, t) == SumAdditionalCosts(ys, t)
  {
    if xs != [] {
      CostIdsIrrelevant(xs[1..], ys[1..]);
      SumAdditionalCostsCons(xs, Batch);
      SumAdditionalCostsCons(xs, PerCake);
      SumAdditionalCostsCons(ys, Batch);
      SumAdditionalCostsCons(ys, PerCake);
    }
  }

  /**
    A profile read back with its mode column and one pulled into the local
    list without it open in the same mode exactly when the row stored no
    mode: the page's fallback and the row mapping's agree.
   */
  lemma LoadedModeMatchesRowResolution(row: RemoteProfileRow, now: string, stamp: string)
    requires row.profitMode.None?
    ensures LoadedMode(MapRemoteRow(row, now, stamp).inputs.(profitMode := None))
         == MapRemoteRow(row, now, stamp).inputs.profitMode.value
  {
  }

  /** A pulled profile carries no mode and no fixed amount, so it opens in percentage mode. */
  lemma PulledProfileLoadsAsPercentage(row: RemoteProfileRow, now: string, stamp: string)
    ensures LoadedMode(MapPulledRow(row, now, stamp).inputs) == Percentage
  {
  }

  /** `resetAll`: empty lists, one cake, no percentage, no name; mode and fixed amount stay. */
  function ResetAll(s: EditorState): (r: EditorState)
    ensures WellFormed(r)
    ensures r.ingredients == [] && r.additionalCosts == []
    ensures r.numberOfCakes == 1.0 && r.profitPercentage == Finite(0.0)
    ensures r.profitMode == s.profitMode && r.profitFixedAmount == s.profitFixedAmount
    ensures r.businessPerBatchCost == s.businessPerBatchCost
    ensures r.cakeName == "" && r.currentProfileId.None? && !r.isEditingName && r.tempName == ""
  {
    s.(ingredients := [], additionalCosts := [], numberOfCakes := 1.0, profitPercentage := Finite(0.0),
       cakeName := "", currentProfileId := None, isEditingName := false, tempName := "")
  }

  /** After a reset the cake costs nothing, and its price is the fixed profit in fixed mode and 0 otherwise. */
  lemma ResetPricesAtZeroCost(s: EditorState)
    ensures var b := CalculateBreakdown(InputsOf(ResetAll(s)));
            && b.totalCostPerCake == 0.0
            && b.sellingPricePerCake ==
                 (if s.profitMode == Fixed then ClampNumber(Or(s.profitFixedAmount, 0.0), 0.0, None) else 0.0)
  {
    var inputs := InputsOf(ResetAll(s));
    assert inputs == PricingInputs([], [], 1.0, Finite(0.0), Some(s.profitMode), Some(s.profitFixedAmount));
    EmptyInputsPrice(inputs);
    StatedSettings(inputs, s.profitMode, s.profitFixedAmount);
  }

  /** Settings the page always states are taken as they are. */
  lemma StatedSettings(inputs: PricingInputs, mode: ProfitMode, fixed: Num)
    requires inputs.profitMode == Some(mode) && inputs.profitFixedAmount == Some(fixed)
    ensures EffectiveMode(inputs) == mode
    ensures EffectiveFixedAmount(inputs) == ClampNumber(Or(fixed, 0.0), 0.0, None)
  {
  }

  /** With no items and one cake the cost is 0 and the price is the profit alone. */
  lemma EmptyInputsPrice(inputs: PricingInputs)
    requires inputs.ingredients == [] && inputs.additionalCosts == [] && inputs.numberOfCakes == 1.0
    ensures var b := CalculateBreakdown(inputs);
            && b.totalCostPerCake == 0.0
            && b.sellingPricePerCake == (if EffectiveMode(inputs) == Fixed then EffectiveFixedAmount(inputs) else 0.0)
  {
    var b := CalculateBreakdown(inputs);
    assert CakeCount(1.0) == 1;
    assert b.totals == BatchTotals(0.0, 0.0, 0.0);
    NoItemsNoCost(b);
    if EffectiveMode(inputs) == Percentage {
      assert b.profitPerCake == PercentOf(0.0, EffectivePercentage(inputs));
      assert b.profitPerCake == 0.0;
    }
  }

  lemma NoItemsNoCost(b: CostBreakdownPerCake)
    requires Consistent(b, 1.0) && b.totals == BatchTotals(0.0, 0.0, 0.0)
    ensures b.totalCostPerCake == 0.0
  {
  }

  lemma ResetAllIdempotent(s: EditorState)
    ensures ResetAll(ResetAll(s)) == ResetAll(s)
    ensures ResetAll(InitialState) == InitialState
  {
  }

  /** The page keeps `Math.max(0, combinedPerBatch || 0)` of the amortised cost, 0 when it cannot be read. */
  function LoadBusinessCost(s: EditorState, res: Option<PerBatchCosts>): (r: EditorState)
    ensures r == s.(businessPerBatchCost := r.businessPerBatchCost)
    ensures r.businessPerBatchCost >= 0.0
    ensures res.Some? && res.value.combinedPerBatch >= 0.0 ==> r.businessPerBatchCost == res.value.combinedPerBatch
    ensures res.None? ==> r.businessPerBatchCost == 0.0
  {
    var combined := if res.Some? then res.value.combinedPerBatch else 0.0;
    s.(businessPerBatchCost := MaxReal(0.0, combined))
  }

  /*** The breakdown the page shows ***/

  /** The page's breakdown as written: the second argument it passes is never read. */
  function HomeBreakdown(s: EditorState): (r: CostBreakdownPerCake)
    ensures r.totals == BatchTotals(
              SumIngredients(s.ingredients),
              SumAdditionalCosts(s.additionalCosts, Batch),
              SumAdditionalCosts(s.additionalCosts, PerCake))
    ensures Consistent(r, CakeCount(s.numberOfCakes) as real)
    ensures s.profitMode == Fixed ==> r.profitPerCake == ClampNumber(Or(s.profitFixedAmount, 0.0), 0.0, None)
    ensures s.profitMode == Percentage ==>
              r.profitPerCake == PercentOf(r.totalCostPerCake, ClampNumber(Or(s.profitPercentage, 0.0), 0.0, Some(1000.0)))
  {
    StatedSettings(InputsOf(s), s.profitMode, s.profitFixedAmount);
    CalculateBreakdown(InputsOf(s))
  }

  /** As written, the amortised business cost never reaches the price. */
  lemma HomeBreakdownIgnoresBusinessCost(s: EditorState, c: real)
    ensures HomeBreakdown(s.(businessPerBatchCost := c)) == HomeBreakdown(s)
  {
  }

  /** The page's breakdown with the amortised business cost added to the batch total, as the page means it. */
  function HomeBreakdownCorrected(s: EditorState): (r: CostBreakdownPerCake)
    ensures r.totals == BatchTotals(
              SumIngredients(s.ingredients),
              SumAdditionalCosts(s.additionalCosts, Batch) + s.businessPerBatchCost,
              SumAdditionalCosts(s.additionalCosts, PerCake))
    ensures Consistent(r, CakeCount(s.numberOfCakes) as real)
    ensures s.profitMode == Fixed ==> r.profitPerCake == ClampNumber(Or(s.profitFixedAmount, 0.0), 0.0, None)
    ensures s.profitMode == Percentage ==>
              r.profitPerCake == PercentOf(r.totalCostPerCake, ClampNumber(Or(s.profitPercentage, 0.0), 0.0, Some(1000.0)))
  {
    StatedSettings(InputsOf(s), s.profitMode, s.profitFixedAmount);
    CalculateBreakdownWithExtra(InputsOf(s), s.businessPerBatchCost)
  }

  /** With no business cost the corrected breakdown is the one the page shows. */
  lemma CorrectedAgreesWithoutBusinessCost(s: EditorState)
    requires s.businessPerBatchCost == 0.0
    ensures HomeBreakdownCorrected(s) == HomeBreakdown(s)
  {
    WithExtraZeroIsBreakdown(InputsOf(s));
  }

  /**
    A 4,000 batch cost over 5 cakes with 1,000 of amortised business cost:
    the page allocates 800 to each cake where 1,000 is meant.
   */
  lemma ScenarioBusinessCostDropped()
    ensures var s := InitialState.(
              additionalCosts := [AdditionalCostItem("rent", "rent", None, Finite(4000.0), Batch)],
              numberOfCakes := 5.0, profitMode := Percentage, businessPerBatchCost := 1000.0);
            && HomeBreakdown(s).allocatedBatchCostsPerCake == 800.0
            && HomeBreakdownCorrected(s).allocatedBatchCostsPerCake == 1000.0
  {
    var s := InitialState.(
      additionalCosts := [AdditionalCostItem("rent", "rent", None, Finite(4000.0), Batch)],
      numberOfCakes := 5.0, profitMode := Percentage, businessPerBatchCost := 1000.0);
    var inputs := InputsOf(s);
    ScenarioSums(inputs, 0.0, 4000.0, Batch);
    assert CakeCount(5.0) == 5;
    assert HomeBreakdown(s).allocatedBatchCostsPerCake * 5.0 == 4000.0;
    assert HomeBreakdownCorrected(s).allocatedBatchCostsPerCake * 5.0 == 5000.0;
  }
}

=== FILE: keyed_lists.dfy ===
/**
  Lists of records identified by a string id, as the profile store and the
  editor keep them: find the first record with an id (`findIndex`/`find`),
  drop every record with an id (`filter`), and replace every record with an
  id (`map`). The id of a record is read through `idOf`.
 */
module KeyedLists {

  /** No two records share an id. */
  predicate DistinctIds<T>(xs: seq<T>, idOf: T -> string)
  {
    forall i, j :: 0 <= i < j < |xs| ==> idOf(xs[i]) != idOf(xs[j])
  }

  predicate NonEmptyIds<T>(xs: seq<T>, idOf: T -> string)
  {
    forall i :: 0 <= i < |xs| ==> idOf(xs[i]) != ""
  }

  predicate HasId<T>(xs: seq<T>, idOf: T -> string, id: string)
  {
    exists i :: 0 <= i < |xs| && idOf(xs[i]) == id
  }

  /** The ids of the records, in order (`xs.map(x => x.id)`). */
  function Ids<T>(xs: seq<T>, idOf: T -> string): (r: seq<string>)
    ensures |r| == |xs| && forall i :: 0 <= i < |xs| ==> r[i] == idOf(xs[i])
  {
    seq(|xs|, i requires 0 <= i < |xs| => idOf(xs[i]))
  }

  /** `xs.findIndex(x => idOf(x) === id)`: the first position with that id, or -1. */
  function FindIndex<T>(xs: seq<T>, idOf: T -> string, id: string): (k: int)
    ensures -1 <= k < |xs|
    ensures k >= 0 ==> idOf(xs[k]) == id
    ensures forall i :: 0 <= i < |xs| && (k < 0 || i < k) ==> idOf(xs[i]) != id
    ensures k < 0 <==> !HasId(xs, idOf, id)
  {
    if xs == [] then -1
    else if idOf(xs[0]) == id then 0
    else
      var k := FindIndex(xs[1..], idOf, id);
      if k < 0 then -1 else k + 1
  }

  /** `xs.filter(x => idOf(x) !== id)`. */
  function RemoveById<T>(xs: seq<T>, idOf: T -> string, id: string): (r: seq<T>)
    ensures |r| <= |xs|
    ensures forall i :: 0 <= i < |r| ==> r[i] in xs && idOf(r[i]) != id
    ensures forall i :: 0 <= i < |xs| && idOf(xs[i]) != id ==> xs[i] in r
    ensures |r| == |xs| <==> !HasId(xs, idOf, id)
  {
    if xs == [] then []
    else
      var rest := RemoveById(xs[1..], idOf, id);
      if idOf(xs[0]) == id then rest else [xs[0]] + rest
  }

  /** A record without the id keeps every copy it had; a record with it keeps none. */
  lemma {:induction false} RemoveByIdCount<T>(xs: seq<T>, idOf: T -> string, id: string, x: T)
    ensures multiset(RemoveById(xs, idOf, id))[x] == if idOf(x) == id then 0 else multiset(xs)[x]
  {
    if xs != [] {
      RemoveByIdCount(xs[1..], idOf, id, x);
      assert xs == [xs[0]] + xs[1..];
    }
  }

  /** `xs.map(x => idOf(x) === id ? y : x)`. */
  function ReplaceById<T>(xs: seq<T>, idOf: T -> string, id: string, y: T): (r: seq<T>)
    ensures |r| == |xs|
    ensures forall i :: 0 <= i < |xs| ==> r[i] == (if idOf(xs[i]) == id then y else xs[i])
  {
    if xs == [] then []
    else [if idOf(xs[0]) == id then y else xs[0]] + ReplaceById(xs[1..], idOf, id, y)
  }

  /** Filtering distributes over concatenation, so the kept records stay in order. */
  lemma {:induction false} RemoveByIdAppend<T>(a: seq<T>, b: seq<T>, idOf: T -> string, id: string)
    ensures RemoveById(a + b, idOf, id) == RemoveById(a, idOf, id) + RemoveById(b, idOf, id)
  {
    if a == [] {
      assert a + b == b;
    } else {
      assert (a + b)[1..] == a[1..] + b;
      RemoveByIdAppend(a[1..], b, idOf, id);
    }
  }

  /** Removing an id nobody has changes nothing. */
  lemma {:induction false} RemoveAbsent<T>(xs: seq<T>, idOf: T -> string, id: string)
    requires !HasId(xs, idOf, id)
    ensures RemoveById(xs, idOf, id) == xs
  {
    if xs != [] {
      assert !HasId(xs[1..], idOf, id) by {
        forall i | 0 <= i < |xs[1..]|
          ensures idOf(xs[1..][i]) != id
        {
          assert xs[1..][i] == xs[i + 1];
        }
      }
      RemoveAbsent(xs[1..], idOf, id);
      assert idOf(xs[0]) != id;
      assert xs == [xs[0]] + xs[1..];
    }
  }

  /** Removing twice is removing once. */
  lemma RemoveIdempotent<T>(xs: seq<T>, idOf: T -> string, id: string)
    ensures RemoveById(RemoveById(xs, idOf, id), idOf, id) == RemoveById(xs, idOf, id)
  {
    var r := RemoveById(xs, idOf, id);
    RemoveAbsent(r, idOf, id);
  }

  /** Replacing with a record of the same id, then removing that id, is just removing it. */
  lemma {:induction false} RemoveAfterReplace<T>(xs: seq<T>, idOf: T -> string, id: string, y: T)
    requires idOf(y) == id
    ensures RemoveById(ReplaceById(xs, idOf, id, y), idOf, id) == RemoveById(xs, idOf, id)
  {
    if xs != [] {
      var r := ReplaceById(xs, idOf, id, y);
      assert r[1..] == ReplaceById(xs[1..], idOf, id, y);
      RemoveAfterReplace(xs[1..], idOf, id, y);
    }
  }

  /** Replacing is idempotent when the replacement keeps the id. */
  lemma ReplaceIdempotent<T>(xs: seq<T>, idOf: T -> string, id: string, y: T)
    requires idOf(y) == id
    ensures ReplaceById(ReplaceById(xs, idOf, id, y), idOf, id, y) == ReplaceById(xs, idOf, id, y)
  {
  }

  /** After a replacement the record with that id, if any, is the replacement. */
  lemma FindAfterReplace<T>(xs: seq<T>, idOf: T -> string, id: string, y: T)
    requires idOf(y) == id && HasId(xs, idOf, id)
    ensures FindIndex(ReplaceById(xs, idOf, id, y), idOf, id) == FindIndex(xs, idOf, id)
  {
    var r := ReplaceById(xs, idOf, id, y);
    var k := FindIndex(xs, idOf, id);
    var k' := FindIndex(r, idOf, id);
    assert r[k] == y;
  }

  /** Overwriting the first record with an id by another with that id keeps it first. */
  lemma FindIndexAfterUpdate<T>(xs: seq<T>, idOf: T -> string, id: string, k: int, y: T)
    requires 0 <= k == FindIndex(xs, idOf, id) && idOf(y) == id
    ensures FindIndex(xs[k := y], idOf, id) == k
  {
    var k' := FindIndex(xs[k := y], idOf, id);
    assert idOf(xs[k := y][k]) == id;
  }

  /** Replacing by a record with the same id leaves every id where it was. */
  lemma ReplaceKeepsIds<T>(xs: seq<T>, idOf: T -> string, id: string, y: T)
    requires idOf(y) == id
    ensures forall i :: 0 <= i < |xs| ==> idOf(ReplaceById(xs, idOf, id, y)[i]) == idOf(xs[i])
  {
  }

  /** Filtering keeps ids distinct and non-empty. */
  lemma {:induction false} RemoveKeepsDistinct<T>(xs: seq<T>, idOf: T -> string, id: string)
    requires DistinctIds(xs, idOf) && NonEmptyIds(xs, idOf)
    ensures DistinctIds(RemoveById(xs, idOf, id), idOf) && NonEmptyIds(RemoveById(xs, idOf, id), idOf)
  {
    if xs != [] {
      var tail := xs[1..];
      assert DistinctIds(tail, idOf) by {
        forall i, j | 0 <= i < j < |tail|
          ensures idOf(tail[i]) != idOf(tail[j])
        {
          assert tail[i] == xs[i + 1] && tail[j] == xs[j + 1];
        }
      }
      RemoveKeepsDistinct(tail, idOf, id);
      var rest := RemoveById(tail, idOf, id);
      if idOf(xs[0]) != id {
        forall j | 0 <= j < |rest|
          ensures idOf(xs[0]) != idOf(rest[j])
        {
          var k :| 0 <= k < |tail| && tail[k] == rest[j];
          assert xs[k + 1] == rest[j];
        }
        var r := [xs[0]] + rest;
        assert forall j :: 0 < j < |r| ==> r[j] == rest[j - 1];
      }
    }
  }

  /** An item whose id is new and non-empty can go in front of a well-formed list. */
  lemma ConsKeepsIds<T>(x: T, xs: seq<T>, idOf: T -> string)
    requires DistinctIds(xs, idOf) && NonEmptyIds(xs, idOf)
    requires idOf(x) != "" && !HasId(xs, idOf, idOf(x))
    ensures DistinctIds([x] + xs, idOf) && NonEmptyIds([x] + xs, idOf)
  {
    var ys := [x] + xs;
    assert forall j :: 0 < j < |ys| ==> ys[j] == xs[j - 1];
  }
}

=== FILE: middleware.dfy ===
/**
  The request gate in front of every page (middleware.ts): the login page
  is always served; any other path is served only when the user-id cookie
  holds the password, and is otherwise redirected to the login page.

  The request's cookies arrive already parsed, as the name-to-value map
  the framework hands the middleware.
 */
module Middleware {

  import opened Wrappers
  import opened Text
  import opened Auth

  const LoginPath: string := "/login"

  datatype Url = Url(origin: string, pathname: string, search: string, hash: string)

  datatype Request = Request(url: Url, cookies: map<string, string>)

  datatype Response = Next | Redirect(location: Url)

  function CookieValue(cookies: map<string, string>, name: string): (r: Option<string>)
    ensures r.Some? <==> name in cookies
    ensures r.Some? ==> r.value == cookies[name]
  {
    if name in cookies then Some(cookies[name]) else None
  }

  /**
    `middleware(request)`: served when the path starts with `/login` or the
    cookie holds the password; otherwise a redirect to a copy of the URL
    with the path set to `/login` and the query removed.
   */
  function HandleRequest(req: Request): (r: Response)
    ensures StartsWith(req.url.pathname, LoginPath) ==> r == Next
    ensures r.Next? <==> StartsWith(req.url.pathname, LoginPath) || CookieValue(req.cookies, UserCookieName) == Some(Password)
    ensures r.Redirect? ==> r.location.origin == req.url.origin && r.location.hash == req.url.hash
    ensures r.Redirect? ==> r.location.pathname == LoginPath && r.location.search == ""
  {
    if StartsWith(req.url.pathname, LoginPath) then Next
    else if !IsValidPassword(CookieValue(req.cookies, UserCookieName)) then
      Redirect(req.url.(pathname := LoginPath, search := ""))
    else Next
  }

  /** The redirect target is itself served, so the gate never loops. */
  lemma RedirectTargetIsServed(req: Request)
    requires HandleRequest(req).Redirect?
    ensures HandleRequest(Request(HandleRequest(req).location, req.cookies)) == Next
  {
    assert StartsWith(LoginPath, LoginPath);
  }

  /** Without the cookie, every path outside the login page is redirected. */
  lemma NoCookieIsRedirected(url: Url, cookies: map<string, string>)
    requires UserCookieName !in cookies && !StartsWith(url.pathname, LoginPath)
    ensures HandleRequest(Request(url, cookies)) == Redirect(url.(pathname := LoginPath, search := ""))
  {
  }

  /**
    The response depends on the cookies only through the user-id cookie:
    two requests for the same URL whose jars agree on it get the same
    response.
   */
  lemma OnlyUserCookieMatters(url: Url, c1: map<string, string>, c2: map<string, string>)
    requires CookieValue(c1, UserCookieName) == CookieValue(c2, UserCookieName)
    ensures HandleRequest(Request(url, c1)) == HandleRequest(Request(url, c2))
  {
  }

  /**
    A jar read from a header that carries only `cp_uid=<password>` lets
    every path through, provided `decodeURIComponent` leaves the password
    as it is.
   */
  lemma PasswordCookieHeaderPasses(url: Url, decode: string -> Option<string>)
    requires decode(Password) == None || decode(Password) == Some(Password)
    ensures HandleRequest(Request(url, ParseCookieString(Some(UserCookieName + "=" + Password), decode))) == Next
  {
    var header := UserCookieName + "=" + Password;
    assert ';' !in Password;
    assert Trimmed(header);
    ReadSingleUserCookie(Password, decode);
  }
}

=== FILE: numbers.dfy ===
/**
  JavaScript numbers, as far as the modelled code observes them.

  Money and counts are exact reals. The four IEEE-754 categories are kept
  apart only because the source branches on them (`isFinite`, `x || d`,
  `Math.max`/`Math.min`); no arithmetic is done on the non-finite cases.
 */
module Numbers {

  import opened Wrappers

  datatype Num = Finite(value: real) | NaN | PosInf | NegInf

  /** JavaScript truthiness of a number: 0 and NaN are falsy. */
  predicate Truthy(x: Num)
  {
    match x
    case Finite(v) => v != 0.0
    case NaN => false
    case _ => true
  }

  /**
    The source's `x || d` on a number: a truthy value passes through, and
    the result is never NaN; it is either truthy or the default, so with a
    non-zero default it is always truthy.
   */
  function Or(x: Num, d: real): (r: Num)
    ensures Truthy(x) ==> r == x
    ensures !r.NaN? && (Truthy(r) || r == Finite(d))
    ensures d != 0.0 ==> Truthy(r)
  {
    if Truthy(x) then x else Finite(d)
  }

  /** Applying the same default twice is applying it once. */
  lemma OrIdempotent(x: Num, d: real)
    ensures Or(Or(x, d), d) == Or(x, d)
  {
  }

  /** `x || d` on an optional number (`undefined` is falsy). */
  function OptOr(x: Option<Num>, d: real): (r: Num)
    ensures x.Some? && Truthy(x.value) ==> r == x.value
    ensures !r.NaN? && (Truthy(r) || r == Finite(d))
    ensures d != 0.0 ==> Truthy(r)
  {
    match x
    case None => Finite(d)
    case Some(v) => Or(v, d)
  }

  /** A missing number and a falsy one both read as the default. */
  lemma OptOrFalsy(x: Option<Num>, d: real)
    requires x.None? || !Truthy(x.value)
    ensures OptOr(x, d) == Finite(d)
  {
  }

  /** Storing the result of `x || d` and reading it back with the same default changes nothing. */
  lemma OptOrIdempotent(x: Option<Num>, d: real)
    ensures OptOr(Some(OptOr(x, d)), d) == OptOr(x, d)
  {
  }

  /** The value of a finite number, 0 for the others (`isFinite(x) ? x : 0`). */
  function FiniteOrZero(x: Num): real
  {
    if x.Finite? then x.value else 0.0
  }

  /** `Math.max(a, x)` for a finite `a`: NaN propagates, -Infinity loses. */
  function MaxWith(a: real, x: Num): Num
  {
    match x
    case Finite(v) => Finite(if v > a then v else a)
    case NaN => NaN
    case PosInf => PosInf
    case NegInf => Finite(a)
  }

  /** `Math.min(a, x)` for a finite `a`: NaN propagates, +Infinity loses. */
  function MinWith(a: real, x: Num): Num
  {
    match x
    case Finite(v) => Finite(if v < a then v else a)
    case NaN => NaN
    case PosInf => Finite(a)
    case NegInf => NegInf
  }

  function MaxReal(a: real, b: real): real
  {
    if a >= b then a else b
  }

  function MinReal(a: real, b: real): real
  {
    if a <= b then a else b
  }

  /** `Math.max(1, Math.floor(n || 1))`: the count the source divides by. */
  function CakeCount(n: real): (r: int)
    ensures r >= 1
    ensures n < 2.0 ==> r == 1
    ensures n >= 1.0 ==> r as real <= n < r as real + 1.0
  {
    var m := if n == 0.0 then 1.0 else n;
    if m.Floor >= 1 then m.Floor else 1
  }

  lemma DivCancel(a: real, n: real)
    requires n > 0.0
    ensures (a / n) * n == a
  {
  }

  /** A non-negative amount shared out over a positive count stays non-negative. */
  function Quotient(a: real, n: real): (r: real)
    requires a >= 0.0 && n > 0.0
    ensures r >= 0.0 && r * n == a
  {
    DivCancel(a, n);
    QuotientNonNegative(a, n);
    a / n
  }

  lemma QuotientNonNegative(a: real, n: real)
    requires a >= 0.0 && n > 0.0
    ensures a / n >= 0.0
  {
  }

  /** A larger count never gives fewer cakes. */
  lemma CakeCountMonotone(m: real, n: real)
    requires m <= n
    ensures CakeCount(m) <= CakeCount(n)
  {
    if n >= 1.0 && m >= 1.0 {
      assert m.Floor <= n.Floor;
    }
  }

  /** A cake count is its own cake count. */
  lemma CakeCountIdempotent(n: real)
    ensures CakeCount(CakeCount(n) as real) == CakeCount(n)
  {
  }

  function SumReals(s: seq<real>): real
  {
    if s == [] then 0.0 else s[0] + SumReals(s[1..])
  }
}

=== FILE: profiles.dfy ===
/**
  The saved-cake store (src/utils/profiles.ts) over an explicit sequence of
  profiles: id generation, listing newest first, lookup, delete, save in
  place or prepend, the mapping of database rows to profiles, the merge of
  pulled rows into the local list, and the percentage stored for a profile
  priced with a fixed profit. Timestamps and the random part of ids are
  parameters.
 */
module Profiles {

  import opened Wrappers
  import opened Numbers
  import opened Text
  import opened Types
  import opened Calculations
  import opened KeyedLists

  datatype CakeProfile = CakeProfile(
    id: string,
    name: string,
    inputs: PricingInputs,
    breakdown: CostBreakdownPerCake,
    createdAt: string,
    updatedAt: string,
    instructions: Option<string>,
    preservationNotes: Option<string>,
    noteImageUrl: Option<string>)

  function IdOf(p: CakeProfile): string
  {
    p.id
  }

  /*** Ids ***/

  predicate IsSlugChar(c: char)
  {
    ('a' <= c <= 'z') || ('0' <= c <= '9') || c == '-'
  }

  predicate SlugChars(s: string)
  {
    forall i :: 0 <= i < |s| ==> IsSlugChar(s[i])
  }

  predicate SlugCharsOrSpace(s: string)
  {
    forall i :: 0 <= i < |s| ==> IsSlugChar(s[i]) || IsSpace(s[i])
  }

  predicate IsSlug(s: string)
  {
    |s| <= 50 && SlugChars(s)
  }

  predicate KeptInSlug(c: char)
  {
    IsSlugChar(c) || IsSpace(c)
  }

  /**
    `replace(/[^a-z0-9\s-]/g, "")`: only slug characters and whitespace
    remain. `KeepSlugCharsCount` shows each of them is kept as often as it
    occurs and `KeepSlugCharsAppend` that the order is kept too.
   */
  function KeepSlugChars(s: string): (r: string)
    ensures |r| <= |s|
    ensures SlugCharsOrSpace(r)
    ensures SlugChars(s) ==> r == s
  {
    if s == [] then []
    else
      assert s == [s[0]] + s[1..];
      if KeptInSlug(s[0]) then [s[0]] + KeepSlugChars(s[1..])
      else KeepSlugChars(s[1..])
  }

  /** A slug character or whitespace is kept as often as it occurs; any other character is dropped. */
  lemma {:induction false} KeepSlugCharsCount(s: string, c: char)
    ensures multiset(KeepSlugChars(s))[c] == if KeptInSlug(c) then multiset(s)[c] else 0
  {
    if s != [] {
      KeepSlugCharsCount(s[1..], c);
      var x := s[0];
      assert multiset(s) == multiset{x} + multiset(s[1..]) by {
        assert s == [x] + s[1..];
      }
      if KeptInSlug(x) {
        assert multiset(KeepSlugChars(s)) == multiset{x} + multiset(KeepSlugChars(s[1..]));
      }
    }
  }

  /** Filtering works piece by piece, so the kept characters stay in their order. */
  lemma {:induction false} KeepSlugCharsAppend(a: string, b: string)
    ensures KeepSlugChars(a + b) == KeepSlugChars(a) + KeepSlugChars(b)
  {
    if a != [] {
      assert (a + b)[0] == a[0] && (a + b)[1..] == a[1..] + b;
      KeepSlugCharsAppend(a[1..], b);
    } else {
      assert a + b == b;
    }
  }

  /** `replace(/\s+/g, "-")`: every maximal run of whitespace becomes one `-`. */
  function DashSpaces(s: string): (r: string)
    ensures |r| <= |s|
    ensures SlugCharsOrSpace(s) ==> SlugChars(r)
    decreases |s|
  {
    if s == [] then []
    else if IsSpace(s[0]) then "-" + DashSpaces(TrimStart(s[1..]))
    else [s[0]] + DashSpaces(s[1..])
  }

  /** No whitespace survives. */
  lemma {:induction false} DashSpacesLeavesNoSpace(s: string)
    ensures NoSpace(DashSpaces(s))
    decreases |s|
  {
    if s != [] {
      if IsSpace(s[0]) {
        DashSpacesLeavesNoSpace(TrimStart(s[1..]));
      } else {
        DashSpacesLeavesNoSpace(s[1..]);
      }
    }
  }

  /** Text without whitespace is left as it is. */
  lemma {:induction false} DashSpacesOfNoSpace(s: string)
    requires NoSpace(s)
    ensures DashSpaces(s) == s
  {
    if s != [] {
      DashSpacesOfNoSpace(s[1..]);
      assert s == [s[0]] + s[1..];
    }
  }

  /** A run of whitespace between two words turns into exactly one dash. */
  lemma {:induction false} SpaceRunIsOneDash(word: string, spaces: string, rest: string)
    requires NoSpace(word) && spaces != []
    requires forall i :: 0 <= i < |spaces| ==> IsSpace(spaces[i])
    requires rest == [] || !IsSpace(rest[0])
    ensures DashSpaces(word + spaces + rest) == word + "-" + DashSpaces(rest)
    decreases |word|
  {
    if word == [] {
      assert word + spaces + rest == spaces + rest;
      LeadingSpaceRun(spaces, rest);
    } else {
      var s := word + spaces + rest;
      HeadAndTail3(word, spaces, rest);
      NoSpaceSplit(word);
      DashSpacesAtWord(s);
      SpaceRunIsOneDash(word[1..], spaces, rest);
      ConsAssociates(word, DashSpaces(rest));
    }
  }

  lemma HeadAndTail3(a: string, b: string, c: string)
    requires a != []
    ensures (a + b + c)[0] == a[0] && (a + b + c)[1..] == a[1..] + b + c
  {
  }

  lemma DashSpacesAtWord(s: string)
    requires s != [] && !IsSpace(s[0])
    ensures DashSpaces(s) == [s[0]] + DashSpaces(s[1..])
  {
  }

  lemma ConsAssociates(a: string, d: string)
    requires a != []
    ensures [a[0]] + (a[1..] + "-" + d) == a + "-" + d
  {
    assert a == [a[0]] + a[1..];
  }

  lemma NoSpaceSplit(a: string)
    requires a != [] && NoSpace(a)
    ensures !IsSpace(a[0]) && NoSpace(a[1..])
  {
  }

  lemma LeadingSpaceRun(spaces: string, rest: string)
    requires spaces != []
    requires forall i :: 0 <= i < |spaces| ==> IsSpace(spaces[i])
    requires rest == [] || !IsSpace(rest[0])
    ensures DashSpaces(spaces + rest) == "-" + DashSpaces(rest)
  {
    var s := spaces + rest;
    HeadAndTail(spaces, rest);
    DashSpacesAtSpace(s);
    TrimStartOfSpaces(spaces[1..], rest);
  }

  lemma HeadAndTail(a: string, b: string)
    requires a != []
    ensures (a + b)[0] == a[0] && (a + b)[1..] == a[1..] + b
  {
  }

  lemma DashSpacesAtSpace(s: string)
    requires s != [] && IsSpace(s[0])
    ensures DashSpaces(s) == "-" + DashSpaces(TrimStart(s[1..]))
  {
  }

  /** The slug part of `generateId`: lower-case, trim, filter, dash the spaces, cut at 50. */
  function Slug(name: string): (r: string)
    ensures IsSlug(r)
  {
    var s := DashSpaces(KeepSlugChars(Trim(ToLowerCase(name))));
    s[..if |s| <= 50 then |s| else 50]
  }

  /** A name that is already a slug is its own slug, so slugging is idempotent. */
  lemma {:induction false} SlugOfSlug(name: string)
    requires IsSlug(name)
    ensures Slug(name) == name
  {
    assert ToLowerCase(name) == name by {
      ToLowerCaseKeepsLower(name);
    }
    assert NoSpace(name);
    assert DashSpaces(name) == name by {
      DashSpacesOfNoSpace(name);
    }
    SlugSteps(name);
  }

  lemma SlugSteps(name: string)
    requires |name| <= 50 && SlugChars(name) && NoSpace(name)
    requires ToLowerCase(name) == name && DashSpaces(name) == name
    ensures Slug(name) == name
  {
    assert Trim(name) == name;
    assert KeepSlugChars(name) == name;
    assert name[..|name|] == name;
  }

  lemma SlugIdempotent(name: string)
    ensures Slug(Slug(name)) == Slug(name)
  {
    SlugOfSlug(Slug(name));
  }

  /**
    `generateId(name)` with the `Date.now()`/`Math.random()` part given as
    `stamp`: the slug, or "cake" when it is empty, then a dash and the stamp.
   */
  function IdHead(name: string): (h: string)
    ensures h != [] && IsSlug(h)
    ensures Slug(name) != [] ==> h == Slug(name)
  {
    var slug := Slug(name);
    if slug == [] then FallbackIsSlug(); "cake" else slug
  }

  lemma FallbackIsSlug()
    ensures IsSlug("cake")
  {
    var c := "cake";
    assert IsSlugChar(c[0]) && IsSlugChar(c[1]) && IsSlugChar(c[2]) && IsSlugChar(c[3]);
  }

  function GenerateId(name: string, stamp: string): (r: string)
    ensures |r| == |IdHead(name)| + 1 + |stamp|
    ensures r[..|IdHead(name)|] == IdHead(name) && r[|IdHead(name)|] == '-'
    ensures r[|IdHead(name)| + 1..] == stamp
  {
    var head := IdHead(name);
    JoinedParts(head, stamp);
    head + "-" + stamp
  }

  lemma JoinedParts(head: string, stamp: string)
    ensures |head + "-" + stamp| == |head| + 1 + |stamp|
    ensures (head + "-" + stamp)[..|head|] == head && (head + "-" + stamp)[|head|] == '-'
    ensures (head + "-" + stamp)[|head| + 1..] == stamp
  {
    var r := head + "-" + stamp;
    assert r[..|head|] == head;
    assert r[|head| + 1..] == stamp;
  }

  /** Ids generated for one name at two different stamps differ. */
  lemma GenerateIdInjective(name: string, stamp1: string, stamp2: string)
    requires stamp1 != stamp2
    ensures GenerateId(name, stamp1) != GenerateId(name, stamp2)
  {
  }

  /** A name with no slug characters gets the id `cake-<stamp>`. */
  lemma GenerateIdFallback(name: string, stamp: string)
    requires Slug(name) == []
    ensures GenerateId(name, stamp) == "cake-" + stamp
  {
    assert IdHead(name) == "cake";
    assert GenerateId(name, stamp) == "cake" + "-" + stamp;
    assert "cake" + "-" == "cake-";
  }

  /*** Listing ***/

  /** Newest first: no profile is updated strictly before one that follows it. */
  predicate NewestFirst(ps: seq<CakeProfile>)
  {
    forall i, j :: 0 <= i < j < |ps| ==> !LexLess(ps[i].updatedAt, ps[j].updatedAt)
  }

  /** Insert `p` in front of the first profile that is not newer than it. */
  function InsertNewestFirst(p: CakeProfile, ps: seq<CakeProfile>): (r: seq<CakeProfile>)
    requires NewestFirst(ps)
    ensures NewestFirst(r)
    ensures multiset(r) == multiset(ps) + multiset{p}
  {
    if ps == [] then [p]
    else if !LexLess(p.updatedAt, ps[0].updatedAt) then
      NotOlderThanAny(p, ps);
      ConsNewestFirst(p, ps);
      [p] + ps
    else
      var rest := InsertNewestFirst(p, ps[1..]);
      HeadStaysFirst(p, ps, rest);
      ConsNewestFirst(ps[0], rest);
      assert ps == [ps[0]] + ps[1..];
      [ps[0]] + rest
  }

  /** Not older than the newest profile of a sorted list means not older than any of them. */
  lemma NotOlderThanAny(p: CakeProfile, ps: seq<CakeProfile>)
    requires ps != [] && NewestFirst(ps) && !LexLess(p.updatedAt, ps[0].updatedAt)
    ensures forall j :: 0 <= j < |ps| ==> !LexLess(p.updatedAt, ps[j].updatedAt)
  {
    forall j | 0 <= j < |ps|
      ensures !LexLess(p.updatedAt, ps[j].updatedAt)
    {
      if j > 0 {
        LexNotLessTransitive(p.updatedAt, ps[0].updatedAt, ps[j].updatedAt);
      }
    }
  }

  /** The head of a sorted list that is newer than `p` is not older than anything `p` is inserted among. */
  lemma HeadStaysFirst(p: CakeProfile, ps: seq<CakeProfile>, rest: seq<CakeProfile>)
    requires ps != [] && NewestFirst(ps) && LexLess(p.updatedAt, ps[0].updatedAt)
    requires multiset(rest) == multiset(ps[1..]) + multiset{p}
    ensures forall j :: 0 <= j < |rest| ==> !LexLess(ps[0].updatedAt, rest[j].updatedAt)
  {
    LexLessAsymmetric(p.updatedAt, ps[0].updatedAt);
    forall j | 0 <= j < |rest|
      ensures !LexLess(ps[0].updatedAt, rest[j].updatedAt)
    {
      assert rest[j] in multiset(rest);
      if rest[j] != p {
        assert rest[j] in multiset(ps[1..]);
        var k :| 0 <= k < |ps[1..]| && ps[1..][k] == rest[j];
        assert ps[k + 1] == rest[j];
      }
    }
  }

  lemma ConsNewestFirst(x: CakeProfile, xs: seq<CakeProfile>)
    requires NewestFirst(xs)
    requires forall j :: 0 <= j < |xs| ==> !LexLess(x.updatedAt, xs[j].updatedAt)
    ensures NewestFirst([x] + xs)
  {
    var r := [x] + xs;
    forall i, j | 0 <= i < j < |r|
      ensures !LexLess(r[i].updatedAt, r[j].updatedAt)
    {
      assert r[j] == xs[j - 1];
      if i > 0 {
        assert r[i] == xs[i - 1];
      }
    }
  }

  /** `listCakeProfiles`: the store sorted newest first (an insertion sort on `updatedAt`). */
  function ListCakeProfiles(store: seq<CakeProfile>): (r: seq<CakeProfile>)
    ensures NewestFirst(r)
    ensures multiset(r) == multiset(store)
  {
    if store == [] then []
    else
      assert store == [store[0]] + store[1..];
      InsertNewestFirst(store[0], ListCakeProfiles(store[1..]))
  }

  /** Listing an already ordered store with distinct timestamps changes nothing. */
  lemma {:induction false} ListSortedStore(store: seq<CakeProfile>)
    requires forall i, j :: 0 <= i < j < |store| ==> LexLess(store[j].updatedAt, store[i].updatedAt)
    ensures ListCakeProfiles(store) == store
  {
    if store != [] {
      ListSortedStore(store[1..]);
      if |store| > 1 {
        LexLessAsymmetric(store[1].updatedAt, store[0].updatedAt);
      }
    }
  }

  /*** Lookup, delete, save ***/

  /** `getCakeProfile(id)`: the first profile with that id. */
  function GetCakeProfile(store: seq<CakeProfile>, id: string): (r: Option<CakeProfile>)
    ensures r.None? <==> !HasId(store, IdOf, id)
    ensures r.Some? ==> r.value.id == id && r.value == store[FindIndex(store, IdOf, id)]
  {
    var k := FindIndex(store, IdOf, id);
    if k < 0 then None else Some(store[k])
  }

  datatype DeleteResult = DeleteResult(store: seq<CakeProfile>, removed: bool)

  /** `deleteCakeProfile(id)`: drop every profile with that id; report whether any was dropped. */
  function DeleteCakeProfile(store: seq<CakeProfile>, id: string): (r: DeleteResult)
    ensures r.store == RemoveById(store, IdOf, id)
    ensures r.removed <==> HasId(store, IdOf, id)
  {
    var next := RemoveById(store, IdOf, id);
    DeleteResult(next, |next| != |store|)
  }

  /** Nothing with the id survives a delete. */
  lemma GetAfterDelete(store: seq<CakeProfile>, id: string)
    ensures GetCakeProfile(DeleteCakeProfile(store, id).store, id).None?
  {
  }

  datatype SaveResult = SaveResult(store: seq<CakeProfile>, saved: CakeProfile)

  /**
    `saveCakeProfile`. With a non-empty id that is in the store, that
    profile is updated in place (name, inputs, update time, and the
    breakdown unless the snapshot is switched off); otherwise a new profile
    with a generated id is put first. `now` is the current ISO time and
    `stamp` the random part of a new id.
   */
  function SaveCakeProfile(
    store: seq<CakeProfile>, id: Option<string>, name: string, inputs: PricingInputs,
    includeBreakdownSnapshot: Option<bool>, now: string, stamp: string): (r: SaveResult)
    ensures r.saved.name == name && r.saved.inputs == inputs && r.saved.updatedAt == now
    ensures GetCakeProfile(r.store, r.saved.id) == Some(r.saved)
    ensures UpdatesInPlace(store, id) ==>
              var k := FindIndex(store, IdOf, id.value);
              && |r.store| == |store|
              && r.store == store[k := r.saved]
              && r.saved.id == store[k].id && r.saved.createdAt == store[k].createdAt
              && r.saved.breakdown ==
                   (if includeBreakdownSnapshot == Some(false) then store[k].breakdown
                    else CalculateBreakdown(inputs))
    ensures !UpdatesInPlace(store, id) ==>
              && r.store == [r.saved] + store
              && r.saved.createdAt == now
              && r.saved.id == GenerateId(name, stamp)
              && r.saved.breakdown == CalculateBreakdown(inputs)
  {
    if UpdatesInPlace(store, id) then
      SaveInPlace(store, FindIndex(store, IdOf, id.value), name, inputs,
                  includeBreakdownSnapshot != Some(false), now)
    else SaveNew(store, name, inputs, now, stamp)
  }

  /** The update branch: the profile at `k` gets the new fields and keeps its id and creation time. */
  function SaveInPlace(
    store: seq<CakeProfile>, k: int, name: string, inputs: PricingInputs,
    includeSnapshot: bool, now: string): (r: SaveResult)
    requires 0 <= k < |store| && FindIndex(store, IdOf, store[k].id) == k
    ensures r.store == store[k := r.saved]
    ensures r.saved.id == store[k].id && r.saved.createdAt == store[k].createdAt
    ensures r.saved.name == name && r.saved.inputs == inputs && r.saved.updatedAt == now
    ensures r.saved.breakdown == if includeSnapshot then CalculateBreakdown(inputs) else store[k].breakdown
    ensures GetCakeProfile(r.store, r.saved.id) == Some(r.saved)
  {
    var updated := store[k].(
      name := name,
      inputs := inputs,
      breakdown := if includeSnapshot then CalculateBreakdown(inputs) else store[k].breakdown,
      updatedAt := now);
    FindIndexAfterUpdate(store, IdOf, updated.id, k, updated);
    SaveResult(store[k := updated], updated)
  }

  /** The insert branch: a fresh profile in front of the store. */
  function SaveNew(store: seq<CakeProfile>, name: string, inputs: PricingInputs, now: string, stamp: string): (r: SaveResult)
    ensures r.store == [r.saved] + store
    ensures r.saved.id == GenerateId(name, stamp) && r.saved.createdAt == now
    ensures r.saved.name == name && r.saved.inputs == inputs && r.saved.updatedAt == now
    ensures r.saved.breakdown == CalculateBreakdown(inputs)
    ensures GetCakeProfile(r.store, r.saved.id) == Some(r.saved)
  {
    var created := CakeProfile(GenerateId(name, stamp), name, inputs, CalculateBreakdown(inputs),
                               now, now, None, None, None);
    assert ([created] + store)[0] == created;
    SaveResult([created] + store, created)
  }

  /** A save updates in place exactly when it names a non-empty id that is in the store. */
  predicate UpdatesInPlace(store: seq<CakeProfile>, id: Option<string>)
  {
    id.Some? && id.value != "" && HasId(store, IdOf, id.value)
  }

  /*** Database rows ***/

  datatype RemoteIngredientRow = RemoteIngredientRow(
    clientItemId: Option<string>, name: Option<string>, cost: Option<real>, unit: Option<string>)

  datatype RemoteAdditionalCostRow = RemoteAdditionalCostRow(
    clientItemId: Option<string>,
    category: Option<string>,
    description: Option<string>,
    amount: Option<real>,
    allocationType: Option<AllocationType>)

  /** A `profiles` row with its child rows; every column may be null. */
  datatype RemoteProfileRow = RemoteProfileRow(
    id: Option<string>,
    clientId: Option<string>,
    name: Option<string>,
    numberOfCakes: Option<real>,
    profitPercentage: Option<real>,
    profitMode: Option<string>,
    profitFixedAmount: Option<real>,
    createdAt: Option<string>,
    updatedAt: Option<string>,
    ingredients: Option<seq<RemoteIngredientRow>>,
    additionalCosts: Option<seq<RemoteAdditionalCostRow>>,
    instructions: Option<string>,
    preservationNotes: Option<string>,
    noteImageUrl: Option<string>)

  /**
    `a || b` on a nullable string (null and "" are both falsy): a
    non-empty `a` passes through, anything else gives `b`, so the result is
    empty only when `b` is.
   */
  function OrString(a: Option<string>, b: string): (r: string)
    ensures a.Some? && a.value != "" ==> r == a.value
    ensures r == b || (a.Some? && r == a.value)
    ensures r == "" ==> b == ""
  {
    if a.Some? && a.value != "" then a.value else b
  }

  /** The profile id of a row: its client id, else its row id, else a generated one. */
  function RowClientId(row: RemoteProfileRow, stamp: string): (r: string)
    ensures r != ""
    ensures r == OrString(row.clientId, OrString(row.id, r))
    ensures row.clientId.Some? && row.clientId.value != "" ==> r == row.clientId.value
    ensures OrString(row.clientId, "") == "" && row.id.Some? && row.id.value != "" ==> r == row.id.value
    ensures OrString(row.clientId, OrString(row.id, "")) == "" ==>
              r == GenerateId(row.name.GetOr("Untitled Cake"), stamp)
  {
    var generated := GenerateId(row.name.GetOr("Untitled Cake"), stamp);
    OrString(row.clientId, OrString(row.id, generated))
  }

  /** `${clientId}-ing-${idx}` and `${clientId}-cost-${idx}`. */
  function FallbackItemId(clientId: string, infix: string, idx: nat): string
  {
    clientId + infix + NatToString(idx)
  }

  function MapIngredientRow(row: RemoteIngredientRow, clientId: string, idx: nat): Ingredient
  {
    Ingredient(
      row.clientItemId.GetOr(FallbackItemId(clientId, "-ing-", idx)),
      row.name.GetOr(""),
      Finite(row.cost.GetOr(0.0)),
      row.unit)
  }

  function MapAdditionalCostRow(row: RemoteAdditionalCostRow, clientId: string, idx: nat): AdditionalCostItem
  {
    AdditionalCostItem(
      row.clientItemId.GetOr(FallbackItemId(clientId, "-cost-", idx)),
      row.category.GetOr("other"),
      row.description,
      Finite(row.amount.GetOr(0.0)),
      row.allocationType.GetOr(PerCake))
  }

  function MapIngredientRows(rows: Option<seq<RemoteIngredientRow>>, clientId: string): seq<Ingredient>
  {
    match rows
    case None => []
    case Some(rs) => seq(|rs|, i requires 0 <= i < |rs| => MapIngredientRow(rs[i], clientId, i))
  }

  function MapAdditionalCostRows(rows: Option<seq<RemoteAdditionalCostRow>>, clientId: string): seq<AdditionalCostItem>
  {
    match rows
    case None => []
    case Some(rs) => seq(|rs|, i requires 0 <= i < |rs| => MapAdditionalCostRow(rs[i], clientId, i))
  }

  /**
    The profit mode of a row: fixed when the lower-cased stored mode is
    "fixed", or when no mode is stored and the clamped fixed amount is positive.
   */
  function ResolveMode(profitMode: Option<string>, profitFixedAmount: Option<real>): (m: ProfitMode)
    ensures m == Fixed <==>
              ToLowerCase(profitMode.GetOr("")) == "fixed" ||
              (ToLowerCase(profitMode.GetOr("")) == "" && profitFixedAmount.GetOr(0.0) > 0.0)
  {
    var rawMode := ToLowerCase(profitMode.GetOr(""));
    var rawFixed := MaxReal(0.0, profitFixedAmount.GetOr(0.0));
    if rawMode == "fixed" || (rawMode == "" && rawFixed > 0.0) then Fixed else Percentage
  }

  /** Any spelling of "fixed" resolves to fixed; an explicit "percentage" wins over a fixed amount. */
  lemma ResolveModeExamples(f: real)
    ensures ResolveMode(Some("FIXED"), None) == Fixed
    ensures ResolveMode(Some("Fixed"), Some(0.0)) == Fixed
    ensures ResolveMode(Some("percentage"), Some(f)) == Percentage
    ensures ResolveMode(None, Some(f)) == Fixed <==> f > 0.0
    ensures ResolveMode(Some(""), Some(f)) == Fixed <==> f > 0.0
  {
    LowerCaseSpellings();
  }

  lemma LowerCaseSpellings()
    ensures ToLowerCase("FIXED") == "fixed" && ToLowerCase("Fixed") == "fixed"
    ensures ToLowerCase("percentage") == "percentage" && ToLowerCase("") == ""
  {
    LowerCaseFixed();
    LowerCaseTitleFixed();
    ToLowerCaseKeepsLower("percentage");
  }

  lemma LowerCaseFixed()
    ensures ToLowerCase("FIXED") == "fixed"
  {
    var s := "FIXED";
    assert ToLowerCase(s) == LowerChar('F') + ToLowerCase(s[1..]);
    assert ToLowerCase(s[1..]) == LowerChar('I') + ToLowerCase(s[2..]);
    assert ToLowerCase(s[2..]) == LowerChar('X') + ToLowerCase(s[3..]);
    assert ToLowerCase(s[3..]) == LowerChar('E') + ToLowerCase(s[4..]);
    assert ToLowerCase(s[4..]) == LowerChar('D') + ToLowerCase(s[5..]);
  }

  lemma LowerCaseTitleFixed()
    ensures ToLowerCase("Fixed") == "fixed"
  {
    var s := "Fixed";
    assert ToLowerCase(s) == LowerChar('F') + ToLowerCase(s[1..]);
    ToLowerCaseKeepsLower(s[1..]);
  }

  /** The inputs a row describes; `withProfit` adds the mode and fixed amount columns. */
  function RowInputs(row: RemoteProfileRow, clientId: string, withProfit: bool): (r: PricingInputs)
    ensures DocumentedInvariants(r)
    ensures r.numberOfCakes == CakeCount(row.numberOfCakes.GetOr(1.0)) as real
    ensures r.profitPercentage == Finite(ClampNumber(Finite(row.profitPercentage.GetOr(0.0)), 0.0, Some(1000.0)))
    ensures withProfit ==> r.profitMode == Some(ResolveMode(row.profitMode, row.profitFixedAmount))
    ensures withProfit ==> r.profitFixedAmount == Some(Finite(MaxReal(0.0, row.profitFixedAmount.GetOr(0.0))))
    ensures !withProfit ==> r.profitMode.None? && r.profitFixedAmount.None?
  {
    var percentage := ClampNumber(Finite(row.profitPercentage.GetOr(0.0)), 0.0, Some(1000.0));
    var base := PricingInputs(
      MapIngredientRows(row.ingredients, clientId),
      MapAdditionalCostRows(row.additionalCosts, clientId),
      CakeCount(row.numberOfCakes.GetOr(1.0)) as real,
      Finite(percentage),
      None,
      None);
    if withProfit then
      base.(profitMode := Some(ResolveMode(row.profitMode, row.profitFixedAmount)),
            profitFixedAmount := Some(Finite(MaxReal(0.0, row.profitFixedAmount.GetOr(0.0)))))
    else base
  }

  function RowProfile(row: RemoteProfileRow, clientId: string, inputs: PricingInputs, now: string): CakeProfile
  {
    var createdAt := row.createdAt.GetOr(now);
    CakeProfile(
      clientId,
      row.name.GetOr("Untitled Cake"),
      inputs,
      CalculateBreakdown(inputs),
      createdAt,
      row.updatedAt.GetOr(createdAt),
      row.instructions,
      row.preservationNotes,
      row.noteImageUrl)
  }

  /**
    A row as `listCakeProfilesRemote` maps it: `now` stands for the current
    time and `stamp` for the random part of a generated id.
   */
  function MapRemoteRow(row: RemoteProfileRow, now: string, stamp: string): (r: CakeProfile)
    ensures r.id == RowClientId(row, stamp) && r.id != ""
    ensures DocumentedInvariants(r.inputs) && r.inputs.profitMode.Some?
    ensures r.breakdown == CalculateBreakdown(r.inputs)
    ensures r.createdAt == row.createdAt.GetOr(now) && r.updatedAt == row.updatedAt.GetOr(r.createdAt)
    ensures r.inputs == RowInputs(row, r.id, true)
  {
    var clientId := RowClientId(row, stamp);
    RowProfile(row, clientId, RowInputs(row, clientId, true), now)
  }

  /**
    A row's child rows become its items one for one, in order; a cost row
    without an allocation type is allocated per cake.
   */
  lemma RemoteRowItems(row: RemoteProfileRow, now: string, stamp: string)
    ensures var r := MapRemoteRow(row, now, stamp);
      && (row.ingredients.Some? ==> |r.inputs.ingredients| == |row.ingredients.value|)
      && (row.ingredients.None? ==> r.inputs.ingredients == [])
      && (row.additionalCosts.Some? ==>
            var rs := row.additionalCosts.value;
            && |r.inputs.additionalCosts| == |rs|
            && forall i :: 0 <= i < |rs| && rs[i].allocationType.None? ==>
                 r.inputs.additionalCosts[i].allocationType == PerCake)
  {
    var r := MapRemoteRow(row, now, stamp);
    RowItems(row, r.id);
  }

  lemma RowItems(row: RemoteProfileRow, clientId: string)
    ensures var inputs := RowInputs(row, clientId, true);
      && (row.ingredients.Some? ==> |inputs.ingredients| == |row.ingredients.value|)
      && (row.ingredients.None? ==> inputs.ingredients == [])
      && (row.additionalCosts.Some? ==>
            var rs := row.additionalCosts.value;
            && |inputs.additionalCosts| == |rs|
            && forall i :: 0 <= i < |rs| && rs[i].allocationType.None? ==>
                 inputs.additionalCosts[i].allocationType == PerCake)
  {
    var inputs := RowInputs(row, clientId, true);
    assert inputs.ingredients == MapIngredientRows(row.ingredients, clientId);
    assert inputs.additionalCosts == MapAdditionalCostRows(row.additionalCosts, clientId);
  }

  /** A row as `pullProfilesFromSupabaseToLocal` maps it: the same, but without the profit mode columns. */
  function MapPulledRow(row: RemoteProfileRow, now: string, stamp: string): (r: CakeProfile)
    ensures r.inputs.profitMode.None? && r.inputs.profitFixedAmount.None?
    ensures EffectiveMode(r.inputs) == Percentage
  {
    var clientId := RowClientId(row, stamp);
    RowProfile(row, clientId, RowInputs(row, clientId, false), now)
  }

  /** Pulling drops exactly the profit mode and fixed amount; everything else agrees with the list mapping. */
  lemma PulledRowIsRemoteRowWithoutMode(row: RemoteProfileRow, now: string, stamp: string)
    ensures var remote := MapRemoteRow(row, now, stamp);
            var inputs := remote.inputs.(profitMode := None, profitFixedAmount := None);
            MapPulledRow(row, now, stamp) == remote.(inputs := inputs, breakdown := CalculateBreakdown(inputs))
  {
  }

  /** An ingredient row without a client item id gets the id `<profile id>-ing-<position>`. */
  lemma FallbackIngredientId(row: RemoteProfileRow, now: string, stamp: string, i: nat)
    requires row.ingredients.Some? && i < |row.ingredients.value|
    requires row.ingredients.value[i].clientItemId.None?
    ensures MapRemoteRow(row, now, stamp).inputs.ingredients[i].id ==
            RowClientId(row, stamp) + "-ing-" + NatToString(i)
  {
    var clientId := RowClientId(row, stamp);
    var inputs := RowInputs(row, clientId, true);
    assert inputs.ingredients[i] == MapIngredientRow(row.ingredients.value[i], clientId, i);
  }

  /*** Merge of pulled profiles ***/

  /** The local profiles whose id was not pulled. */
  function Survivors(local: seq<CakeProfile>, remote: seq<CakeProfile>): (r: seq<CakeProfile>)
    ensures forall i :: 0 <= i < |r| ==> r[i] in local && !HasId(remote, IdOf, r[i].id)
    ensures forall i :: 0 <= i < |local| && !HasId(remote, IdOf, local[i].id) ==> local[i] in r
  {
    if local == [] then []
    else
      var rest := Survivors(local[1..], remote);
      if HasId(remote, IdOf, local[0].id) then rest else [local[0]] + rest
  }

  /** A surviving profile keeps every copy it had; a pulled id keeps none. */
  lemma {:induction false} SurvivorsCount(local: seq<CakeProfile>, remote: seq<CakeProfile>, p: CakeProfile)
    ensures multiset(Survivors(local, remote))[p] == if HasId(remote, IdOf, p.id) then 0 else multiset(local)[p]
  {
    if local != [] {
      SurvivorsCount(local[1..], remote, p);
      assert local == [local[0]] + local[1..];
    }
  }

  /** The filter distributes over concatenation, so the survivors keep their order. */
  lemma {:induction false} SurvivorsAppend(a: seq<CakeProfile>, b: seq<CakeProfile>, remote: seq<CakeProfile>)
    ensures Survivors(a + b, remote) == Survivors(a, remote) + Survivors(b, remote)
  {
    if a == [] {
      assert a + b == b;
    } else {
      assert (a + b)[0] == a[0] && (a + b)[1..] == a[1..] + b;
      SurvivorsAppend(a[1..], b, remote);
    }
  }

  /** The pulled profiles plus the local ones they do not replace, newest first. */
  function MergeRemote(remote: seq<CakeProfile>, local: seq<CakeProfile>): (r: seq<CakeProfile>)
    ensures NewestFirst(r)
    ensures multiset(r) == multiset(remote) + multiset(Survivors(local, remote))
  {
    ListCakeProfiles(remote + Survivors(local, remote))
  }

  /** A profile is in the merge iff it was pulled, or is local and its id was not pulled. */
  lemma MergeContents(remote: seq<CakeProfile>, local: seq<CakeProfile>, p: CakeProfile)
    ensures p in MergeRemote(remote, local) <==> p in remote || (p in local && !HasId(remote, IdOf, p.id))
  {
    var m := MergeRemote(remote, local);
    var s := Survivors(local, remote);
    assert p in m <==> p in multiset(m);
    assert p in multiset(remote + s) <==> p in remote || p in s;
    if p in local && !HasId(remote, IdOf, p.id) {
      var i :| 0 <= i < |local| && local[i] == p;
      assert p in s;
    }
    if p in s {
      var i :| 0 <= i < |s| && s[i] == p;
    }
  }

  /** With nothing pulled, the merge is the local list sorted. */
  lemma {:induction false} MergeNothingPulled(local: seq<CakeProfile>)
    ensures MergeRemote([], local) == ListCakeProfiles(local)
  {
    SurvivorsOfNothing(local);
    assert [] + local == local;
  }

  lemma {:induction false} SurvivorsOfNothing(local: seq<CakeProfile>)
    ensures Survivors(local, []) == local
  {
    if local != [] {
      SurvivorsOfNothing(local[1..]);
      assert local == [local[0]] + local[1..];
    }
  }

  /*** Percentage stored for a fixed-profit profile ***/

  /** `Math.max(0, Math.min(1000, p || 0))` on a JavaScript number. */
  function ClampPercentage(p: Num): (r: real)
    ensures 0.0 <= r <= 1000.0
    ensures p.Finite? && 0.0 <= p.value <= 1000.0 ==> r == p.value
    ensures p.PosInf? ==> r == 1000.0
    ensures p.NaN? || p.NegInf? ==> r == 0.0
  {
    var clamped := MaxWith(0.0, MinWith(1000.0, Or(p, 0.0)));
    assert clamped.Finite?;
    clamped.value
  }

  /**
    The percentage `saveCakeProfileRemote` stores (the database keeps no
    fixed amount for the price): in fixed mode the fixed profit as a
    percentage of the per-cake cost, capped at 1000 and 0 when the cost is
    not positive; otherwise the clamped percentage.
   */
  function StoredPercentage(inputs: PricingInputs): (p: real)
    ensures 0.0 <= p <= 1000.0
    ensures EffectiveMode(inputs) == Percentage ==> p == ClampPercentage(inputs.profitPercentage)
  {
    var numberOfCakes := CakeCount(inputs.numberOfCakes);
    var percentage := ClampPercentage(inputs.profitPercentage);
    if inputs.profitMode.GetOr(Percentage) == Fixed then
      var fixed := MaxWith(0.0, OptOr(inputs.profitFixedAmount, 0.0));
      var breakdown := CalculateBreakdown(PricingInputs(
        inputs.ingredients, inputs.additionalCosts, numberOfCakes as real,
        Finite(percentage), Some(Fixed), Some(fixed)));
      FixedAsPercentage(fixed, breakdown.totalCostPerCake)
    else percentage
  }

  /**
    A non-negative fixed profit as a percentage of the cost per cake,
    capped at 1000; 0 when the cost is not positive. Below the cap the
    percentage of the cost gives the fixed profit back.
   */
  function FixedAsPercentage(fixed: Num, totalCost: real): (p: real)
    requires fixed.PosInf? || (fixed.Finite? && fixed.value >= 0.0)
    ensures 0.0 <= p <= 1000.0
    ensures totalCost <= 0.0 ==> p == 0.0
    ensures totalCost > 0.0 && fixed.Finite? && fixed.value <= 10.0 * totalCost ==>
              PercentOf(totalCost, p) == fixed.value
    ensures totalCost > 0.0 && (fixed.PosInf? || fixed.value >= 10.0 * totalCost) ==> p == 1000.0
  {
    if totalCost > 0.0 then
      if fixed.Finite? then
        DivNonNegative(fixed.value, totalCost);
        BelowCapRoundTrip(fixed.value, totalCost);
        AboveCap(fixed.value, totalCost);
        MinReal(1000.0, fixed.value / totalCost * 100.0)
      else 1000.0
    else 0.0
  }

  /** With no positive cost per cake there is nothing to express the fixed profit against: 0 is stored. */
  lemma StoredPercentageWithoutCost(inputs: PricingInputs)
    requires inputs.profitMode == Some(Fixed)
    requires CalculateBreakdown(inputs).totalCostPerCake <= 0.0
    ensures StoredPercentage(inputs) == 0.0
  {
    var fixed := MaxWith(0.0, OptOr(inputs.profitFixedAmount, 0.0));
    var derived := PricingInputs(
      inputs.ingredients, inputs.additionalCosts, CakeCount(inputs.numberOfCakes) as real,
      Finite(ClampPercentage(inputs.profitPercentage)), Some(Fixed), Some(fixed));
    CakeCountIdempotent(inputs.numberOfCakes);
    TotalCostIgnoresProfit(inputs, derived);
  }

  /**
    In fixed mode the stored percentage is the clamped fixed amount
    expressed against the cost per cake of the profile itself.
   */
  lemma StoredPercentageInFixedMode(inputs: PricingInputs)
    requires inputs.profitMode == Some(Fixed)
    ensures var fixed := MaxWith(0.0, OptOr(inputs.profitFixedAmount, 0.0));
      && (fixed.PosInf? || (fixed.Finite? && fixed.value >= 0.0))
      && StoredPercentage(inputs) == FixedAsPercentage(fixed, CalculateBreakdown(inputs).totalCostPerCake)
  {
    var fixed := MaxWith(0.0, OptOr(inputs.profitFixedAmount, 0.0));
    var derived := PricingInputs(
      inputs.ingredients, inputs.additionalCosts, CakeCount(inputs.numberOfCakes) as real,
      Finite(ClampPercentage(inputs.profitPercentage)), Some(Fixed), Some(fixed));
    CakeCountIdempotent(inputs.numberOfCakes);
    TotalCostIgnoresProfit(inputs, derived);
  }

  /**
    With a positive cost per cake, a fixed amount of at least ten times the
    cost (or +Infinity) is stored as 1000, and a missing, negative or NaN
    amount as 0.
   */
  lemma StoredPercentageFixedBounds(inputs: PricingInputs)
    requires inputs.profitMode == Some(Fixed)
    requires CalculateBreakdown(inputs).totalCostPerCake > 0.0
    ensures var t, x := CalculateBreakdown(inputs).totalCostPerCake, inputs.profitFixedAmount;
      && (x == Some(PosInf) || (x.Some? && x.value.Finite? && x.value.value >= 10.0 * t) ==> StoredPercentage(inputs) == 1000.0)
      && (x.None? || x == Some(NaN) || x == Some(NegInf) || (x.Some? && x.value.Finite? && x.value.value <= 0.0) ==>
            StoredPercentage(inputs) == 0.0)
  {
    StoredPercentageInFixedMode(inputs);
    var t, x := CalculateBreakdown(inputs).totalCostPerCake, inputs.profitFixedAmount;
    var fixed := MaxWith(0.0, OptOr(x, 0.0));
    if x == Some(PosInf) || (x.Some? && x.value.Finite? && x.value.value >= 10.0 * t) {
      assert fixed.PosInf? || fixed.value >= 10.0 * t;
    }
    if x.None? || x == Some(NaN) || x == Some(NegInf) || (x.Some? && x.value.Finite? && x.value.value <= 0.0) {
      assert fixed == Finite(0.0);
      FixedAsPercentageOfZero(t);
    }
  }

  lemma FixedAsPercentageOfZero(t: real)
    ensures FixedAsPercentage(Finite(0.0), t) == 0.0
  {
  }

  /**
    Below the cap, the stored percentage gives back the fixed profit: a
    profile saved in fixed mode and read back in percentage mode keeps its
    selling price.
   */
  lemma StoredPercentageReproducesProfit(inputs: PricingInputs, f: real)
    requires inputs.profitMode == Some(Fixed)
    requires inputs.profitFixedAmount == Some(Finite(f)) && f >= 0.0
    requires CalculateBreakdown(inputs).totalCostPerCake > 0.0
    requires f <= 10.0 * CalculateBreakdown(inputs).totalCostPerCake
    ensures PercentOf(CalculateBreakdown(inputs).totalCostPerCake, StoredPercentage(inputs)) ==
            CalculateBreakdown(inputs).profitPerCake
  {
    var t := CalculateBreakdown(inputs).totalCostPerCake;
    var fixed := MaxWith(0.0, OptOr(inputs.profitFixedAmount, 0.0));
    assert fixed == Finite(f);
    var derived := PricingInputs(
      inputs.ingredients, inputs.additionalCosts, CakeCount(inputs.numberOfCakes) as real,
      Finite(ClampPercentage(inputs.profitPercentage)), Some(Fixed), Some(fixed));
    CakeCountIdempotent(inputs.numberOfCakes);
    TotalCostIgnoresProfit(inputs, derived);
    assert StoredPercentage(inputs) == FixedAsPercentage(fixed, t);
    assert CalculateBreakdown(inputs).profitPerCake == EffectiveFixedAmount(inputs) == f;
  }

  lemma BelowCapRoundTrip(f: real, t: real)
    requires t > 0.0 && f >= 0.0
    ensures f <= 10.0 * t ==> f / t * 100.0 <= 1000.0 && PercentOf(t, f / t * 100.0) == f
  {
    if f <= 10.0 * t {
      RatioBelowCap(f, t);
      PercentOfRatio(f, t);
    }
  }

  lemma AboveCap(f: real, t: real)
    requires t > 0.0
    ensures f >= 10.0 * t ==> f / t * 100.0 >= 1000.0
  {
    if f >= 10.0 * t {
      DivMonotone(10.0 * t, f, t);
      assert (10.0 * t) / t == 10.0;
    }
  }

  lemma RatioBelowCap(f: real, t: real)
    requires t > 0.0 && 0.0 <= f <= 10.0 * t
    ensures f / t * 100.0 <= 1000.0
  {
    DivMonotone(f, 10.0 * t, t);
    assert (10.0 * t) / t == 10.0;
  }

  lemma PercentOfRatio(f: real, t: real)
    requires t > 0.0
    ensures PercentOf(t, f / t * 100.0) == f
  {
    var r := PercentOf(t, f / t * 100.0);
    assert r * 100.0 == t * (f / t * 100.0);
    assert t * (f / t) == f;
  }
}

=== FILE: quantity.dfy ===
/**
  The quantity column of the ingredients calculator
  (src/components/IngredientsCalculator.tsx): reading an amount and a unit
  out of an ingredient's free-text unit ("1/2 cup", "1,5 kg"), the number
  of decimals a quantity is shown with, and the per-cake and scaled
  amounts.
 */
module Quantity {

  import opened Wrappers
  import opened Numbers
  import opened Text

  /** The class `[\d\s.,/]` of the leading-number pattern. */
  predicate IsNumericChar(c: char)
  {
    IsDigit(c) || IsSpace(c) || c == '.' || c == ',' || c == '/'
  }

  predicate AllDigits(s: string)
  {
    forall i :: 0 <= i < |s| ==> IsDigit(s[i])
  }

  predicate NoLineTerminator(s: string)
  {
    forall i :: 0 <= i < |s| ==> !IsLineTerminator(s[i])
  }

  /** The length of the longest prefix of numeric characters. */
  function NumericRunLength(s: string): (k: nat)
    ensures k <= |s|
    ensures forall i :: 0 <= i < k ==> IsNumericChar(s[i])
    ensures k < |s| ==> !IsNumericChar(s[k])
  {
    if s == [] || !IsNumericChar(s[0]) then 0 else 1 + NumericRunLength(s[1..])
  }

  /** The length of the longest prefix of ASCII digits. */
  function DigitRunLength(s: string): (k: nat)
    ensures k <= |s|
    ensures AllDigits(s[..k])
    ensures k < |s| ==> !IsDigit(s[k])
  {
    if s == [] || !IsDigit(s[0]) then 0
    else
      var k := 1 + DigitRunLength(s[1..]);
      assert s[..k] == [s[0]] + s[1..][..k - 1];
      k
  }

  /** The value of a string of decimal digits (`Number(digits)`). */
  function DigitsValue(d: string): (v: nat)
    requires AllDigits(d)
  {
    if d == [] then 0 else DigitsValue(d[..|d| - 1]) * 10 + (d[|d| - 1] as int - '0' as int)
  }

  /** Reading back the decimal rendering of a number gives the number. */
  lemma {:induction false} DigitsValueOfNatToString(n: nat)
    ensures AllDigits(NatToString(n)) && DigitsValue(NatToString(n)) == n
  {
    if n >= 10 {
      DigitsValueOfNatToString(n / 10);
      var s := NatToString(n);
      assert s[..|s| - 1] == NatToString(n / 10);
    }
  }

  function Pow10(k: nat): (r: real)
    ensures r >= 1.0
  {
    if k == 0 then 1.0 else 10.0 * Pow10(k - 1)
  }

  /*** The leading-number pattern ***/

  datatype Token = Token(numericPart: string, rest: string)

  /**
    `/^([\d\s.,/]+)\s*(.*)$/` on a trimmed string. The greedy class run
    takes every leading numeric character; `.` cannot cross a line
    terminator, so the match fails when one follows the run, and shorter
    runs cannot help because their remainder contains it too.
   */
  function MatchLeadingNumber(s: string): (m: Option<Token>)
    ensures m.Some? ==> m.value.numericPart + m.value.rest == s && m.value.numericPart != []
    ensures m.Some? ==> forall i :: 0 <= i < |m.value.numericPart| ==> IsNumericChar(m.value.numericPart[i])
    ensures m.Some? ==> m.value.rest == [] || !IsNumericChar(m.value.rest[0])
    ensures m.None? <==> s == [] || !IsNumericChar(s[0]) || !NoLineTerminator(s[NumericRunLength(s)..])
  {
    var k := NumericRunLength(s);
    if k == 0 || !NoLineTerminator(s[k..]) then None
    else
      assert s[..k] + s[k..] == s;
      Some(Token(s[..k], s[k..]))
  }

  /**
    `/^(\d+)\s*\/\s*(\d+)$/`: digits, optional whitespace, a slash,
    optional whitespace, digits, and nothing else; the two digit strings.
   */
  function MatchFraction(s: string): (r: Option<(string, string)>)
    ensures r.Some? ==> AllDigits(r.value.0) && AllDigits(r.value.1) && r.value.0 != [] && r.value.1 != []
    ensures r.Some? ==> SpacedFraction(s, r.value.0, r.value.1)
  {
    var a := DigitRunLength(s);
    var afterNumerator := TrimStart(s[a..]);
    if a == 0 || afterNumerator == [] || afterNumerator[0] != '/' then None
    else
      var denominator := TrimStart(afterNumerator[1..]);
      if denominator != [] && AllDigits(denominator) then
        MatchFractionSound(s, a, afterNumerator, denominator);
        Some((s[..a], denominator))
      else None
  }

  /** `s` is `a`, optional whitespace, a slash, optional whitespace, and `b`. */
  ghost predicate SpacedFraction(s: string, a: string, b: string)
  {
    exists ws1, ws2 :: AllSpace(ws1) && AllSpace(ws2) && s == a + ws1 + "/" + ws2 + b
  }

  /** What the three steps of the match skip over is whitespace around one slash. */
  lemma {:induction false} MatchFractionSound(s: string, a: nat, after: string, den: string)
    requires a <= |s| && after == TrimStart(s[a..]) && after != [] && after[0] == '/'
    requires den == TrimStart(after[1..])
    ensures SpacedFraction(s, s[..a], den)
  {
    var x, y := s[a..], after[1..];
    var ws1 := SkippedSpaces(x);
    var ws2 := SkippedSpaces(y);
    HeadAndTail(after);
    ReassembleFraction(s, s[..a], x, ws1, after, y, ws2, den);
  }

  /** The whitespace `TrimStart` skips, so that `x == SkippedSpaces(x) + TrimStart(x)`. */
  function SkippedSpaces(x: string): (ws: string)
    ensures AllSpace(ws) && x == ws + TrimStart(x)
  {
    var t := TrimStart(x);
    var ws := x[..|x| - |t|];
    SkippedAreSpaces(x, |x| - |t|);
    assert x == ws + x[|x| - |t|..];
    ws
  }

  lemma HeadAndTail(x: string)
    requires x != []
    ensures x == [x[0]] + x[1..]
  {
  }

  lemma {:induction false} ReassembleFraction(
    s: string, a: string, x: string, ws1: string, after: string, y: string, ws2: string, den: string)
    requires AllSpace(ws1) && AllSpace(ws2) && |a| <= |s| && a == s[..|a|] && x == s[|a|..]
    requires x == ws1 + after && after == "/" + y && y == ws2 + den
    ensures SpacedFraction(s, a, den)
  {
    assert s == a + x;
    assert s == a + ws1 + "/" + ws2 + den;
  }

  /** A rendered fraction `a<ws>/<ws>b` is matched with its two numbers. */
  lemma FractionRoundTrip(a: nat, b: nat, ws1: string, ws2: string)
    requires forall i :: 0 <= i < |ws1| ==> IsSpace(ws1[i])
    requires forall i :: 0 <= i < |ws2| ==> IsSpace(ws2[i])
    ensures AllDigits(NatToString(a)) && AllDigits(NatToString(b))
    ensures MatchFraction(NatToString(a) + ws1 + "/" + ws2 + NatToString(b)) == Some((NatToString(a), NatToString(b)))
    ensures DigitsValue(NatToString(a)) == a && DigitsValue(NatToString(b)) == b
  {
    var na := NatToString(a);
    var nb := NatToString(b);
    DigitsValueOfNatToString(a);
    DigitsValueOfNatToString(b);
    MatchFractionOfParts(na, ws1, ws2, nb);
  }

  lemma MatchFractionOfParts(na: string, ws1: string, ws2: string, nb: string)
    requires AllDigits(na) && AllDigits(nb) && na != [] && nb != []
    requires forall i :: 0 <= i < |ws1| ==> IsSpace(ws1[i])
    requires forall i :: 0 <= i < |ws2| ==> IsSpace(ws2[i])
    ensures MatchFraction(na + ws1 + "/" + ws2 + nb) == Some((na, nb))
  {
    assert !IsSpace(nb[0]) by {
      assert IsDigit(nb[0]);
    }
    assert ws1 == [] || !IsDigit(ws1[0]) by {
      if ws1 != [] {
        assert IsSpace(ws1[0]);
      }
    }
    TrimStartOfSpaces(ws2, nb);
    TrimStartOfSpaces(ws1, "/" + (ws2 + nb));
    MatchFractionOfSkipped(na, ws1, ws2, nb);
  }

  /** The same match, once skipping each whitespace run is known to land on what follows it. */
  lemma MatchFractionOfSkipped(na: string, ws1: string, ws2: string, nb: string)
    requires AllDigits(na) && AllDigits(nb) && na != [] && nb != []
    requires ws1 == [] || !IsDigit(ws1[0])
    requires TrimStart(ws1 + ("/" + (ws2 + nb))) == "/" + (ws2 + nb)
    requires TrimStart(ws2 + nb) == nb
    ensures MatchFraction(na + ws1 + "/" + ws2 + nb) == Some((na, nb))
  {
    var tail := "/" + (ws2 + nb);
    var rest := ws1 + tail;
    assert tail[1..] == ws2 + nb;
    assert rest[0] == if ws1 == [] then '/' else ws1[0];
    Associate(na, ws1, ws2, nb);
    MatchFractionAfterNumerator(na, rest, nb);
  }

  /** Digits followed by something that is not a digit: the rest decides the match. */
  lemma MatchFractionAfterNumerator(na: string, rest: string, den: string)
    requires AllDigits(na) && na != []
    requires rest == [] || !IsDigit(rest[0])
    requires TrimStart(rest) != [] && TrimStart(rest)[0] == '/'
    requires den == TrimStart(TrimStart(rest)[1..]) && den != [] && AllDigits(den)
    ensures MatchFraction(na + rest) == Some((na, den))
  {
    var s := na + rest;
    DigitRunOfDigits(na, rest);
    assert s[|na|..] == rest;
    assert s[..|na|] == na;
    MatchFractionSteps(s, |na|, TrimStart(rest), den);
  }

  /** The three steps of `MatchFraction`, each already known. */
  lemma MatchFractionSteps(s: string, a: nat, after: string, den: string)
    requires a == DigitRunLength(s) && a > 0
    requires after == TrimStart(s[a..]) && after != [] && after[0] == '/'
    requires den == TrimStart(after[1..]) && den != [] && AllDigits(den)
    ensures MatchFraction(s) == Some((s[..a], den))
  {
  }

  lemma Associate(na: string, ws1: string, ws2: string, nb: string)
    ensures na + ws1 + "/" + ws2 + nb == na + (ws1 + ("/" + (ws2 + nb)))
  {
  }

  lemma {:induction false} DigitRunOfDigits(d: string, rest: string)
    requires AllDigits(d)
    requires rest == [] || !IsDigit(rest[0])
    ensures DigitRunLength(d + rest) == |d|
  {
    if d != [] {
      assert (d + rest)[1..] == d[1..] + rest;
      DigitRunOfDigits(d[1..], rest);
    } else {
      assert d + rest == rest;
    }
  }

  /*** Decimal normalisation and parseFloat ***/

  /** The characters left after normalisation: digits, dots and slashes. */
  predicate NormalizedChar(c: char)
  {
    IsDigit(c) || c == '.' || c == '/'
  }

  predicate DotCountAtMostOne(s: string)
  {
    forall i, j :: 0 <= i < j < |s| && s[i] == '.' ==> s[j] != '.'
  }

  /**
    `replace(/\s/g, "").replace(/,/g, ".")`: whitespace is dropped and
    commas become dots. `DropSpacesCommasToDotsCounts` shows every other
    character is kept as often as it occurs, and
    `DropSpacesCommasToDotsAppend` that the order is kept.
   */
  function DropSpacesCommasToDots(s: string): (r: string)
    ensures |r| <= |s|
    ensures forall i :: 0 <= i < |r| ==> !IsSpace(r[i]) && r[i] != ','
    ensures (forall i :: 0 <= i < |s| ==> IsNumericChar(s[i])) ==>
              forall i :: 0 <= i < |r| ==> NormalizedChar(r[i])
    ensures (forall i :: 0 <= i < |s| ==> !IsSpace(s[i]) && s[i] != ',') ==> r == s
  {
    if s == [] then []
    else if IsSpace(s[0]) then DropSpacesCommasToDots(s[1..])
    else [if s[0] == ',' then '.' else s[0]] + DropSpacesCommasToDots(s[1..])
  }

  /**
    How often each character occurs after the normalisation: whitespace and
    commas never, a dot once for every dot and comma, and every other
    character as often as before.
   */
  lemma {:induction false} DropSpacesCommasToDotsCounts(s: string, c: char)
    ensures multiset(DropSpacesCommasToDots(s))[c]
         == if IsSpace(c) || c == ',' then 0
            else if c == '.' then multiset(s)['.'] + multiset(s)[',']
            else multiset(s)[c]
  {
    if s != [] {
      DropSpacesCommasToDotsCounts(s[1..], c);
      DropSpacesCommasToDotsCons(s);
    }
  }

  lemma DropSpacesCommasToDotsCons(s: string)
    requires s != []
    ensures multiset(s) == multiset{s[0]} + multiset(s[1..])
    ensures multiset(DropSpacesCommasToDots(s))
         == (if IsSpace(s[0]) then multiset{} else multiset{if s[0] == ',' then '.' else s[0]})
            + multiset(DropSpacesCommasToDots(s[1..]))
  {
    assert s == [s[0]] + s[1..];
  }

  /** The normalisation works piece by piece, so the surviving characters keep their order. */
  lemma {:induction false} DropSpacesCommasToDotsAppend(a: string, b: string)
    ensures DropSpacesCommasToDots(a + b) == DropSpacesCommasToDots(a) + DropSpacesCommasToDots(b)
  {
    if a == [] {
      assert a + b == b;
    } else {
      var t := a[1..];
      assert (a + b)[0] == a[0] && (a + b)[1..] == t + b;
      DropSpacesCommasToDotsAppend(t, b);
      if !IsSpace(a[0]) {
        var x := [if a[0] == ',' then '.' else a[0]];
        assert x + (DropSpacesCommasToDots(t) + DropSpacesCommasToDots(b))
            == (x + DropSpacesCommasToDots(t)) + DropSpacesCommasToDots(b);
      }
    }
  }

  /**
    `replace(/\./g, "")`: every dot is dropped and every other character
    is kept as often as it occurs; `DropDotsAppend` shows the order is kept.
   */
  function DropDots(s: string): (r: string)
    ensures |r| <= |s|
    ensures forall i :: 0 <= i < |r| ==> r[i] != '.'
    ensures forall c :: c != '.' ==> multiset(r)[c] == multiset(s)[c]
    ensures '.' !in s ==> r == s
  {
    if s == [] then []
    else
      assert s == [s[0]] + s[1..];
      if s[0] == '.' then DropDots(s[1..])
      else [s[0]] + DropDots(s[1..])
  }

  /** No character appears that was not there before. */
  lemma {:induction false} DropDotsWithin(s: string)
    ensures forall i :: 0 <= i < |DropDots(s)| ==> DropDots(s)[i] in s
  {
    if s != [] {
      DropDotsWithin(s[1..]);
      assert s == [s[0]] + s[1..];
    }
  }

  lemma {:induction false} DropDotsAppend(a: string, b: string)
    ensures DropDots(a + b) == DropDots(a) + DropDots(b)
  {
    if a != [] {
      assert (a + b)[0] == a[0] && (a + b)[1..] == a[1..] + b;
      DropDotsAppend(a[1..], b);
    } else {
      assert a + b == b;
    }
  }

  /**
    The normalised numeric part: whitespace removed, commas turned into
    dots, and every dot after the first removed. Apart from its dots it is
    the comma-to-dot text character for character, and its one dot (if
    any) sits where that text has its first dot.
   */
  function NormalizeDecimal(s: string): (r: string)
    ensures forall i :: 0 <= i < |r| ==> !IsSpace(r[i]) && r[i] != ','
    ensures DotCountAtMostOne(r)
    ensures DropDots(r) == DropDots(DropSpacesCommasToDots(s))
    ensures IndexOf(r, '.') == IndexOf(DropSpacesCommasToDots(s), '.')
    ensures (forall i :: 0 <= i < |s| ==> IsNumericChar(s[i])) ==>
              forall i :: 0 <= i < |r| ==> NormalizedChar(r[i])
  {
    KeepFirstDot(DropSpacesCommasToDots(s))
  }

  /** `t` with every dot after its first one removed. */
  function KeepFirstDot(t: string): (r: string)
    ensures forall i :: 0 <= i < |r| ==> r[i] in t
    ensures DotCountAtMostOne(r)
    ensures DropDots(r) == DropDots(t)
    ensures IndexOf(r, '.') == IndexOf(t, '.')
  {
    var firstDot := IndexOf(t, '.');
    if firstDot == -1 then t
    else
      FirstDotKept(t, firstDot);
      t[..firstDot + 1] + DropDots(t[firstDot + 1..])
  }

  /**
    Keeping the first dot and dropping the later ones leaves at most one
    dot, no new character, the same characters apart from dots, and the
    first dot in its place.
   */
  lemma {:induction false} FirstDotKept(t: string, k: nat)
    requires k < |t| && t[k] == '.' && '.' !in t[..k]
    ensures var r := t[..k + 1] + DropDots(t[k + 1..]);
      && (forall i :: 0 <= i < |r| ==> r[i] in t)
      && DotCountAtMostOne(r)
      && DropDots(r) == DropDots(t)
      && IndexOf(r, '.') == k
  {
    FirstDotKeptDots(t, k);
    FirstDotKeptPlace(t, k);
  }

  lemma {:induction false} FirstDotKeptDots(t: string, k: nat)
    requires k < |t|
    ensures DropDots(t[..k + 1] + DropDots(t[k + 1..])) == DropDots(t)
  {
    var a, b := t[..k + 1], t[k + 1..];
    DropDotsAppend(a, DropDots(b));
    DropDotsOfDropDots(b);
    DropDotsAppend(a, b);
    assert a + b == t;
  }

  lemma DropDotsOfDropDots(s: string)
    ensures DropDots(DropDots(s)) == DropDots(s)
  {
    assert '.' !in DropDots(s);
  }

  lemma {:induction false} FirstDotKeptPlace(t: string, k: nat)
    requires k < |t| && t[k] == '.' && '.' !in t[..k]
    ensures var r := t[..k + 1] + DropDots(t[k + 1..]);
      && (forall i :: 0 <= i < |r| ==> r[i] in t)
      && DotCountAtMostOne(r)
      && IndexOf(r, '.') == k
  {
    var r := t[..k + 1] + DropDots(t[k + 1..]);
    assert r[..k] == t[..k];
    IndexOfFirst(r, '.', k);
    DropDotsWithin(t[k + 1..]);
    forall i | 0 <= i < |r|
      ensures r[i] in t && (r[i] == '.' ==> i == k)
    {
      if i <= k {
        assert r[i] == t[i] && t[..k][..i] == t[..i];
      } else {
        assert r[i] == DropDots(t[k + 1..])[i - k - 1];
      }
    }
  }

  lemma {:induction false} IndexOfFirst(s: string, c: char, k: nat)
    requires k < |s| && s[k] == c && c !in s[..k]
    ensures IndexOf(s, c) == k
  {
  }

  /** A string without whitespace or commas and with at most one dot is already normal. */
  lemma NormalizeDecimalOfNormal(s: string)
    requires forall i :: 0 <= i < |s| ==> !IsSpace(s[i]) && s[i] != ','
    requires DotCountAtMostOne(s)
    ensures NormalizeDecimal(s) == s
  {
    var firstDot := IndexOf(s, '.');
    if firstDot != -1 {
      assert s == s[..firstDot + 1] + s[firstDot + 1..];
      assert '.' !in s[firstDot + 1..];
    }
  }

  lemma NormalizeDecimalIdempotent(s: string)
    ensures NormalizeDecimal(NormalizeDecimal(s)) == NormalizeDecimal(s)
  {
    NormalizeDecimalOfNormal(NormalizeDecimal(s));
  }

  /**
    `parseFloat` on a string of digits, dots and slashes: the longest
    prefix of the form digits, optionally a dot and more digits, with at
    least one digit; `None` (NaN) when there is no such prefix.
   */
  function ParseFloat(s: string): (r: Option<real>)
    requires forall i :: 0 <= i < |s| ==> NormalizedChar(s[i])
    ensures r.Some? ==> r.value >= 0.0
    ensures r.None? <==> DigitRunLength(s) == 0 && (s == [] || s[0] != '.' || DigitRunLength(s[1..]) == 0)
  {
    var a := DigitRunLength(s);
    var rest := s[a..];
    var fraction := if rest != [] && rest[0] == '.' then rest[1..][..DigitRunLength(rest[1..])] else "";
    if a == 0 && fraction == [] then None
    else Some(DigitsValue(s[..a]) as real + Quotient(DigitsValue(fraction) as real, Pow10(|fraction|)))
  }

  /** A string of digits is read as its value. */
  lemma ParseFloatOfDigits(s: string)
    requires AllDigits(s)
    ensures ParseFloat(s) == if s == [] then None else Some(DigitsValue(s) as real)
  {
    DigitRunOfDigits(s, []);
    assert s + [] == s;
    assert s[..|s|] == s;
  }

  /** The number `w.f` spells: the whole digits plus the fraction digits over the matching power of ten. */
  function DecimalValue(w: string, f: string): real
    requires AllDigits(w) && AllDigits(f)
  {
    DigitsValue(w) as real + DigitsValue(f) as real / Pow10(|f|)
  }

  /** Digits, a dot and more digits (either side may be empty, not both) read as the decimal number they spell. */
  lemma ParseFloatOfDecimal(w: string, f: string)
    requires AllDigits(w) && AllDigits(f) && (w != [] || f != [])
    ensures forall i :: 0 <= i < |w + "." + f| ==> NormalizedChar((w + "." + f)[i])
    ensures ParseFloat(w + "." + f) == Some(DecimalValue(w, f))
  {
    DecimalChars(w, f);
    DecimalSplit(w, f);
    DigitRunOfAllDigits(f);
    ParseFloatOfParts(w + "." + f, w, f);
    DecimalValueIsQuotient(w, f);
  }

  lemma DecimalValueIsQuotient(w: string, f: string)
    requires AllDigits(w) && AllDigits(f)
    ensures DecimalValue(w, f) == DigitsValue(w) as real + Quotient(DigitsValue(f) as real, Pow10(|f|))
  {
  }

  lemma {:induction false} DecimalSplit(w: string, f: string)
    requires AllDigits(w)
    ensures var s := w + "." + f; DigitRunLength(s) == |w| && s[..|w|] == w && s[|w|..] == "." + f
  {
    var s := w + "." + f;
    DigitRunOfDigits(w, "." + f);
    assert s == w + ("." + f);
  }

  lemma DigitRunOfAllDigits(d: string)
    requires AllDigits(d)
    ensures DigitRunLength(d) == |d|
  {
    DigitRunOfDigits(d, []);
    assert d + [] == d;
  }

  lemma DecimalChars(w: string, f: string)
    requires AllDigits(w) && AllDigits(f)
    ensures forall i :: 0 <= i < |w + "." + f| ==> NormalizedChar((w + "." + f)[i])
  {
    var s := w + "." + f;
    forall i | 0 <= i < |s|
      ensures NormalizedChar(s[i])
    {
      if i < |w| {
        assert s[i] == w[i];
      } else if i > |w| {
        assert s[i] == f[i - |w| - 1];
      }
    }
  }

  /** The steps of `ParseFloat` on a decimal, each already known. */
  lemma {:induction false} ParseFloatOfParts(s: string, w: string, f: string)
    requires forall i :: 0 <= i < |s| ==> NormalizedChar(s[i])
    requires AllDigits(w) && AllDigits(f) && (w != [] || f != [])
    requires DigitRunLength(s) == |w| && s[..|w|] == w && s[|w|..] == "." + f
    requires DigitRunLength(f) == |f|
    ensures ParseFloat(s) == Some(DigitsValue(w) as real + Quotient(DigitsValue(f) as real, Pow10(|f|)))
  {
    var rest := s[|w|..];
    var fraction := if rest != [] && rest[0] == '.' then rest[1..][..DigitRunLength(rest[1..])] else "";
    assert fraction == f by {
      assert rest[0] == '.' && rest[1..] == f;
      assert f[..|f|] == f;
    }
    ParseFloatOfFraction(s, |w|, fraction);
  }

  /** `ParseFloat` once the whole part's length and the fraction digits are known. */
  lemma {:induction false} ParseFloatOfFraction(s: string, a: nat, fraction: string)
    requires forall i :: 0 <= i < |s| ==> NormalizedChar(s[i])
    requires a == DigitRunLength(s) && AllDigits(fraction) && (a != 0 || fraction != [])
    requires var rest := s[a..]; fraction == if rest != [] && rest[0] == '.' then rest[1..][..DigitRunLength(rest[1..])] else ""
    ensures ParseFloat(s) == Some(DigitsValue(s[..a]) as real + Quotient(DigitsValue(fraction) as real, Pow10(|fraction|)))
  {
  }

  /*** parseAmountAndUnit ***/

  datatype ParsedUnit = ParsedUnit(amount: Option<real>, unitSuffix: string)

  /**
    `parseAmountAndUnit(unitRaw)`: a leading fraction or decimal number and
    the text after it; no amount (and the whole text as suffix) when the
    text does not start with a number.
   */
  function ParseAmountAndUnit(unitRaw: Option<string>): (r: ParsedUnit)
    ensures unitRaw.None? || Trim(unitRaw.value) == [] ==> r == ParsedUnit(None, "")
    ensures unitRaw.Some? && Trim(unitRaw.value) != [] && !IsNumericChar(Trim(unitRaw.value)[0]) ==>
              r == ParsedUnit(None, Trim(unitRaw.value))
    ensures r.amount.Some? ==> r.amount.value >= 0.0
    ensures Trimmed(r.unitSuffix)
  {
    if unitRaw.None? then ParsedUnit(None, "")
    else
      var trimmed := Trim(unitRaw.value);
      if trimmed == [] then ParsedUnit(None, "")
      else match MatchLeadingNumber(trimmed)
        case None => ParsedUnit(None, trimmed)
        case Some(token) => ParseToken(token, trimmed)
  }

  /** The matched case: a fraction, else a normalised decimal, else no amount. */
  function ParseToken(token: Token, trimmed: string): (r: ParsedUnit)
    requires forall i :: 0 <= i < |token.numericPart| ==> IsNumericChar(token.numericPart[i])
    requires Trimmed(trimmed)
    ensures r.amount.Some? ==> r.amount.value >= 0.0
    ensures Trimmed(r.unitSuffix)
  {
    var numericPart := Trim(token.numericPart);
    var suffix := Trim(token.rest);
    match FractionAmount(numericPart)
    case Some(v) => ParsedUnit(Some(v), suffix)
    case None =>
      TrimKeeps(token.numericPart, IsNumericChar);
      match ParseFloat(NormalizeDecimal(numericPart))
      case None => ParsedUnit(None, if suffix != [] then suffix else trimmed)
      case Some(amount) => ParsedUnit(Some(amount), suffix)
  }

  /**
    A whole number written out, a space and a unit word are read back as
    that number and that word.
   */
  lemma ParseRenderedWholeAmount(n: nat, unit: string)
    requires unit != [] && !IsNumericChar(unit[0]) && Trimmed(unit) && NoLineTerminator(unit)
    ensures ParseAmountAndUnit(Some(NatToString(n) + " " + unit)) == ParsedUnit(Some(n as real), unit)
  {
    DigitsValueOfNatToString(n);
    ParseDigitsAndUnit(NatToString(n), unit);
  }

  lemma ParseDigitsAndUnit(digits: string, unit: string)
    requires digits != [] && AllDigits(digits)
    requires unit != [] && !IsNumericChar(unit[0]) && Trimmed(unit) && NoLineTerminator(unit)
    ensures ParseAmountAndUnit(Some(digits + " " + unit)) == ParsedUnit(Some(DigitsValue(digits) as real), unit)
  {
    MatchRendered(digits, unit);
    ParseOfMatch(digits + " " + unit, Token(digits + " ", unit));
    TrimDigitsAndSpace(digits);
    TrimOfTrimmed(unit);
    DigitsChars(digits);
    WholeToken(digits, unit, digits + " " + unit);
  }

  lemma WholeToken(digits: string, unit: string, trimmed: string)
    requires digits != [] && AllDigits(digits) && Trimmed(trimmed)
    requires Trim(digits + " ") == digits && Trim(unit) == unit
    requires forall i :: 0 <= i < |digits + " "| ==> IsNumericChar((digits + " ")[i])
    ensures ParseToken(Token(digits + " ", unit), trimmed) == ParsedUnit(Some(DigitsValue(digits) as real), unit)
  {
    DigitsReading(digits);
    var token := Token(digits + " ", unit);
    ParseTokenOfDecimal(token, trimmed, digits, DigitsValue(digits) as real);
  }

  /** A non-empty run of digits is no fraction and reads as its value. */
  lemma DigitsReading(digits: string)
    requires digits != [] && AllDigits(digits)
    ensures FractionAmount(digits) == None
    ensures forall i :: 0 <= i < |digits| ==> IsNumericChar(digits[i])
    ensures ParseFloat(NormalizeDecimal(digits)) == Some(DigitsValue(digits) as real)
  {
    NoFractionInDigits(digits);
    DigitsAreNumeric(digits);
    DigitsAreNormal(digits);
    ParseFloatOfDigits(digits);
  }

  lemma DigitsAreNumeric(digits: string)
    requires AllDigits(digits)
    ensures forall i :: 0 <= i < |digits| ==> IsNumericChar(digits[i])
  {
    forall i | 0 <= i < |digits|
      ensures IsNumericChar(digits[i])
    {
      assert IsDigit(digits[i]);
    }
  }

  /** Normalising leaves a string of digits as it is. */
  lemma DigitsAreNormal(digits: string)
    requires AllDigits(digits)
    ensures NormalizeDecimal(digits) == digits
  {
    assert forall i :: 0 <= i < |digits| ==> !IsSpace(digits[i]) && digits[i] != ',' by {
      forall i | 0 <= i < |digits|
        ensures !IsSpace(digits[i]) && digits[i] != ','
      {
        assert IsDigit(digits[i]);
      }
    }
    assert DotCountAtMostOne(digits) by {
      assert forall i :: 0 <= i < |digits| ==> digits[i] != '.';
    }
    NormalizeDecimalOfNormal(digits);
  }

  /** A token whose trimmed numeric text is no fraction and reads as the number `v`. */
  lemma ParseTokenOfDecimal(token: Token, trimmed: string, numeric: string, v: real)
    requires forall i :: 0 <= i < |token.numericPart| ==> IsNumericChar(token.numericPart[i])
    requires Trimmed(trimmed) && Trim(token.rest) == token.rest
    requires Trim(token.numericPart) == numeric && FractionAmount(numeric) == None
    requires forall i :: 0 <= i < |numeric| ==> IsNumericChar(numeric[i])
    requires ParseFloat(NormalizeDecimal(numeric)) == Some(v)
    ensures ParseToken(token, trimmed) == ParsedUnit(Some(v), token.rest)
  {
  }

  /** A token whose trimmed numeric text is a fraction worth `v`. */
  lemma ParseTokenOfFraction(token: Token, trimmed: string, numeric: string, v: real)
    requires forall i :: 0 <= i < |token.numericPart| ==> IsNumericChar(token.numericPart[i])
    requires Trimmed(trimmed) && Trim(token.rest) == token.rest
    requires Trim(token.numericPart) == numeric && FractionAmount(numeric) == Some(v)
    ensures ParseToken(token, trimmed) == ParsedUnit(Some(v), token.rest)
  {
  }

  lemma DigitsChars(digits: string)
    requires AllDigits(digits)
    ensures forall i :: 0 <= i < |digits + " "| ==> IsNumericChar((digits + " ")[i])
  {
  }

  lemma NoFractionInDigits(digits: string)
    requires AllDigits(digits)
    ensures MatchFraction(digits) == None
  {
    DigitRunOfDigits(digits, []);
    assert digits + [] == digits;
  }

  /** Once the matcher has split a trimmed text, the parse is the token's. */
  lemma ParseOfMatch(s: string, token: Token)
    requires s != [] && Trim(s) == s && MatchLeadingNumber(s) == Some(token)
    ensures ParseAmountAndUnit(Some(s)) == ParseToken(token, s)
  {
  }

  /**
    Digits, a decimal dot or comma, more digits, a space and a unit word
    are read back as the decimal number and that word ("1.5 cup" and
    "1,5 cup" both give 1.5 cups).
   */
  lemma ParseRenderedDecimal(w: string, sep: char, f: string, unit: string)
    requires AllDigits(w) && AllDigits(f) && (w != [] || f != []) && (sep == '.' || sep == ',')
    requires unit != [] && !IsNumericChar(unit[0]) && Trimmed(unit) && NoLineTerminator(unit)
    ensures ParseAmountAndUnit(Some(w + [sep] + f + " " + unit)) == ParsedUnit(Some(DecimalValue(w, f)), unit)
  {
    var numeric := w + [sep] + f;
    DecimalNumerals(w, sep, f);
    MatchRendered(numeric, unit);
    ParseOfMatch(numeric + " " + unit, Token(numeric + " ", unit));
    TrimDigitsAndSpace(numeric);
    TrimOfTrimmed(unit);
    DecimalToken(w, sep, f, unit, numeric + " " + unit);
  }

  lemma DecimalNumerals(w: string, sep: char, f: string)
    requires AllDigits(w) && AllDigits(f) && (sep == '.' || sep == ',')
    ensures forall i :: 0 <= i < |w + [sep] + f| ==> IsNumeral((w + [sep] + f)[i])
    ensures forall i :: 0 <= i < |w + [sep] + f + " "| ==> IsNumericChar((w + [sep] + f + " ")[i])
  {
    var n := w + [sep] + f;
    forall i | 0 <= i < |n|
      ensures IsNumeral(n[i])
    {
      if i < |w| {
        assert n[i] == w[i];
      } else if i > |w| {
        assert n[i] == f[i - |w| - 1];
      }
    }
    forall i | 0 <= i < |n + " "|
      ensures IsNumericChar((n + " ")[i])
    {
      if i < |n| {
        assert (n + " ")[i] == n[i] && IsNumeral(n[i]);
      }
    }
  }

  lemma DecimalToken(w: string, sep: char, f: string, unit: string, trimmed: string)
    requires AllDigits(w) && AllDigits(f) && (w != [] || f != []) && (sep == '.' || sep == ',')
    requires Trimmed(trimmed)
    requires Trim(w + [sep] + f + " ") == w + [sep] + f && Trim(unit) == unit
    requires forall i :: 0 <= i < |w + [sep] + f + " "| ==> IsNumericChar((w + [sep] + f + " ")[i])
    ensures ParseToken(Token(w + [sep] + f + " ", unit), trimmed) == ParsedUnit(Some(DecimalValue(w, f)), unit)
  {
    DecimalReading(w, sep, f);
    ParseTokenOfDecimal(Token(w + [sep] + f + " ", unit), trimmed, w + [sep] + f, DecimalValue(w, f));
  }

  /** A decimal written with a dot or a comma is no fraction and reads as its value. */
  lemma DecimalReading(w: string, sep: char, f: string)
    requires AllDigits(w) && AllDigits(f) && (w != [] || f != []) && (sep == '.' || sep == ',')
    ensures FractionAmount(w + [sep] + f) == None
    ensures forall i :: 0 <= i < |w + [sep] + f| ==> IsNumericChar((w + [sep] + f)[i])
    ensures ParseFloat(NormalizeDecimal(w + [sep] + f)) == Some(DecimalValue(w, f))
  {
    NoFractionInDecimal(w, sep, f);
    DecimalNumerals(w, sep, f);
    NormalizeDecimalOfDecimal(w, sep, f);
    ParseFloatOfDecimal(w, f);
  }

  lemma NoFractionInDecimal(w: string, sep: char, f: string)
    requires AllDigits(w) && (sep == '.' || sep == ',')
    ensures MatchFraction(w + [sep] + f) == None
  {
    var s := w + [sep] + f;
    DigitRunOfDigits(w, [sep] + f);
    assert s == w + ([sep] + f);
    assert s[|w|..] == [sep] + f;
    TrimStartOfSpaces([], [sep] + f);
    assert [] + ([sep] + f) == [sep] + f;
  }

  /** Normalising a decimal turns its separator into a dot and changes nothing else. */
  lemma {:induction false} NormalizeDecimalOfDecimal(w: string, sep: char, f: string)
    requires AllDigits(w) && AllDigits(f) && (sep == '.' || sep == ',')
    ensures NormalizeDecimal(w + [sep] + f) == w + "." + f
  {
    SeparatorToDot(w, sep, f);
    DigitsUnchanged(f);
    FirstDotOfDecimal(w, f);
    NormalizeDecimalSteps(w + [sep] + f, w + "." + f, |w|);
  }

  lemma {:induction false} SeparatorToDot(w: string, sep: char, f: string)
    requires AllDigits(w) && AllDigits(f) && (sep == '.' || sep == ',')
    ensures DropSpacesCommasToDots(w + [sep] + f) == w + "." + f
  {
    DropSpacesCommasToDotsAppend(w + [sep], f);
    DropSpacesCommasToDotsAppend(w, [sep]);
    DigitsKeptByDropSpaces(w);
    DigitsKeptByDropSpaces(f);
    SeparatorAlone(sep);
  }

  lemma {:induction false} FirstDotOfDecimal(w: string, f: string)
    requires AllDigits(w)
    ensures var t := w + "." + f; IndexOf(t, '.') == |w| && t[..|w| + 1] == w + "." && t[|w| + 1..] == f
  {
    var t := w + "." + f;
    assert t[..|w|] == w;
    assert '.' !in w;
    IndexOfFirst(t, '.', |w|);
    assert t[..|w| + 1] == w + ".";
    assert t[|w| + 1..] == f;
  }

  /** The steps of `NormalizeDecimal`, each already known. */
  lemma {:induction false} NormalizeDecimalSteps(s: string, t: string, k: nat)
    requires DropSpacesCommasToDots(s) == t && IndexOf(t, '.') == k
    requires DropDots(t[k + 1..]) == t[k + 1..]
    ensures NormalizeDecimal(s) == t
  {
    KeepFirstDotOfOneDot(t, k);
  }

  lemma KeepFirstDotOfOneDot(t: string, k: nat)
    requires IndexOf(t, '.') == k && DropDots(t[k + 1..]) == t[k + 1..]
    ensures KeepFirstDot(t) == t
  {
    assert t[..k + 1] + t[k + 1..] == t;
  }

  lemma SeparatorAlone(sep: char)
    requires sep == '.' || sep == ','
    ensures DropSpacesCommasToDots([sep]) == ['.']
  {
    assert [sep][1..] == [];
  }

  lemma DigitsKeptByDropSpaces(d: string)
    requires AllDigits(d)
    ensures DropSpacesCommasToDots(d) == d
  {
    DigitsUnchanged(d);
  }

  /** Digits are left alone by both normalisation steps. */
  lemma DigitsUnchanged(d: string)
    requires AllDigits(d)
    ensures DropSpacesCommasToDots(d) == d && DropDots(d) == d
  {
    forall i | 0 <= i < |d|
      ensures !IsSpace(d[i]) && d[i] != ',' && d[i] != '.'
    {
      assert IsDigit(d[i]);
    }
  }

  /** The same for a fraction `a/b` with a non-zero denominator. */
  lemma ParseRenderedFraction(a: nat, b: nat, unit: string)
    requires b != 0
    requires unit != [] && !IsNumericChar(unit[0]) && Trimmed(unit) && NoLineTerminator(unit)
    ensures ParseAmountAndUnit(Some(NatToString(a) + "/" + NatToString(b) + " " + unit))
         == ParsedUnit(Some(a as real / b as real), unit)
  {
    DigitsValueOfNatToString(a);
    DigitsValueOfNatToString(b);
    ParseFractionAndUnit(NatToString(a), NatToString(b), unit);
  }

  lemma ParseFractionAndUnit(na: string, nb: string, unit: string)
    requires na != [] && AllDigits(na) && nb != [] && AllDigits(nb) && DigitsValue(nb) != 0
    requires unit != [] && !IsNumericChar(unit[0]) && Trimmed(unit) && NoLineTerminator(unit)
    ensures ParseAmountAndUnit(Some(na + "/" + nb + " " + unit))
         == ParsedUnit(Some(DigitsValue(na) as real / DigitsValue(nb) as real), unit)
  {
    var numeric := na + "/" + nb;
    FractionChars(na, nb);
    MatchRendered(numeric, unit);
    ParseOfMatch(numeric + " " + unit, Token(numeric + " ", unit));
    TrimDigitsAndSpace(numeric);
    TrimOfTrimmed(unit);
    FractionToken(na, nb, unit, numeric + " " + unit);
  }

  lemma FractionToken(na: string, nb: string, unit: string, trimmed: string)
    requires na != [] && AllDigits(na) && nb != [] && AllDigits(nb) && DigitsValue(nb) != 0
    requires Trimmed(trimmed)
    requires Trim(na + "/" + nb + " ") == na + "/" + nb && Trim(unit) == unit
    requires forall i :: 0 <= i < |na + "/" + nb + " "| ==> IsNumericChar((na + "/" + nb + " ")[i])
    ensures ParseToken(Token(na + "/" + nb + " ", unit), trimmed)
         == ParsedUnit(Some(DigitsValue(na) as real / DigitsValue(nb) as real), unit)
  {
    var v := DigitsValue(na) as real / DigitsValue(nb) as real;
    FractionReading(na, nb);
    var token := Token(na + "/" + nb + " ", unit);
    ParseTokenOfFraction(token, trimmed, na + "/" + nb, v);
  }

  /** `a/b` written in digits reads as the quotient of the two values. */
  lemma FractionReading(na: string, nb: string)
    requires na != [] && AllDigits(na) && nb != [] && AllDigits(nb) && DigitsValue(nb) != 0
    ensures FractionAmount(na + "/" + nb) == Some(DigitsValue(na) as real / DigitsValue(nb) as real)
  {
    MatchPlainFraction(na, nb);
    FractionAmountOfMatch(na + "/" + nb, na, nb);
  }

  lemma FractionAmountOfMatch(s: string, n: string, d: string)
    requires MatchFraction(s) == Some((n, d)) && DigitsValue(d) != 0
    ensures FractionAmount(s) == Some(DigitsValue(n) as real / DigitsValue(d) as real)
  {
  }

  lemma MatchPlainFraction(na: string, nb: string)
    requires AllDigits(na) && AllDigits(nb) && na != [] && nb != []
    ensures MatchFraction(na + "/" + nb) == Some((na, nb))
  {
    assert na + [] + "/" + [] + nb == na + "/" + nb;
    MatchFractionOfParts(na, [], [], nb);
  }

  lemma FractionChars(na: string, nb: string)
    requires AllDigits(na) && AllDigits(nb)
    ensures forall i :: 0 <= i < |na + "/" + nb| ==> IsDigit((na + "/" + nb)[i]) || (na + "/" + nb)[i] == '/'
  {
  }

  /** The characters a number is written with: digits, slash, dot and comma. */
  predicate IsNumeral(c: char)
  {
    IsDigit(c) || c == '/' || c == '.' || c == ','
  }

  lemma MatchRendered(numeric: string, unit: string)
    requires numeric != [] && forall i :: 0 <= i < |numeric| ==> IsNumeral(numeric[i])
    requires unit != [] && !IsNumericChar(unit[0]) && Trimmed(unit) && NoLineTerminator(unit)
    ensures Trim(numeric + " " + unit) == numeric + " " + unit
    ensures MatchLeadingNumber(numeric + " " + unit) == Some(Token(numeric + " ", unit))
  {
    var s := numeric + " " + unit;
    assert s == (numeric + " ") + unit;
    NumericRunOfPrefix(numeric + " ", unit);
    assert s[|numeric| + 1..] == unit;
    assert s[..|numeric| + 1] == numeric + " ";
    TrimOfTrimmed(s);
  }

  lemma TrimDigitsAndSpace(numeric: string)
    requires numeric != [] && forall i :: 0 <= i < |numeric| ==> IsNumeral(numeric[i])
    ensures Trim(numeric + " ") == numeric
  {
    assert NoSpace(numeric) by {
      forall i | 0 <= i < |numeric|
        ensures !IsSpace(numeric[i])
      {
        assert IsNumeral(numeric[i]);
      }
    }
    TrimWithTrailingSpace(numeric);
  }

  lemma {:induction false} NumericRunOfPrefix(prefix: string, rest: string)
    requires forall i :: 0 <= i < |prefix| ==> IsNumericChar(prefix[i])
    requires rest == [] || !IsNumericChar(rest[0])
    ensures NumericRunLength(prefix + rest) == |prefix|
  {
    if prefix == [] {
      assert prefix + rest == rest;
    } else {
      assert (prefix + rest)[1..] == prefix[1..] + rest;
      NumericRunOfPrefix(prefix[1..], rest);
    }
  }

  /** The value of a matched fraction with a non-zero denominator. */
  function FractionAmount(numericPart: string): (r: Option<real>)
    ensures r.Some? ==> r.value >= 0.0
    ensures r.Some? <==> MatchFraction(numericPart).Some? && DigitsValue(MatchFraction(numericPart).value.1) != 0
  {
    match MatchFraction(numericPart)
    case None => None
    case Some((n, d)) =>
      var den := DigitsValue(d);
      if den == 0 then None else Some(Quotient(DigitsValue(n) as real, den as real))
  }

  /*** Display precision and scaling ***/

  /**
    The number of decimals `formatQuantity` rounds to: none for a
    non-finite value (it shows "-"), 0 for zero, 2 below 10, 1 below 100,
    and 0 from 100 on.
   */
  function Precision(v: Num): (p: Option<nat>)
    ensures p.None? <==> !v.Finite?
    ensures p.Some? ==> p.value <= 2
  {
    if !v.Finite? then None
    else
      var a := if v.value < 0.0 then -v.value else v.value;
      if a == 0.0 then Some(0)
      else if a < 1.0 then Some(2)
      else if a < 10.0 then Some(2)
      else if a < 100.0 then Some(1)
      else Some(0)
  }

  /** Larger non-zero magnitudes never get more decimals. */
  lemma PrecisionMonotone(x: real, y: real)
    requires 0.0 < x <= y
    ensures Precision(Finite(y)).value <= Precision(Finite(x)).value
    ensures Precision(Finite(-y)) == Precision(Finite(y))
  {
  }

  /** One row of the calculator: the batch amount, its share per cake, and the share times the target. */
  datatype QuantityRow = NoAmount(batch: string) | Scaled(amount: real, perCake: real, scaled: real, unitSuffix: string)

  function QuantityRowOf(unit: Option<string>, numberOfCakes: real, targetCakes: real): (r: QuantityRow)
    ensures ParseAmountAndUnit(unit).amount.None? <==> r.NoAmount?
    ensures r.Scaled? ==>
              && r.amount == ParseAmountAndUnit(unit).amount.value
              && r.amount >= 0.0
              && ScaledFrom(r, CakeCount(numberOfCakes), CakeCount(targetCakes))
  {
    var parsed := ParseAmountAndUnit(unit);
    match parsed.amount
    case None => NoAmount(if unit.Some? && unit.value != "" then unit.value else "-")
    case Some(amount) => Scale(amount, parsed.unitSuffix, CakeCount(numberOfCakes), CakeCount(targetCakes))
  }

  /** The per-cake share times the batch's cake count is the batch amount; the scaled amount is the share times the target. */
  predicate ScaledFrom(r: QuantityRow, baseCakes: int, targetCakes: int)
  {
    r.Scaled? && r.perCake * baseCakes as real == r.amount && r.scaled == r.perCake * targetCakes as real
  }

  function Scale(amount: real, unitSuffix: string, baseCakes: int, targetCakes: int): (r: QuantityRow)
    requires baseCakes >= 1
    ensures ScaledFrom(r, baseCakes, targetCakes) && r.amount == amount
  {
    var perCake := amount / baseCakes as real;
    DivCancel(amount, baseCakes as real);
    Scaled(amount, perCake, perCake * targetCakes as real, unitSuffix)
  }

  /** Scaling to the batch's own cake count gives back the batch amount. */
  lemma ScaledToBatchIsAmount(unit: Option<string>, numberOfCakes: real)
    requires QuantityRowOf(unit, numberOfCakes, numberOfCakes).Scaled?
    ensures var r := QuantityRowOf(unit, numberOfCakes, numberOfCakes); r.scaled == r.amount
  {
  }

  /** Scaled amounts grow with the target count. */
  lemma ScaledMonotone(unit: Option<string>, numberOfCakes: real, t1: real, t2: real)
    requires QuantityRowOf(unit, numberOfCakes, t1).Scaled? && t1 <= t2
    ensures QuantityRowOf(unit, numberOfCakes, t1).scaled <= QuantityRowOf(unit, numberOfCakes, t2).scaled
  {
    CakeCountMonotone(t1, t2);
    ScaledFromMonotone(QuantityRowOf(unit, numberOfCakes, t1), QuantityRowOf(unit, numberOfCakes, t2),
                       CakeCount(numberOfCakes), CakeCount(t1), CakeCount(t2));
  }

  lemma ScaledFromMonotone(r1: QuantityRow, r2: QuantityRow, n: int, c1: int, c2: int)
    requires n >= 1 && c1 <= c2
    requires ScaledFrom(r1, n, c1) && ScaledFrom(r2, n, c2) && r1.amount == r2.amount >= 0.0
    ensures r1.scaled <= r2.scaled
  {
    SharesAgree(r1.perCake, r2.perCake, n as real, r1.amount);
    ScaleLe(r1.perCake, c1 as real, c2 as real);
  }

  lemma SharesAgree(p: real, q: real, n: real, a: real)
    requires n > 0.0 && a >= 0.0 && p * n == a && q * n == a
    ensures p == q && p >= 0.0
  {
  }

  lemma ScaleLe(p: real, x: real, y: real)
    requires p >= 0.0 && x <= y
    ensures p * x <= p * y
  {
  }
}

=== FILE: text.dfy ===
/**
  The JavaScript string operations the modelled code relies on: `trim`,
  `toLowerCase`, `split`/`join` on one character, `startsWith`, the `<`
  comparison of strings, and decimal rendering of a non-negative integer.
 */
module Text {

  /** The characters JavaScript's `trim` removes and `\s` matches. */
  predicate IsSpace(c: char)
  {
    || c == ' ' || c == '\t' || c == '\n' || c == '\r'
    || c == '\U{000B}' || c == '\U{000C}' || c == '\U{00A0}' || c == '\U{1680}'
    || ('\U{2000}' <= c <= '\U{200A}')
    || c == '\U{2028}' || c == '\U{2029}' || c == '\U{202F}' || c == '\U{205F}'
    || c == '\U{3000}' || c == '\U{FEFF}'
  }

  /** The characters `.` in a regular expression does not match. */
  predicate IsLineTerminator(c: char)
  {
    c == '\n' || c == '\r' || c == '\U{2028}' || c == '\U{2029}'
  }

  predicate IsDigit(c: char)
  {
    '0' <= c <= '9'
  }

  predicate AllSpace(s: string)
  {
    forall i :: 0 <= i < |s| ==> IsSpace(s[i])
  }

  predicate NoSpace(s: string)
  {
    forall i :: 0 <= i < |s| ==> !IsSpace(s[i])
  }

  /** The first index from `i` on that does not hold whitespace, or `|s|` when there is none. */
  function SkipSpaces(s: string, i: nat): (k: nat)
    requires i <= |s|
    ensures i <= k <= |s|
    ensures forall j :: i <= j < k ==> IsSpace(s[j])
    ensures k < |s| ==> !IsSpace(s[k])
    decreases |s| - i
  {
    if i < |s| && IsSpace(s[i]) then SkipSpaces(s, i + 1) else i
  }

  /** Walking back from `e` over whitespace: the index just after the last other character before `e`, or 0. */
  function SkipSpacesBack(s: string, e: nat): (k: nat)
    requires e <= |s|
    ensures k <= e
    ensures forall j :: k <= j < e ==> IsSpace(s[j])
    ensures k > 0 ==> !IsSpace(s[k - 1])
  {
    if e > 0 && IsSpace(s[e - 1]) then SkipSpacesBack(s, e - 1) else e
  }

  /** How many whitespace characters `trimStart` removes from the front of `s`. */
  function TrimOffset(s: string): (k: nat)
    ensures k <= |s|
    ensures forall i :: 0 <= i < k ==> IsSpace(s[i])
    ensures k < |s| ==> !IsSpace(s[k])
  {
    SkipSpaces(s, 0)
  }

  /** Whitespace before `k` and none at `k` pins the offset down. */
  lemma TrimOffsetIs(s: string, k: nat)
    requires k <= |s| && (forall i :: 0 <= i < k ==> IsSpace(s[i])) && (k < |s| ==> !IsSpace(s[k]))
    ensures TrimOffset(s) == k
  {
  }

  /** `s.trimStart()`. */
  function TrimStart(s: string): (r: string)
    ensures |r| <= |s| && r == s[|s| - |r|..]
    ensures r != [] ==> !IsSpace(r[0])
    ensures forall i :: 0 <= i < |s| - |r| ==> IsSpace(s[i])
  {
    s[TrimOffset(s)..]
  }

  /** Leading whitespace in front of text that does not start with whitespace is all `TrimStart` removes. */
  lemma TrimStartOfSpaces(spaces: string, rest: string)
    requires forall i :: 0 <= i < |spaces| ==> IsSpace(spaces[i])
    requires rest == [] || !IsSpace(rest[0])
    ensures TrimStart(spaces + rest) == rest
  {
    var s := spaces + rest;
    forall i | 0 <= i < |spaces|
      ensures IsSpace(s[i])
    {
      assert s[i] == spaces[i];
    }
    if rest != [] {
      assert s[|spaces|] == rest[0];
    }
    TrimOffsetIs(s, |spaces|);
    assert s[|spaces|..] == rest;
  }

  /** How many characters `trimEnd` keeps. */
  function TrimEndLength(s: string): (e: nat)
    ensures e <= |s|
    ensures forall i :: e <= i < |s| ==> IsSpace(s[i])
    ensures e > 0 ==> !IsSpace(s[e - 1])
  {
    SkipSpacesBack(s, |s|)
  }

  /** Whitespace from `e` on and none just before it pins the length down. */
  lemma TrimEndLengthIs(s: string, e: nat)
    requires e <= |s| && (forall i :: e <= i < |s| ==> IsSpace(s[i])) && (e > 0 ==> !IsSpace(s[e - 1]))
    ensures TrimEndLength(s) == e
  {
  }

  /** `s.trimEnd()`. */
  function TrimEnd(s: string): (r: string)
    ensures |r| <= |s| && r == s[..|r|]
    ensures r != [] ==> !IsSpace(r[|r| - 1])
    ensures forall i :: |r| <= i < |s| ==> IsSpace(s[i])
  {
    s[..TrimEndLength(s)]
  }

  /** Trailing whitespace after text that does not end in whitespace is all `TrimEnd` removes. */
  lemma TrimEndOfSpaces(rest: string, spaces: string)
    requires forall i :: 0 <= i < |spaces| ==> IsSpace(spaces[i])
    requires rest == [] || !IsSpace(rest[|rest| - 1])
    ensures TrimEnd(rest + spaces) == rest
  {
    var s := rest + spaces;
    forall i | |rest| <= i < |s|
      ensures IsSpace(s[i])
    {
      assert s[i] == spaces[i - |rest|];
    }
    if rest != [] {
      assert s[|rest| - 1] == rest[|rest| - 1];
    }
    TrimEndLengthIs(s, |rest|);
    assert s[..|rest|] == rest;
  }

  /** Neither end of the string is whitespace. */
  predicate Trimmed(s: string)
  {
    s != [] ==> !IsSpace(s[0]) && !IsSpace(s[|s| - 1])
  }

  /**
    `s.trim()`: the infix of `s` that starts at its first non-whitespace
    character and ends at its last one; everything before and after it is
    whitespace, and it neither starts nor ends with whitespace.
   */
  function Trim(s: string): (r: string)
    ensures TrimOffset(s) + |r| <= |s| && r == s[TrimOffset(s)..TrimOffset(s) + |r|]
    ensures AllSpace(s[..TrimOffset(s)]) && AllSpace(s[TrimOffset(s) + |r|..])
    ensures Trimmed(r)
    ensures NoSpace(s) ==> r == s
  {
    TrimInside(s);
    TrimEndsTrimmed(s);
    TrimOfNoSpace(s);
    TrimEnd(TrimStart(s))
  }

  /** Where the two trimming steps cut `s`, and that what they cut is whitespace. */
  lemma TrimInside(s: string)
    ensures var k, r := TrimOffset(s), TrimEnd(TrimStart(s));
      && k + |r| <= |s| && r == s[k..k + |r|]
      && AllSpace(s[..k]) && AllSpace(s[k + |r|..])
  {
    var k := TrimOffset(s);
    var t := TrimStart(s);
    var e := TrimEndLength(t);
    SkippedAreSpaces(s, k);
    TrailingAreSpaces(t, e);
    SuffixSlices(s, k, e);
  }

  lemma SkippedAreSpaces(x: string, k: nat)
    requires k <= |x| && forall i :: 0 <= i < k ==> IsSpace(x[i])
    ensures AllSpace(x[..k])
  {
    forall i | 0 <= i < k
      ensures IsSpace(x[..k][i])
    {
      assert x[..k][i] == x[i];
    }
  }

  lemma TrailingAreSpaces(x: string, k: nat)
    requires k <= |x| && forall i :: k <= i < |x| ==> IsSpace(x[i])
    ensures AllSpace(x[k..])
  {
    forall i | 0 <= i < |x| - k
      ensures IsSpace(x[k..][i])
    {
      assert x[k..][i] == x[k + i];
    }
  }

  /** The first `n` characters of a suffix, and the rest of it, as slices of the whole. */
  lemma SuffixSlices(s: string, k: nat, n: nat)
    requires k + n <= |s|
    ensures s[k..][..n] == s[k..k + n] && s[k..][n..] == s[k + n..]
  {
  }

  lemma TrimEndsTrimmed(s: string)
    ensures Trimmed(TrimEnd(TrimStart(s)))
  {
    var t := TrimStart(s);
    var r := TrimEnd(t);
    if r != [] {
      assert r[0] == t[0];
    }
  }

  lemma TrimOfNoSpace(s: string)
    ensures NoSpace(s) ==> TrimEnd(TrimStart(s)) == s
  {
    if NoSpace(s) && s != [] {
      TrimOffsetIs(s, 0);
      TrimEndLengthIs(s, |s|);
    }
  }

  /**
    The converse: text with no whitespace at either end, surrounded only by
    whitespace, is what `trim` returns.
   */
  lemma TrimOfPadded(lead: string, t: string, trail: string)
    requires forall i :: 0 <= i < |lead| ==> IsSpace(lead[i])
    requires forall i :: 0 <= i < |trail| ==> IsSpace(trail[i])
    requires t != [] && Trimmed(t)
    ensures Trim(lead + t + trail) == t
  {
    assert lead + t + trail == lead + (t + trail);
    assert (t + trail)[0] == t[0];
    TrimStartOfSpaces(lead, t + trail);
    TrimEndOfSpaces(t, trail);
  }

  /** An already trimmed string is its own trim. */
  lemma TrimOfTrimmed(s: string)
    requires Trimmed(s)
    ensures Trim(s) == s
  {
  }

  /** Whatever holds of every character of `s` holds of every character of its trim. */
  lemma TrimKeeps(s: string, p: char -> bool)
    requires forall i :: 0 <= i < |s| ==> p(s[i])
    ensures forall i :: 0 <= i < |Trim(s)| ==> p(Trim(s)[i])
  {
    var t := TrimStart(s);
    SliceKeeps(s, |s| - |t|, |s|, p);
    var u := TrimEnd(t);
    SliceKeeps(t, 0, |u|, p);
  }

  lemma SliceKeeps(s: string, lo: nat, hi: nat, p: char -> bool)
    requires lo <= hi <= |s|
    requires forall i :: 0 <= i < |s| ==> p(s[i])
    ensures forall i :: 0 <= i < hi - lo ==> p(s[lo..hi][i])
  {
    forall i | 0 <= i < hi - lo
      ensures p(s[lo..hi][i])
    {
      assert s[lo..hi][i] == s[lo + i];
    }
  }

  /** A trailing space is all `trim` removes from a string with no whitespace. */
  lemma TrimWithTrailingSpace(s: string)
    requires s != [] && NoSpace(s)
    ensures Trim(s + " ") == s
  {
    assert !IsSpace(s[0]) && !IsSpace(s[|s| - 1]);
    TrimOfPadded([], s, " ");
    assert [] + s + " " == s + " ";
  }

  lemma TrimIdempotent(s: string)
    ensures Trim(Trim(s)) == Trim(s)
  {
    var t := Trim(s);
    if t != [] {
      assert TrimStart(t) == t;
      assert TrimEnd(t) == t;
    }
  }

  /**
    Lower-case of one character as `toLowerCase` produces it, for ASCII
    capitals and for the two non-ASCII capitals whose lower-case form
    contains an ASCII letter (U+0130 and the Kelvin sign U+212A). Every
    other character is returned unchanged.
   */
  function LowerChar(c: char): string
  {
    if 'A' <= c <= 'Z' then [(c as int + 32) as char]
    else if c == '\U{0130}' then "i\U{0307}"
    else if c == '\U{212A}' then "k"
    else [c]
  }

  predicate IsAscii(c: char)
  {
    c < '\U{0080}'
  }

  /** The lower-case form of an ASCII character. */
  function LowerAscii(c: char): char
  {
    if 'A' <= c <= 'Z' then (c as int + 32) as char else c
  }

  /** `s.toLowerCase()`: no ASCII capital is left. */
  function ToLowerCase(s: string): (r: string)
    ensures forall i :: 0 <= i < |r| ==> !('A' <= r[i] <= 'Z')
  {
    if s == [] then [] else LowerChar(s[0]) + ToLowerCase(s[1..])
  }

  /** On ASCII text `toLowerCase` keeps the length and lowers each character on its own. */
  lemma {:induction false} ToLowerCaseAscii(s: string)
    requires forall i :: 0 <= i < |s| ==> IsAscii(s[i])
    ensures |ToLowerCase(s)| == |s|
    ensures forall i :: 0 <= i < |s| ==> ToLowerCase(s)[i] == LowerAscii(s[i])
  {
    if s != [] {
      ToLowerCaseAscii(s[1..]);
      var r := ToLowerCase(s);
      assert r == [LowerAscii(s[0])] + ToLowerCase(s[1..]);
      forall i | 0 <= i < |s|
        ensures r[i] == LowerAscii(s[i])
      {
        if i > 0 {
          assert r[i] == ToLowerCase(s[1..])[i - 1];
          assert s[1..][i - 1] == s[i];
        }
      }
    }
  }

  lemma {:induction false} ToLowerCaseKeepsLower(s: string)
    requires forall i :: 0 <= i < |s| ==> !('A' <= s[i] <= 'Z') && s[i] != '\U{0130}' && s[i] != '\U{212A}'
    ensures ToLowerCase(s) == s
  {
    if s != [] {
      ToLowerCaseKeepsLower(s[1..]);
    }
  }

  /** Position of the first `c` in `s`, or -1 (`indexOf`). */
  function IndexOf(s: string, c: char): (k: int)
    ensures -1 <= k < |s|
    ensures k >= 0 ==> s[k] == c && c !in s[..k]
    ensures k < 0 <==> c !in s
  {
    if |s| == 0 then -1
    else if s[0] == c then 0
    else
      var k := IndexOf(s[1..], c);
      assert s == [s[0]] + s[1..];
      if k < 0 then -1 else k + 1
  }

  /** `s.split(c)` for a one-character separator. */
  function Split(s: string, c: char): (parts: seq<string>)
    ensures |parts| >= 1
    ensures c !in s ==> parts == [s]
    decreases |s|
  {
    var k := IndexOf(s, c);
    if k < 0 then [s] else [s[..k]] + Split(s[k + 1..], c)
  }

  /** The first piece of a split runs up to the first separator; re-joining the other pieces gives the text after it. */
  lemma SplitFirstPiece(s: string, c: char)
    ensures var k := IndexOf(s, c);
      && Split(s, c)[0] == (if k < 0 then s else s[..k])
      && Join(Split(s, c)[1..], c) == (if k < 0 then "" else s[k + 1..])
  {
    var k := IndexOf(s, c);
    if k >= 0 {
      var rest := s[k + 1..];
      assert Split(s, c)[1..] == Split(rest, c);
      JoinSplit(rest, c);
    }
  }

  /**
    The first piece of a split is the text up to the first separator, and
    the other pieces joined back are what follows that separator.
   */
  lemma SplitFirstPieceBounds(s: string, c: char)
    ensures var n, rest := Split(s, c)[0], Join(Split(s, c)[1..], c);
      && |n| <= |s| && n == s[..|n|] && c !in n
      && (n == [] <==> s == [] || s[0] == c)
      && (|n| == |s| ==> rest == "")
      && (|n| < |s| ==> s[|n|] == c && rest == s[|n| + 1..])
  {
    SplitFirstPiece(s, c);
    var k := IndexOf(s, c);
    if k >= 0 {
      assert s[..k][..k] == s[..k];
      assert k == 0 <==> s[0] == c;
    } else {
      assert s[..|s|] == s;
      assert s != [] ==> s[0] in s;
    }
  }

  /** `parts.join(c)` for a one-character separator. */
  function Join(parts: seq<string>, c: char): string
  {
    if |parts| == 0 then ""
    else if |parts| == 1 then parts[0]
    else parts[0] + [c] + Join(parts[1..], c)
  }

  /** No piece of a split contains the separator. */
  lemma {:induction false} SplitPartsLackSeparator(s: string, c: char)
    ensures forall i :: 0 <= i < |Split(s, c)| ==> c !in Split(s, c)[i]
  {
    forall i | 0 <= i < |Split(s, c)|
      ensures c !in Split(s, c)[i]
    {
      SplitPartLacksSeparator(s, c, i);
    }
  }

  lemma {:induction false} SplitPartLacksSeparator(s: string, c: char, i: nat)
    requires i < |Split(s, c)|
    ensures c !in Split(s, c)[i]
    decreases |s|
  {
    var k := IndexOf(s, c);
    if k < 0 {
      assert c !in s;
      assert Split(s, c)[i] == s;
    } else if i == 0 {
      SplitStepAt(s, c, i);
      assert c !in s[..k];
    } else {
      SplitStepAt(s, c, i);
      var rest := s[k + 1..];
      SplitPartLacksSeparator(rest, c, i - 1);
      assert Split(s, c)[i] == Split(rest, c)[i - 1];
    }
  }

  /** Past the first separator, the pieces of a split are those of the rest. */
  lemma {:induction false} SplitStepAt(s: string, c: char, i: nat)
    requires IndexOf(s, c) >= 0 && i < |Split(s, c)|
    ensures i == 0 ==> Split(s, c)[0] == s[..IndexOf(s, c)]
    ensures i > 0 ==>
      && i - 1 < |Split(s[IndexOf(s, c) + 1..], c)|
      && Split(s, c)[i] == Split(s[IndexOf(s, c) + 1..], c)[i - 1]
  {
    SplitUnfold(s, c);
  }

  lemma {:induction false} SplitUnfold(s: string, c: char)
    requires IndexOf(s, c) >= 0
    ensures Split(s, c) == [s[..IndexOf(s, c)]] + Split(s[IndexOf(s, c) + 1..], c)
  {
  }

  /** The split of `head c rest`, where `head` has no `c`. */
  lemma SplitAtFirst(head: string, c: char, rest: string)
    requires c !in head
    ensures Split(head + [c] + rest, c) == [head] + Split(rest, c)
  {
    var j := head + [c] + rest;
    IndexOfAfterPrefix(head, c, rest);
    assert j[..|head|] == head;
    assert j[|head| + 1..] == rest;
  }

  /** Splitting and re-joining on the same character gives the string back. */
  lemma {:induction false} JoinSplit(s: string, c: char)
    ensures Join(Split(s, c), c) == s
    decreases |s|
  {
    var k := IndexOf(s, c);
    if k >= 0 {
      var head := s[..k];
      var rest := s[k + 1..];
      assert s == head + [c] + rest;
      SplitAtFirst(head, c, rest);
      JoinSplit(rest, c);
      JoinCons(head, Split(rest, c), c);
    }
  }

  lemma JoinCons(head: string, tail: seq<string>, c: char)
    requires |tail| >= 1
    ensures Join([head] + tail, c) == head + [c] + Join(tail, c)
  {
    assert ([head] + tail)[1..] == tail;
  }

  /** Joining separator-free parts and splitting again gives the parts back. */
  lemma {:induction false} SplitJoin(parts: seq<string>, c: char)
    requires |parts| >= 1
    requires forall i :: 0 <= i < |parts| ==> c !in parts[i]
    ensures Split(Join(parts, c), c) == parts
  {
    var head := parts[0];
    if |parts| > 1 {
      var tail := parts[1..];
      assert parts == [head] + tail;
      SplitJoin(tail, c);
      JoinCons(head, tail, c);
      SplitAtFirst(head, c, Join(tail, c));
    }
  }

  lemma IndexOfAfterPrefix(head: string, c: char, rest: string)
    requires c !in head
    ensures IndexOf(head + [c] + rest, c) == |head|
  {
    var j := head + [c] + rest;
    assert j[|head|] == c;
    assert j[..|head|] == head;
  }

  predicate StartsWith(s: string, prefix: string)
  {
    |prefix| <= |s| && s[..|prefix|] == prefix
  }

  /** JavaScript's `a < b` on strings: lexicographic by character code. */
  predicate LexLess(a: string, b: string)
  {
    if |b| == 0 then false
    else if |a| == 0 then true
    else if a[0] != b[0] then a[0] < b[0]
    else LexLess(a[1..], b[1..])
  }

  lemma {:induction false} LexLessIrreflexive(a: string)
    ensures !LexLess(a, a)
  {
    if |a| > 0 {
      LexLessIrreflexive(a[1..]);
    }
  }

  lemma {:induction false} LexLessTransitive(a: string, b: string, c: string)
    requires LexLess(a, b) && LexLess(b, c)
    ensures LexLess(a, c)
  {
    if |a| > 0 && a[0] == b[0] && b[0] == c[0] {
      LexLessTransitive(a[1..], b[1..], c[1..]);
    }
  }

  /** Two different strings are ordered one way or the other. */
  lemma {:induction false} LexLessTotal(a: string, b: string)
    requires a != b
    ensures LexLess(a, b) || LexLess(b, a)
  {
    if |a| > 0 && |b| > 0 && a[0] == b[0] {
      assert a == [a[0]] + a[1..];
      assert b == [b[0]] + b[1..];
      LexLessTotal(a[1..], b[1..]);
    }
  }

  /** "Not less" is transitive: the order the profile list is sorted by. */
  lemma LexNotLessTransitive(a: string, b: string, c: string)
    requires !LexLess(a, b) && !LexLess(b, c)
    ensures !LexLess(a, c)
  {
    if LexLess(a, c) {
      if a == b {
      } else if b == c {
      } else {
        LexLessTotal(a, b);
        LexLessTotal(b, c);
        LexLessTransitive(c, b, a);
        LexLessAsymmetric(a, c);
      }
    }
  }

  lemma {:induction false} LexLessAsymmetric(a: string, b: string)
    requires LexLess(a, b)
    ensures !LexLess(b, a)
  {
    if |a| > 0 && a[0] == b[0] {
      LexLessAsymmetric(a[1..], b[1..]);
    }
  }

  function DigitChar(d: nat): char
    requires d < 10
  {
    ('0' as int + d) as char
  }

  /** Decimal rendering of a non-negative integer (`${n}`). */
  function NatToString(n: nat): (r: string)
    ensures |r| >= 1
    ensures forall i :: 0 <= i < |r| ==> IsDigit(r[i])
  {
    if n < 10 then [DigitChar(n)] else NatToString(n / 10) + [DigitChar(n % 10)]
  }
}

=== FILE: types.dfy ===
/** The pricing records shared by the calculator, the profile store and the editor (src/types.ts). */
module Types {

  import opened Wrappers
  import opened Numbers

  /** How an additional cost is charged: spread over the batch, or in full on every cake. */
  datatype AllocationType = Batch | PerCake

  /** How profit is derived: a markup on cost, or a fixed amount per cake. */
  datatype ProfitMode = Percentage | Fixed

  /** `cost` is the total spent on this ingredient for one batch; `unit` is free text. */
  datatype Ingredient = Ingredient(id: string, name: string, cost: Num, unit: Option<string>)

  datatype AdditionalCostItem = AdditionalCostItem(
    id: string,
    category: string,
    description: Option<string>,
    amount: Num,
    allocationType: AllocationType)

  /** `profitMode` and `profitFixedAmount` are optional, as in the source. */
  datatype PricingInputs = PricingInputs(
    ingredients: seq<Ingredient>,
    additionalCosts: seq<AdditionalCostItem>,
    numberOfCakes: real,
    profitPercentage: Num,
    profitMode: Option<ProfitMode>,
    profitFixedAmount: Option<Num>)

  datatype BatchTotals = BatchTotals(
    totalIngredientCost: real,
    totalPerBatchAdditionalCosts: real,
    totalPerCakeAdditionalCosts: real)

  /** Six per-cake figures plus the three raw batch sums they came from. */
  datatype CostBreakdownPerCake = CostBreakdownPerCake(
    ingredientCostPerCake: real,
    allocatedBatchCostsPerCake: real,
    perCakeAdditionalCosts: real,
    totalCostPerCake: real,
    profitPerCake: real,
    sellingPricePerCake: real,
    totals: BatchTotals)

  /**
    The invariants the type declaration documents for its callers:
    at least one cake, a non-negative percentage and fixed amount.
   */
  predicate DocumentedInvariants(inputs: PricingInputs)
  {
    && inputs.numberOfCakes >= 1.0
    && inputs.profitPercentage.Finite? && inputs.profitPercentage.value >= 0.0
    && (inputs.profitFixedAmount.Some? ==>
          inputs.profitFixedAmount.value.Finite? && inputs.profitFixedAmount.value.value >= 0.0)
  }
}

=== FILE: wrappers.dfy ===
/** Optional values, standing in for the source's `undefined` / `null`. */
module Wrappers {

  datatype Option<+T> = None | Some(value: T) {

    /** Returns the value in Some, or `default` for None (the source's `x ?? default`). */
    function GetOr(default: T): T
    {
      match this
      case Some(v) => v
      case None => default
    }
  }
}
